=== FILE: README.md ===
# integration-os CLI: the data-transformation core

The integration-os CLI keeps platform definitions, platform models and actions, common
models and common enums as folders of JSON and text files. It moves them to and from the
integration-os API. This project models the deterministic core underneath the prompts and
the HTTP calls, and proves its properties:

- **JSON projection (pull).** `extractProperties`, `nestByDotNotation` and `moveKeyToRoot`,
  plus the per-rule `store*` pipeline. That pipeline extracts, unwraps `root`, moves keys,
  nests, serialises, removes the old file and appends the new text (modules `Projection`, `Pull`).
- **Document assembly (push).** The `getPushStructureData` family folds a declared file list
  into one document (module `Assembly`). Then the create-or-patch decision runs: PATCH when
  there is an `_id`, POST on a 404 or when there is no id, and any other non-2xx fails
  (modules `PushSync`, `PushPlatform`, `PushModels`). The platform syncs and `syncPlatformAction`
  take the outcome of the assembly, a document or the exception it threw, so a failed assembly
  is a failed sync. The assembly itself takes, for each existing `.json` file, what
  `JSON.parse` makes of it, so a file that is not JSON throws `SyntaxError`.
- **Scaffolding.** `replaceStructureValues`, `createFolderStructure`, `copyFile` and
  `createFile` work over a file system. That file system is a map from paths to
  `Dir | File(text)` (modules `Files`, `Scaffold`). `addPlatform` and `addPlatformModel`
  compose trees over it (module `Add`).
- **Naming helpers and validators.** `toPascalCase`, `toCamelCase`,
  `commonModelNameFormatter`, `camelToKebab`, `getActionName`, `splitNames`, `sortByNameKey`,
  `joinKeyValuePairs`, `isSuccessful` and `getCaseCorrectedPath` (modules `Naming`, `Lists`,
  `Files`). Also `checkIfPlatformHasConnectionAndPlatformData` and the `validatePull`
  functions (modules `PushPlatform`, `PullValidation`), and the pull and push run loops with
  their counters (modules `PullRuns`, `PushSync`, `PushModels`).

JSON values are a datatype (`null`, booleans, integers, strings, arrays, objects). Objects are
lists of key/value pairs in insertion order, so `Object.values(properties)[0]` and "later keys
win" merges keep that order. JavaScript lists integer-like keys such as `"5"` first, in numeric
order; the model does not, and "## Left out" names the members whose order this affects. An exception the source throws is a `Failure` of the `Result`
type. Where the source catches it, the model does the same. HTTP replies are inputs
`(status, body)`. `JSON.parse` is a parameter `parse: string -> Option<Value>` where a file is
read and rewritten; the assembly takes the parse outcome of each `.json` file instead. The settings
templates (the folder structures and the template texts) are parameters too.

Some behaviours of the code that a reader might not expect, all of them modelled as written:

- `getCaseCorrectedPath` drops a path segment that has no case-insensitive match in its
  directory. It does not keep the original spelling (`Files.CorrectFrom`).
- A single-segment numeric key in `nestByDotNotation` ends up under that key in both
  branches, so the branches do not differ (`Projection.NestDotFree`).
- `commonModelNameFormatter` also turns a literal `DOUBLECOLON` in the input into `_`
  (`Naming.FormatterPlaceholderCollision`).
- The file checks in the platform `validatePull` test the truthiness of path strings, so
  missing files never fail it (`PullValidation.ModelFilesNotChecked`).
- In named mode, `pushCommonEnum` counts a missing folder neither as a success nor as a
  failure (`PushSync.CommonRunCounts`).
- The `addPlatform` substitution on a shallow copy of the platform template also rewrites
  the shared nested folder objects. So the model template carries the platform values before
  the model values are applied (`Add.ModelRules`).

## Model

| member | source | states |
|---|---|---|
| Text.JoinSplit | bin/helpers.ts:203-229 | joining the pieces of `split(".")` with the same separator gives the key back |
| Text.ReplaceFirst | bin/helpers.ts:25-43 | a string-pattern `replace` rewrites only the first occurrence, and leaves text without the pattern unchanged |
| Text.ReplaceAllChars | bin/helpers.ts:173 | every character of a global replacement comes from the input or from the replacement |
| Text.StripNonAlnum | bin/helpers.ts:173 | removing `[^a-zA-Z0-9]` leaves only letters and digits, and is the identity on such text |
| Text.NatToString | bin/helpers.ts:203-229 | `String(n)` is a non-empty digit string without a leading zero |
| Text.IndexRoundTrip | bin/helpers.ts:203-229 | the key `String(i)` parses back as index `i`, so it addresses element `i` of an array |
| Json.Lookup | bin/helpers.ts:175-201 | a property is absent exactly when its key is not among the object's keys; a found value is one of its entries |
| Json.Put | bin/helpers.ts:203-229 | after `o[k] = v`, `k` holds `v` and every other key reads as before |
| Json.PutKeys | bin/helpers.ts:203-229 | an existing key keeps its position and a new key goes last |
| Json.Remove | bin/helpers.ts:382-409 | after `delete o[k]`, `k` is absent and every other key reads as before |
| Json.AssignKeys | bin/commands/pushPlatform.ts:184-194 | `Object.assign` keeps the target's keys in place, adds the source's, and keeps keys unique |
| Json.AssignLookup | bin/commands/pushPlatform.ts:225-229 | after a merge, the source's keys win and every other key keeps the target's value |
| Json.SetProp | bin/helpers.ts:203-229 | writing a property succeeds exactly on containers; on an object the key then holds the value |
| Json.Prop | bin/helpers.ts:175-201 | reading `v[k]` of an object is a lookup; primitives have no properties |
| Naming.ConcatRuns | bin/helpers.ts:370 | the words `toPascalCase` keeps, glued together, are the input without its non-alphanumeric characters |
| Naming.PascalCaseKeepsCharacters | bin/helpers.ts:370 | `toPascalCase` output holds only ASCII letters and digits, the input's, in order, with only their case changed |
| Naming.PascalCaseIdempotent | bin/helpers.ts:370 | `toPascalCase` of a PascalCase name is that name |
| Naming.ToCamelCase | bin/helpers.ts:161-171 | the word loop computes the camelCase form of the input |
| Naming.CamelCaseShape | bin/helpers.ts:161-171 | `toCamelCase` throws exactly on input without letters or digits; otherwise it keeps them in order, changes only case, and does not start upper-case |
| Naming.CamelCaseIdempotent | bin/helpers.ts:161-171 | camelCase of a camelCase name is that name |
| Naming.FormatterCharacters | bin/helpers.ts:173 | `commonModelNameFormatter` output holds only letters, digits and `_` |
| Naming.FormatterWithoutColons | bin/helpers.ts:173 | a name without `:` (and not spelling the placeholder) only loses its non-alphanumeric characters |
| Naming.FormatterPlaceholderCollision | bin/helpers.ts:173 | the placeholder word is not escaped: `DOUBLECOLON` in the input also becomes `_` |
| Naming.CamelToKebabSpec | bin/helpers.ts:439 | `camelToKebab` output has no upper-case letter, is the lower-cased input with dashes inserted, and is a fixed point |
| Naming.KebabChars | bin/helpers.ts:439 | the regex replacement only inserts dashes between input characters |
| Naming.GetLastNCharacters | bin/helpers.ts:441 | `slice(-n)` for positive `n` is the last `min(n, length)` characters, a suffix of the input |
| Naming.ActionNameParts | bin/helpers.ts:443 | `getActionName(n, id)` is `camelToKebab(n)`, a dash, and the last six characters of `id` |
| Naming.ReplacePathChars | bin/commands/pullPlatform.ts:805 | every `:` and `/` is replaced and every other character is kept |
| Naming.FolderNamesAreSegments | bin/commands/pullPlatform.ts:821 | model and action folder names contain no `/`, so each is one path segment |
| Naming.IsSuccessfulIff | bin/helpers.ts:313 | `isSuccessful(s)` holds exactly for `200 <= s <= 299` |
| Lists.SplitNames | bin/helpers.ts:486-501 | the regex `exec` loop yields the names `NamesFrom` describes, none empty |
| Lists.UnquotedNames | bin/helpers.ts:486-501 | without quotes, the names are the whitespace-separated words: none holds a space, and together they hold every other character in order |
| Lists.QuotedName | bin/helpers.ts:486-501 | a quoted name stays one name, spaces included |
| Lists.StrLessTransitive | bin/helpers.ts:427-437 | string `<`, as code-point order, is transitive (irreflexivity and totality are the neighbouring lemmas) |
| Lists.SortByNameKey | bin/helpers.ts:427-437 | the array ends up sorted by `name` in the requested direction, and is a permutation of the input |
| Lists.Assignments | bin/helpers.ts:330-364 | one `prefix k=v` assignment per pair, in order |
| Lists.JoinKeyValuePairs | bin/helpers.ts:330-364 | the loop builds the command line for the platform; an unknown platform is an error |
| Lists.KeyValueLineAppend | bin/helpers.ts:330-364 | each pair adds one assignment, after the platform's separator unless it is the first |
| Projection.WalkPath | bin/helpers.ts:184-193 | the inner loop follows the key's segments as `Walk` does |
| Projection.ExtractProperties | bin/helpers.ts:175-201 | the loop over the keys computes `extractProperties`, with `{}` for falsy data |
| Projection.ExtractFailureStays | bin/helpers.ts:175-201 | once a key throws, the later keys are never looked at |
| Projection.ExtractedLookup | bin/helpers.ts:175-201 | each requested key maps to what walking its segments finds; keys that find nothing are omitted; no other key appears |
| Projection.ExtractedOrder | bin/helpers.ts:175-201 | the found keys come in the order of their first request |
| Projection.ExtractTopLevel | bin/helpers.ts:175-201 | a dot-free key reads the top level of the object |
| Projection.ExtractSucceeds | bin/helpers.ts:175-201 | `extractProperties` throws exactly when some key walks into a truthy primitive |
| Projection.NestByDotNotation | bin/helpers.ts:203-229 | the loop over the entries computes `Nest` |
| Projection.NestDotFree | bin/helpers.ts:206-216 | an object without dotted keys comes back equal |
| Projection.NestArray | bin/helpers.ts:225 | array input comes back as the same array |
| Projection.NestIdempotent | bin/helpers.ts:203-229 | nesting already nested data changes nothing |
| Projection.NestEntriesShape | bin/helpers.ts:203-229 | every result built from an object has unique, dot-free keys |
| Projection.NewContainerKind | bin/helpers.ts:218-225 | a container created for segment `s` is an array exactly when `s` is a number |
| Projection.InsertKeepsSiblings | bin/helpers.ts:218-225 | keys with another first segment survive, and a truthy value under the first segment is written into rather than replaced, so keys sharing a prefix merge |
| Projection.InsertKeepsNestedSiblings | bin/helpers.ts:218-225 | after a second key under an existing object, that object's other keys are still there |
| Projection.InsertPlaces | bin/helpers.ts:218-225 | key `a.b.c` lands at `result.a.b.c` when no segment is a number and the document holds no arrays |
| Projection.InsertKind | bin/helpers.ts:218-225 | writing succeeds only into a container and keeps its kind |
| Projection.DeleteProp | bin/helpers.ts:382-409 | a successful `delete` keeps the value's kind |
| Projection.MoveKeyToRoot | bin/helpers.ts:382-409 | a successful move yields an object |
| Projection.DetachSpec | bin/helpers.ts:382-409 | the value taken out is the one the key path reached, the path afterwards reaches nothing, and a top-level key off the path is untouched |
| Projection.MoveSpread | bin/helpers.ts:382-409 | with `spread`, the moved value's own keys are at the top level and override same-named keys; every other key keeps its value |
| Projection.MoveStore | bin/helpers.ts:382-409 | without `spread`, the value is stored under `destinationKey`, or under the leaf name when there is none; every other key keeps its value |
| Projection.SetOrDropLookup | bin/helpers.ts:382-409 | assigning a possibly undefined value sets the key or drops it, and leaves every other key alone |
| Files.MakeDirsSpec | bin/helpers.ts:55-63 | `mkdir -p` succeeds exactly when no file is in the way; it then leaves every directory on the path, keeps what was there, and adds nothing else |
| Files.AppendFile | bin/helpers.ts:45-53 | `createFile` appends to an existing file and creates a missing one; no other path changes |
| Files.WriteFile | bin/helpers.ts:139-147 | `overwriteFile` leaves the file holding exactly the text; no other path changes |
| Files.WriteLikeAppend | bin/helpers.ts:45-53 | writing and appending succeed on the same states: a file, or a free path in an existing directory |
| Files.WriteKeepsWellFormed | bin/helpers.ts:45-53 | writing or appending keeps the tree well formed |
| Files.RemoveTree | bin/helpers.ts:149-159 | `rm -r` succeeds exactly on an existing entry and removes it with everything below |
| Files.RemoveKeepsWellFormed | bin/helpers.ts:149-159 | removal keeps the tree well formed |
| Files.RenameSpec | bin/helpers.ts:65-73 | after a rename the entry is found under its new name only, with the same content, and nothing outside the two subtrees changes |
| Files.ReadText | bin/helpers.ts:111-117 | `readFile` succeeds exactly on a file |
| Files.FindIgnoringCase | bin/helpers.ts:372-380 | the match found equals the segment ignoring case and is listed; none found means none is listed |
| Files.CorrectFrom | bin/helpers.ts:372-380 | the corrected path extends the resolved prefix by at most one entry per segment |
| Files.CorrectedIsListed | bin/helpers.ts:372-380 | every step of the corrected path is an entry of the directory before it |
| Files.CorrectedExisting | bin/helpers.ts:372-380 | an existing path, on a disk whose directories never hold names differing only by case, comes back unchanged |
| Files.FileSystem.CheckExistence | bin/helpers.ts:15-23 | true exactly when the path exists |
| Files.FileSystem.CreateFolder | bin/helpers.ts:55-63 | reports whether `mkdir -p` succeeded, and the tree is its result, or unchanged on error |
| Files.FileSystem.CreateFile | bin/helpers.ts:45-53 | reports whether the append succeeded, and the tree is its result, or unchanged on error |
| Files.FileSystem.OverwriteFile | bin/helpers.ts:139-147 | reports whether the write succeeded, and the tree is its result, or unchanged on error |
| Files.FileSystem.RemoveFileOrFolder | bin/helpers.ts:149-159 | succeeds exactly on an existing path; the tree loses that subtree |
| Files.FileSystem.RenameFileOrFolder | bin/helpers.ts:65-73 | reports whether the rename succeeded, and the tree is its result, or unchanged on error |
| Files.FileSystem.ReadFile | bin/helpers.ts:111-117 | the file's text, or an error when there is no file |
| Scaffold.ApplyRulesConcat | bin/helpers.ts:25-43 | replace rules apply in order, one after another |
| Scaffold.ApplyRulesAbsent | bin/helpers.ts:25-43 | a rule whose `from` does not occur changes nothing |
| Scaffold.Copied | bin/helpers.ts:25-43 | a copy needs the template; without rules the destination holds exactly the template text |
| Scaffold.CopyFile | bin/helpers.ts:25-43 | reports whether the copy succeeded, and the tree is its result |
| Scaffold.CreateFolderStructure | bin/helpers.ts:75-101 | the recursive walk leaves the tree `Materialize` describes |
| Scaffold.MaterializeSpec | bin/helpers.ts:75-101 | without overwriting, on a layout that fits the tree, everything is kept, new entries lie below the folder, and every declared folder and file is in place |
| Scaffold.PlaceFilesSpec | bin/helpers.ts:92-98 | files are only added to the directory, each one whose template exists |
| Scaffold.CompleteIsFixpoint | bin/helpers.ts:75-101 | on a tree that already holds the layout, nothing changes |
| Scaffold.MaterializeIdempotent | bin/helpers.ts:75-101 | a second run without overwriting changes nothing |
| Scaffold.MaterializeWellFormed | bin/helpers.ts:75-101 | whatever the layout and flag, the result is a well-formed tree |
| Scaffold.ReplaceRuleTargets | bin/helpers.ts:283-303 | the in-place loop over one file's rules rewrites each target as `Substitute` says |
| Scaffold.ReplaceKeepsShape | bin/helpers.ts:283-303 | substitution changes no name, template, `from` or order, at any depth |
| Scaffold.ReplaceAllRules | bin/helpers.ts:283-303 | every rule at every depth is substituted once, and nothing else is |
| Scaffold.SubstituteChanges | bin/helpers.ts:283-303 | a target changes exactly when the values hold a non-null entry under it, and then becomes that entry, the lookup being made once; `from` never changes |
| Scaffold.SubstituteChainExample | bin/helpers.ts:283-303 | an instance: `{{name}}` with `name` to `"model"` and `model` to `"Account"` becomes `"model"` |
| Assembly.Member | bin/commands/pushPlatform.ts:178-182 | reading a property of a parsed file fails exactly when the file is `null` |
| Assembly.SpreadKey | bin/commands/pushPlatform.ts:184-190 | a value that is not a truthy object is not merged; no key is lost |
| Assembly.SetPath | bin/commands/pushPlatform.ts:196-220 | walking `to` inside an object yields an object |
| Assembly.RearrangeOne | bin/commands/pushPlatform.ts:196-220 | a missing or falsy `from` value is not moved |
| Assembly.TextStep | bin/commands/pushPlatform.ts:233-263 | empty text, a key-less root file, or a dot-free `nested` key contributes nothing |
| Assembly.FileStep | bin/commands/pushPlatform.ts:175-178 | a declared `.json` file that does not exist contributes nothing, and one whose text is not JSON throws `SyntaxError` |
| Assembly.UnparsableFileFails | bin/commands/pushPlatform.ts:175-178 | a declared `.json` file whose text is not JSON makes the whole assembly throw, whatever the other files hold |
| Assembly.GetPushStructureData | bin/commands/pushPlatform.ts:160-265 | the loop folds the declared files in order as `Assemble` describes |
| Assembly.AssembleFailureStays | bin/commands/pushPlatform.ts:160-265 | once a file throws, the later files change nothing |
| Assembly.ApplyJsonFile | bin/commands/pushPlatform.ts:176-231 | the operators and the default step of one parsed file |
| Assembly.CopyKeysLoop | bin/commands/pushPlatform.ts:180-182 | the `copyKeys` loop computes `CopyKeys` |
| Assembly.CopyKeysNull | bin/commands/pushPlatform.ts:180-182 | copying keys from a `null` file throws |
| Assembly.SpreadKeysLoop | bin/commands/pushPlatform.ts:184-190 | the `spreadToRoot` loop computes `SpreadKeys` |
| Assembly.RearrangeLoop | bin/commands/pushPlatform.ts:196-220 | the `rearrangeKeys` loop computes `Rearranges` |
| Assembly.MergeLaterWins | bin/commands/pushPlatform.ts:225-229 | in a plain non-root merge the file's keys win and every other key keeps its value |
| Assembly.RootFile | bin/commands/pushPlatform.ts:222-224 | `root && key` stores the whole file under `key`; `root` without `key` contributes nothing |
| Assembly.ManualSkipsDefault | bin/commands/pushPlatform.ts:222 | `manualStructure` skips the default step and keeps the operators |
| Assembly.CopyKeysValues | bin/commands/pushPlatform.ts:180-182 | each copied key holds the file's value, an absent value removes it, and keys not copied keep their values |
| Assembly.SetPathPlaces | bin/commands/pushPlatform.ts:205-217 | the moved value lands at its `to` path |
| Assembly.SetPathKeepsSiblings | bin/commands/pushPlatform.ts:205-217 | top-level keys other than the first segment are untouched, and a truthy intermediate is reused |
| Assembly.NoObjectUnderFalsy | bin/commands/pushPlatform.ts:200-203 | no object is reached by reading through a falsy value |
| Assembly.NestTextPlaces | bin/commands/pushPlatform.ts:237-250 | a nested text file lands under its last key inside the parent, which keeps its other keys |
| Assembly.EmptyTextAssignedOnlyForCommonModels | bin/commands/pushCommonModel.ts:151-179 | empty text under `root && key` is assigned by the common-model push and skipped by the platform pushes |
| Assembly.EnumMerge | bin/commands/pushCommonEnum.ts:126-150 | the enum merge succeeds exactly when every name is a `.json` name whose file is absent or parses, and each key then holds the value of the last file that has it |
| Assembly.GetEnumStructureData | bin/commands/pushCommonEnum.ts:126-150 | the loop computes `EnumAssemble` |
| Assembly.EnumFailureStays | bin/commands/pushCommonEnum.ts:134-146 | after a non-JSON name or a file that does not parse, later names change nothing |
| Pull.ApplyMoves | bin/commands/pullPlatform.ts:191-195 | a successful non-empty sequence of moves yields an object |
| Pull.Projections | bin/commands/pullPlatform.ts:180-199 | one projection per rule, independent of the file system |
| Pull.ProjectRule | bin/commands/pullPlatform.ts:187-199 | the loop body projects the rule as `Content` says |
| Pull.MoveKeysToRoot | bin/commands/pullPlatform.ts:191-195 | the `moveToRoot` steps run in declared order |
| Pull.Serialised | bin/commands/pullPlatform.ts:197-199 | object content is nested and serialised; other content is written as it is |
| Pull.MovesFailureStays | bin/commands/pullPlatform.ts:191-195 | once a step throws, the later steps never run |
| Pull.StoreData | bin/commands/pullPlatform.ts:167-206 | a `store*` function leaves the tree `Store` describes and reports whether it threw |
| Pull.StoreEach | bin/commands/pullPlatform.ts:175-202 | the rule loop stops at the first exception |
| Pull.EnsureFolder | bin/commands/pullPlatform.ts:169-171 | the folder is created only when absent |
| Pull.StoreOne | bin/commands/pullPlatform.ts:176-201 | one rule: remove the file, create its directory, project, append |
| Pull.StoreRuleExact | bin/commands/pullPlatform.ts:178-201 | a rule with text leaves its file holding exactly that text, whatever was there before |
| Pull.StoreRuleNoText | bin/commands/pullCommonModel.ts:277-291 | a rule whose projection is not text leaves no file behind |
| Pull.MissingRootValue | bin/commands/pullCommonModel.ts:284-289 | nothing found under a `root` rule: the platform pulls write an empty file, the common pulls none |
| Pull.ObjectContent | bin/commands/pullPlatform.ts:189-199 | a non-root rule writes the found keys as one object, nested first by the platform pulls |
| Pull.StoreFlatRule | bin/commands/pullCommonModel.ts:277-291 | one rule in an existing folder keeps the folder and its other files |
| Pull.StoreRulesFiles | bin/commands/pullCommonEnum.ts:236-251 | after the rules, each file holds exactly the projection of the last rule naming it |
| PullValidation.ValidateCommonPull | bin/commands/pullCommonModel.ts:96-176 | succeeds exactly when the folder exists with every required file |
| PullValidation.ActionsOf | bin/commands/pullPlatform.ts:420-745 | the actions kept are exactly those of the model |
| PullValidation.ValidatePlatformPull | bin/commands/pullPlatform.ts:420-745 | succeeds exactly when the platform, `configs`, `models`, model, `schema`, `actions`, action and `definition` folders the data calls for exist |
| PullValidation.ValidateModel | bin/commands/pullPlatform.ts:420-745 | one model passes exactly when its folders and those of its actions exist |
| PullValidation.OnlyCheckedPathsCount | bin/commands/pullPlatform.ts:420-745 | the verdict depends on the checked folders alone |
| PullValidation.ModelFilesNotChecked | bin/commands/pullPlatform.ts:420-745 | a file missing from a model folder never fails the validation |
| PullRuns.FindPage | bin/commands/pullPlatform.ts:807 | the page found is the first whose id and type match |
| PullRuns.PagesDoNotOverlap | bin/commands/pullPlatform.ts:823 | a model's page is never an action's page |
| PullRuns.StorePlatformItem | bin/commands/pullPlatform.ts:344-418 | a model or action is stored with its page as `StoreWithPage` describes |
| PullRuns.PlatformPullResult | bin/commands/pullPlatform.ts:748-860 | `true` exactly on a 2xx reply with rows that validates; `undefined` exactly on a 2xx reply with rows without validation |
| PullRuns.CountPulls | bin/commands/pullPlatform.ts:100-165 | the counters add up to the number of platforms, with `undefined` a failure |
| PullRuns.NoValidationNoSuccess | bin/commands/pullPlatform.ts:131-133 | without validation no platform pull counts as a success |
| PullRuns.ValidatedSuccesses | bin/commands/pullPlatform.ts:748-860 | with validation the successes are the found platforms that validate |
| PullRuns.NamedRunCounts | bin/commands/pullCommonModel.ts:221-258 | a named run counts exactly the items found, whatever the validation says |
| PullRuns.FirstRow | bin/commands/pullCommonModel.ts:235-238 | the first row of a 2xx body; a `null` body throws in both pulls and a body without `rows` throws only in the enum pull (bin/commands/pullCommonEnum.ts:194) |
| PullRuns.PullCommonNamed | bin/commands/pullCommonModel.ts:221-258 | the named-mode loop leaves the tree and counter `NamedRun` describes, a body whose rows cannot be read ending the run |
| PullRuns.NamedRunRowsThrow | bin/commands/pullCommonEnum.ts:192-197 | a 2xx reply whose rows cannot be read ends the run where it stands, counting nothing more |
| PullRuns.PullOne | bin/commands/pullCommonModel.ts:270-293 | one item is stored as `Store` describes for the common pulls |
| PullRuns.NamedRunStops | bin/commands/pullCommonEnum.ts:178-215 | once an item throws, the later names change nothing |
| PullRuns.AllRun | bin/commands/pullCommonModel.ts:187-219 | without an exception every fetched item counts as pulled |
| PullRuns.PullCommonAll | bin/commands/pullCommonEnum.ts:144-178 | the `--all` loop leaves the tree and counter `AllRun` describes |
| PullRuns.AllRunStops | bin/commands/pullCommonModel.ts:187-219 | once an item throws, the later items change nothing |
| PullRuns.StoredCommonValidates | bin/commands/pullCommonModel.ts:270-293 | a pull whose rules write every required file leaves a folder that passes `validatePull` |
| PushSync.DecideSpec | bin/commands/pushCommonModel.ts:218-243 | a POST is sent exactly when there is no id or the PATCH answered 404, and the PATCH comes first when there is an id |
| PushSync.Assigned | bin/commands/pushPlatform.ts:760-767 | assigning a key succeeds exactly on containers, and on an object sets or drops the key |
| PushSync.ReadJson | bin/commands/pushCommonModel.ts:196-199 | reading a configuration succeeds exactly on a file whose text parses, giving the parsed value |
| PushSync.RewriteSpec | bin/commands/pushPlatform.ts:760-767 | a file holding an object gets the key set and keeps its other keys; a missing or unparsable file throws |
| PushSync.RewriteFrame | bin/commands/pushPlatform.ts:760-767 | a rewrite changes its own file and nothing else |
| PushSync.RewriteConfig | bin/commands/pushPlatform.ts:350-356 | reports whether the read-update-write went through, and the tree is the rewritten one or unchanged |
| PushSync.RecordCreatedId | bin/commands/pushCommonModel.ts:196-202 | succeeds exactly when `RecordId` does, returning the recorded id |
| PushSync.SyncCommon | bin/commands/pushCommonModel.ts:185-244 | the verdict and the tree are those `CommonSync` describes |
| PushSync.CreateCommon | bin/commands/pushCommonEnum.ts:157-182 | a refused POST changes nothing and fails; an accepted one records the new id |
| PushSync.CommonSyncFrame | bin/commands/pushCommonModel.ts:185-244 | a push that does not create leaves every file alone; a create changes only its own `config.json` |
| PushSync.CommonSyncWritesOnlyConfig | bin/commands/pushCommonModel.ts:185-244 | the exchange for any folder under the root creates or removes no entry except that folder's `config.json` |
| PushSync.CreateRecordsId | bin/commands/pushCommonModel.ts:196-202 | a successful create records the returned `_id` and keeps the file's other fields |
| PushSync.PushCommonNamed | bin/commands/pushCommonModel.ts:100-120 | the named-mode loop leaves the counters and tree `CommonRun` describes |
| PushSync.PushOne | bin/commands/pushCommonEnum.ts:103-115 | one name: sync its folder when it exists and count the outcome |
| PushSync.CommonRunStops | bin/commands/pushCommonModel.ts:68-128 | once the push throws, later names change nothing |
| PushSync.CommonRunCounts | bin/commands/pushCommonModel.ts:105-124 | successes plus failures is the number of names for common models and the number of present folders for common enums |
| PushSync.Present | bin/commands/pushCommonEnum.ts:103-120 | at most one present folder per name |
| PushPlatform.CheckConnectionSpec | bin/commands/pushPlatformModel.ts:93-157 | the check passes exactly when `configs` exists and both files hold a truthy `_id`, handing the ids on; otherwise the message names the first failing check |
| PushPlatform.CreateNewM | bin/commands/pushPlatform.ts:360-388 | the create records the returned `_id` on a 2xx reply |
| PushPlatform.SyncConnectionDefinition | bin/commands/pushPlatform.ts:267-343 | success, data and tree are those `DefinitionSync` describes, with a document that failed to assemble a failure that writes nothing |
| PushPlatform.SyncConnectionPlatform | bin/commands/pushPlatform.ts:345-428 | success, data and tree are those `PlatformSync` describes, with a document that failed to assemble a failure that writes nothing |
| PushPlatform.SyncPlatformHead | bin/commands/pushPlatform.ts:1012-1030 | the gating of `syncPlatform` as `PlatformHead` describes, including a document that failed to assemble |
| PushPlatform.FillKeepsId | bin/commands/pushPlatform.ts:350-358 | filling `connectionDefinitionId` leaves the platform's `_id` alone |
| PushPlatform.DefinitionData | bin/commands/pushPlatform.ts:267-343 | data is handed on exactly when the definition assembled, had an `_id` and its sync succeeded; a failed assembly writes nothing |
| PushPlatform.PlatformData | bin/commands/pushPlatform.ts:345-428 | data is handed on exactly when the platform assembled, had an `_id` and its sync succeeded; a failed assembly writes nothing |
| PushPlatform.ExchangeData | bin/commands/pushPlatform.ts:388-428 | the exchange hands data on exactly when there was an `_id` and it succeeded |
| PushPlatform.PlatformHeadSpec | bin/commands/pushPlatform.ts:1018-1023 | the models are pushed exactly when both documents assembled, already had an `_id` and both exchanges succeeded; a first push stops; a definition that fails to assemble stops with nothing written, a platform that fails keeps only the definition's writes |
| PushPlatform.FirstPushRecordsDefinitionId | bin/commands/pushPlatform.ts:276-292 | a first push records the assigned `_id` in `connection-definition.json`, keeping the other fields |
| PushModels.DefaultLookup | bin/commands/pushPlatformModel.ts:279-285 | a falsy key takes the default; every other key is unchanged |
| PushModels.NullMappingLookup | bin/commands/pushPlatformModel.ts:287-289 | a mapping without a truthy `commonModelName` becomes `null`; nothing else changes |
| PushModels.SchemaDataSpec | bin/commands/pushPlatformModel.ts:279-289 | the schema document takes a falsy `connectionDefinitionId` or `platformId` from the arguments, nulls an unnamed mapping, and keeps every other key |
| PushModels.ActionDataSpec | bin/commands/pushPlatformAction.ts:258-284 | the action document takes a falsy `connectionDefinitionId` or `authMethod` from the connection definition, nulls an unnamed mapping, sets `active` when asked, and keeps every other key |
| PushModels.ActionDefaultsData | bin/commands/pushPlatform.ts:758-791 | when the config rewrites go through, the document is the one `ActionData` describes |
| PushModels.ActionDefaultsFrame | bin/commands/pushPlatform.ts:758-791 | the defaults write `definition/config.json` and nothing else |
| PushModels.FillM | bin/commands/pushPlatformAction.ts:258-263 | one default and its config rewrite as `Fill` describes |
| PushModels.FillIfFalsyM | bin/commands/pushPlatformAction.ts:264-271 | a default written only when the key is falsy |
| PushModels.ApplyActionDefaults | bin/commands/pushPlatformAction.ts:258-284 | the three defaults as `ActionDefaults` describes |
| PushModels.CreateDefinitionM | bin/commands/pushPlatformAction.ts:339-365 | the create as `CreateDefinition` describes: nothing on a refusal, the id recorded and the name recomputed on success |
| PushModels.SyncPlatformAction | bin/commands/pushPlatformAction.ts:250-410 | verdict and tree as `ActionSync` describes, on the assembled document or the exception the assembly threw |
| PushModels.ActionSync | bin/commands/pushPlatformAction.ts:250-257 | a failed assembly, or a `name` or `_id` that is not a string, is a failure that writes nothing (the `catch` at bin/commands/pushPlatformAction.ts:404-409) |
| PushModels.Exchange | bin/commands/pushPlatformAction.ts:367-395 | verdict and tree as `ActionExchange` describes |
| PushModels.RenameToSibling | bin/commands/pushPlatformAction.ts:397-401 | renaming onto a free sibling moves the folder there |
| PushModels.ExchangeRenames | bin/commands/pushPlatformAction.ts:367-401 | after a successful PATCH, or a refused first create, the folder is moved to the name computed first |
| PushModels.ActionFolderRenamed | bin/commands/pushPlatformAction.ts:397-401 | the folder ends up named `getActionName(name, _id)`: kept when it already is, moved to the free sibling otherwise |
| PushModels.Select | bin/commands/pushPlatformModel.ts:789-797 | exactly the folders whose names were requested, in listing order |
| PushModels.Missing | bin/commands/pushPlatformAction.ts:435-448 | at most one missing count per requested name |
| PushModels.CountMissing | bin/commands/pushPlatformAction.ts:435-448 | the loop counts the requested names without a folder |
| PushModels.MissingSpec | bin/commands/pushPlatformAction.ts:435-448 | nothing is missing exactly when every requested name has a folder, and then every one is synced |
| PushModels.Count | bin/commands/pushPlatformModel.ts:815-851 | never more successes than results |
| PushModels.SyncPlatformModels | bin/commands/pushPlatformModel.ts:803-860 | the counting loop computes `Tally` |
| PushModels.TallySpec | bin/commands/pushPlatformModel.ts:815-851 | schemas counted are exactly those pushed; actions count only when asked for and after a pushed schema, and never exceed those tried |
| Add.MatchIgnoringCase | bin/commands/addPlatform.ts:78-88 | finds a name equal to the answer ignoring case, exactly when there is one |
| Add.VerifiedAuthType | bin/commands/addPlatform.ts:78-88 | the user's spelling is returned exactly when it names an auth type ignoring case |
| Add.AuthAnswerSpec | bin/commands/addPlatform.ts:90-106 | an empty answer means `oauth`; an accepted type is returned in the user's spelling; anything else re-asks |
| Add.FolderIndex | bin/commands/addPlatform.ts:148-152 | the first folder with the name, or none when no folder has it |
| Add.Named | bin/commands/addPlatform.ts:185-191 | exactly the folders with the name, in order |
| Add.ComposePlatformSpec | bin/commands/addPlatform.ts:144-192 | the tree has the `configs` folders, one `models` folder with one sub-folder per model in order, and an `auth` folder exactly when the type is not `none`, holding the template folders named exactly like it |
| Add.NamedReplaced | bin/commands/addPlatform.ts:185-191 | filtering folders by name and substituting values into them commute |
| Add.ComposedFromTemplate | bin/commands/addPlatform.ts:144-192 | each part equals the template's: the `configs` folders and the `auth` folder's files and same-named sub-folders with the platform values in, the `models` folder's files with them, and per model the first model template with the platform values and then that model's |
| Add.ComposedFits | bin/commands/addPlatform.ts:144-192 | with distinct names in the template and distinct models, sibling names in the composed tree are distinct, and it needs no template the template did not |
| Add.ModelRules | bin/commands/addPlatform.ts:158-180 | each model's rules are the template's with the platform values, then that model's values: no model sees another model's values |
| Add.AddPlatform | bin/commands/addPlatform.ts:134-202 | the tree afterwards is the one `AddPlatformTree` describes |
| Add.AddPlatformSpec | bin/commands/addPlatform.ts:134-202 | an existing platform folder changes nothing; a new one, with no file in the way, becomes a directory holding the whole composed tree, keeps every old entry and adds entries only on the way to it or below it |
| Add.DefinedLookup | bin/commands/addPlatformModel.ts:69-89 | an undefined value is as good as absent |
| Add.RowConfigLookup | bin/commands/addPlatformModel.ts:81-89 | the row's values under their new keys, and nothing else |
| Add.DefaultConfigLookup | bin/commands/addPlatformModel.ts:69-74 | empty ids and the folder's own spelling of the platform |
| Add.PlatformConfigSpec | bin/commands/addPlatformModel.ts:69-89 | without a 2xx reply with rows the defaults stand; with one the configuration is the first row's, and a `null` row throws |
| Add.ModelLayoutSpec | bin/commands/addPlatformModel.ts:99-112 | the model tree is the template's `schema` folders then one `actions` folder whose sub-folders are renamed `<name>-<modelName>`, contents kept; no `actions` folder throws |
| Add.AddPlatformModel | bin/commands/addPlatformModel.ts:60-127 | the loop leaves the tree `AddModels` describes, stopping at an exception |
| Add.AddEachModel | bin/commands/addPlatformModel.ts:91-120 | the loop over the models leaves the tree `AddModels` describes, stopping at the first exception |
| Add.AddOneModel | bin/commands/addPlatformModel.ts:91-120 | one model of the loop as `AddModel` describes |
| Add.AddModelsStopped | bin/commands/addPlatformModel.ts:91-120 | once the loop stops, the tree stays as it was |
| Add.AddModelSkips | bin/commands/addPlatformModel.ts:92-96 | an existing model folder is skipped; a missing platform folder skips everything |
| Add.ModelValuesSpec | bin/commands/addPlatformModel.ts:112-115 | every model gets its own name under `modelName`, and the other values come from the platform configuration |

## Left out

- HTTP and `getAllRows` pagination are not modelled. Replies are inputs `(status, body)`, and fetched row lists are inputs.
- Prompts, yargs wiring, console tables, colours and winston logging are not modelled.
- Docker, `child_process`, `downloadFile`, credentials and `process.exit` are not modelled. A missing platform in `addPlatformModel` changes nothing.
- `JSON.parse` is the parameter `parse`, and in the assembly an outcome given per file. `JSON.stringify(..., 4)` is a compact serialiser whose exact text no property depends on. Its string escaping covers `"` and `\` only.
- Platform pages are not modelled: the `page.json` create, patch and update paths of `syncPlatformSchema` and `syncPlatformAction`, and `updatePage`. Page matching and page storing on pull are modelled.
- The create-or-patch exchange of `syncPlatformSchema` is not modelled beyond its defaults (`PushModels.SchemaDataSpec`), and neither is `syncOauthConnectionDefinition`. Both follow the decision `PushSync.DecideSpec` states.
- `--all` modes take the listed folders or the fetched rows as a parameter. `listSubDirectories` is not modelled.
- Projection.ExtractProperties: inherited prototype properties read as absent. Integer-like keys keep insertion order, where JavaScript lists them first.
- Projection.ExtractedOrder: the found keys are stated in the order of their first request. JavaScript lists integer-like keys first, in numeric order, so `["b", "1"]` gives `{"1": ..., "b": ...}` in the source.
- Json.PutKeys: a new key goes last. In JavaScript `o["5"] = v` on `{a: 1}` lists `5` before `a`, since integer-like keys come first in numeric order.
- Json.AssignKeys: the target's keys stay first in their order. `Object.assign` and object spread list integer-like keys first, in numeric order, whichever object they came from.
- Lists.JoinKeyValuePairs: the pairs are emitted in insertion order. `for…in` visits integer-like keys first, so `{B: "x", "1": "y"}` gives `1=y B=x` in the source and `B=x 1=y` here.
- PullRuns.FirstRow: a `rows` that is present but not an array is not modelled. In the source a string there would be read by its `length` and first character.
- Projection.NestByDotNotation: `isNumber` is simplified to a non-empty run of decimal digits. JavaScript's `Number()` also accepts the empty string, surrounding spaces, signs, fractions, exponents and hex, so segments such as `1e3` or `-1` count as numbers in the source and not here.
- Projection.MoveKeyToRoot: the shallow copy's aliasing of nested input objects is not modelled. The result is a value.
- Json.SetProp: writing `length` or another non-index key to an array leaves it unchanged. In JavaScript a non-numeric `length` throws `RangeError` and a numeric one truncates or extends the array, and a non-index key becomes a property that `JSON.stringify` drops. Indices of 2^32-1 and above are taken as array indices, where JavaScript treats them as plain keys.
- Setting a property to `undefined` is modelled as removing it, since `JSON.stringify` drops it.
- `path.join` normalisation is not modelled. A name or id containing `/` or `..` is a plain segment (`Naming.FolderNamesAreSegments` states where that holds).
- `$` patterns in replacement text of `String.replace` are not modelled.
- Files.CorrectFrom: the directory listing `getCaseCorrectedPath` reads is a separate parameter.
- Naming.CamelToKebabSpec: upper and lower case are ASCII only. JavaScript's `toLowerCase()` maps all of Unicode, so `ÜberSync` becomes `über-sync` in the source and keeps its `Ü` here.
- Files.FindIgnoringCase: names are compared with ASCII-only lower-casing. JavaScript's `toLowerCase()` also folds non-ASCII letters, so names differing only in such a letter match in the source and not here.
- Add.MatchIgnoringCase: the comparison is ASCII-only lower-casing. With JavaScript's Unicode `toLowerCase()` more answers match, such as `api\u212Aey` (a Kelvin sign) for `apiKey`.
- Add.VerifiedAuthType: accepts an answer exactly when it equals an auth type under ASCII-only lower-casing. The source's Unicode `toLowerCase()` accepts a few more answers, as for `Add.MatchIgnoringCase`.
- Assembly.ApplyJsonFile: values are trees, not shared references. In the source, `copyKeys` and `spreadToRoot` put the parsed file's own objects into the result, so a later `rearrangeKeys` write through one of them also changes the other. With `{"config":{"a":1},"x":5}`, `copyKeys: ["config"]` and `rearrangeKeys: [{from: "x", to: "config.y"}]`, a later `!root` spread gives `config` `{a:1,y:5}` in the source and `{a:1}` here. Writes into an object that came from `addKeys` likewise change the settings object in the source and not here.
- Assembly.GetPushStructureData: a declared non-JSON file must be a readable text file. In the source an unreadable one reads as the error object `readFile` returns: with `root` and `key` it is skipped, since it has no `length`, and without `root` its `errno`, `code`, `syscall` and `path` are spread into the result.
- Files.FileSystem.RenameFileOrFolder: renaming onto an existing path always fails with EEXIST and leaves the tree as it was. POSIX `rename` replaces an existing empty directory (or a file with a file), so renaming an action folder onto an existing empty folder succeeds in the source.
- PullRuns.CountPulls: the secondary requests of `storePlatformData` (bin/commands/pullPlatform.ts:767-796) have no `validateStatus`. A non-2xx reply to one of them throws to the outer `catch` (bin/commands/pullPlatform.ts:161-163), which ends the whole run without printing counts. `PlatformReply` has no such case.
- PushSync.CommonRun: the assembled document of each common model or enum is given data. An exception while assembling it, which ends the run in the source, is not modelled.
- Lists.SortByNameKey: the contract states sorted and a permutation. It does not state that rows with equal names keep their relative order, as JavaScript's stable `sort` does.
- Strings are sequences of Unicode code points, not of UTF-16 code units. `Lists.StrLess` therefore orders a character above U+FFFF after one in U+E000 to U+FFFF, where JavaScript's `<` puts it before; and a string's `length` and indices in `Json.Prop` count code points where JavaScript counts code units.
- Add.ComposePlatformSpec: the settings templates are parameters, and the template must have a `models` folder (and an `auth` folder unless the type is `none`).
- Add.PlatformConfigSpec: the reply's `rows` are taken to be an array.
- `syncPlatformModelActions` counting is covered by `PushModels.TallySpec` with every schema counted as pushed.
- Thin wrappers are not modelled: `addCommonModel`, `addCommonEnum`, `addPlatformOAuth`, `init`, the `delete*` and `list*` commands, `start` and `stop`. They only chain prompts, HTTP and the helpers above.
- bin/templates/server/oAuth/platform/refresh.ts and bin/interfaces.ts are not part of this model.

=== FILE: add.dfy ===
/** The `add` commands for platforms (bin/commands/addPlatform.ts,
    bin/commands/addPlatformModel.ts): the auth-type answer, the folder tree composed
    from the platform and model templates of the settings, and the runs that lay
    it out on the file system. */
module Add {
  import opened Wrappers
  import opened Text
  import opened Json
  import opened Files
  import Naming
  import opened Scaffold
  import Assembly

  // ------------------------------------------------------------ the auth question

  const AuthTypes: seq<string> := ["oauth", "bearer", "basic", "apiKey", "oauthLegacy", "none"]

  /** The answer names one of the auth types, ignoring case. */
  predicate AuthAccepted(answer: string) {
    exists i | 0 <= i < |AuthTypes| :: Lower(AuthTypes[i]) == Lower(answer)
  }

  /** `getVerifiedAuthType`: the answer as the user spelled it when it names an
      auth type in any casing, `null` otherwise. */
  method VerifiedAuthType(answer: string) returns (r: Option<string>)
    ensures r.Some? <==> AuthAccepted(answer)
    ensures r.Some? ==> r.value == answer
  {
    r := MatchIgnoringCase(AuthTypes, answer);
  }

  /** The loop of `getVerifiedAuthType` over a list of names. */
  method MatchIgnoringCase(names: seq<string>, answer: string) returns (r: Option<string>)
    ensures r.Some? <==> exists i | 0 <= i < |names| :: Lower(names[i]) == Lower(answer)
    ensures r.Some? ==> r.value == answer
  {
    for i := 0 to |names|
      invariant forall j | 0 <= j < i :: Lower(names[j]) != Lower(answer)
    {
      if Lower(names[i]) == Lower(answer) {
        return Some(answer);
      }
    }
    return None;
  }

  /** One answer to the auth question: an empty one means `oauth`; `None` means the
      question is asked again. */
  function AuthAnswer(answer: string): Option<string> {
    if |answer| == 0 then Some("oauth")
    else if AuthAccepted(answer) then Some(answer)
    else None
  }

  /** Every auth type that comes out is accepted, in the user's own spelling unless
      the answer was empty. */
  lemma AuthAnswerSpec(answer: string)
    ensures AuthAnswer(answer).Some? <==> |answer| == 0 || AuthAccepted(answer)
    ensures AuthAnswer(answer).Some? ==> AuthAccepted(AuthAnswer(answer).value)
    ensures |answer| > 0 && AuthAnswer(answer).Some? ==> AuthAnswer(answer).value == answer
  {
    if |answer| == 0 {
      assert Lower(AuthTypes[0]) == Lower("oauth");
    }
  }

  // ------------------------------------------------------------ folder lists

  /** `folders.find(folder => folder.name === name)`, as an index. */
  function FolderIndex(folders: seq<FolderSpec>, name: string): (r: Option<nat>)
    ensures r.Some? ==> r.value < |folders| && folders[r.value].name == name
    ensures r.Some? ==> forall j | 0 <= j < r.value :: folders[j].name != name
    ensures r.None? ==> forall j | 0 <= j < |folders| :: folders[j].name != name
  {
    if |folders| == 0 then None
    else if folders[0].name == name then Some(0)
    else match FolderIndex(folders[1..], name)
      case None => None
      case Some(j) => Some(j + 1)
  }

  /** `folders.filter(folder => folder.name === name)`. */
  function Named(folders: seq<FolderSpec>, name: string): (r: seq<FolderSpec>)
    ensures forall f :: f in r <==> f in folders && f.name == name
    ensures |r| <= |folders|
  {
    if |folders| == 0 then []
    else (if folders[0].name == name then [folders[0]] else []) + Named(folders[1..], name)
  }

  /** Among folders with distinct names, at most one has a given name. */
  lemma NamedAtMostOne(folders: seq<FolderSpec>, name: string)
    requires forall i, j | 0 <= i < j < |folders| :: folders[i].name != folders[j].name
    ensures |Named(folders, name)| <= 1
  {
    if |folders| > 0 {
      var rest := folders[1..];
      NamedAtMostOne(rest, name);
      if folders[0].name == name {
        forall j | 0 <= j < |rest| ensures rest[j].name != name {
          assert folders[0].name != folders[j + 1].name;
        }
        NamedNone(rest, name);
      }
    }
  }

  lemma NamedNone(folders: seq<FolderSpec>, name: string)
    requires forall j | 0 <= j < |folders| :: folders[j].name != name
    ensures Named(folders, name) == []
  {
  }

  /** The folders with the substitution applied to each one's subtree, as
      `replaceStructureValues` leaves them. */
  function ReplacedFolders(folders: seq<FolderSpec>, values: Fields): (r: seq<FolderSpec>)
    ensures |r| == |folders|
    ensures forall i | 0 <= i < |folders| :: r[i].name == folders[i].name
  {
    seq(|folders|, i requires 0 <= i < |folders| =>
      folders[i].(layout := ReplaceStructureValues(folders[i].layout, values)))
  }

  /** Filtering by name and substituting commute: the names are not substituted. */
  lemma {:induction false} NamedReplaced(folders: seq<FolderSpec>, name: string, values: Fields)
    ensures Named(ReplacedFolders(folders, values), name) == ReplacedFolders(Named(folders, name), values)
  {
    if |folders| > 0 {
      var rf := ReplacedFolders(folders, values);
      var tail := folders[1..];
      assert rf[1..] == ReplacedFolders(tail, values);
      NamedReplaced(tail, name, values);
      var head := if folders[0].name == name then [folders[0]] else [];
      assert Named(folders, name) == head + Named(tail, name);
      ReplacedConcat(head, Named(tail, name), values);
      assert ReplacedFolders(head, values) == if rf[0].name == name then [rf[0]] else [];
    }
  }

  lemma ReplacedConcat(a: seq<FolderSpec>, b: seq<FolderSpec>, values: Fields)
    ensures ReplacedFolders(a + b, values) == ReplacedFolders(a, values) + ReplacedFolders(b, values)
  {
    var l := ReplacedFolders(a + b, values);
    var r := ReplacedFolders(a, values) + ReplacedFolders(b, values);
    forall i | 0 <= i < |l| ensures l[i] == r[i] {
      if i >= |a| {
        assert (a + b)[i] == b[i - |a|];
      }
    }
  }

  /** A layout put together from folders with distinct names keeps what each part has. */
  lemma AssembleFits(folders: seq<FolderSpec>, files: seq<FileSpec>, templates: map<string, string>)
    requires forall i, j | 0 <= i < j < |folders| :: folders[i].name != folders[j].name
    ensures (forall f | f in folders :: DistinctFolders(f.layout)) ==> DistinctFolders(Layout(folders, files))
    ensures (forall f | f in folders :: TemplatesPresent(templates, f.layout))
            && (forall j | 0 <= j < |files| :: files[j].template in templates)
            ==> TemplatesPresent(templates, Layout(folders, files))
  {
    assert forall i | 0 <= i < |folders| :: folders[i] in folders;
  }

  /** Folders picked out of a layout keep its distinct names and its templates. */
  lemma PickedFit(l: Layout, picked: seq<FolderSpec>, templates: map<string, string>)
    requires forall f | f in picked :: f in l.folders
    ensures DistinctFolders(l) ==> forall f | f in picked :: DistinctFolders(f.layout)
    ensures TemplatesPresent(templates, l) ==> forall f | f in picked :: TemplatesPresent(templates, f.layout)
  {
    forall f | f in picked
      ensures DistinctFolders(l) ==> DistinctFolders(f.layout)
      ensures TemplatesPresent(templates, l) ==> TemplatesPresent(templates, f.layout)
    {
      var i :| 0 <= i < |l.folders| && l.folders[i] == f;
    }
  }

  // ------------------------------------------------------------ addPlatform

  /** The values substituted into the whole platform template. */
  function PlatformValues(platformName: string, auth: string): Fields {
    [("platformName", Str(platformName)), ("isOauth", Bool(auth == "oauth")), ("connectionDefinitionId", Str(""))]
  }

  /** The values substituted into one model's subtree. */
  function NewModelValues(model: string, platformName: string): Fields {
    [("modelName", Str(model)), ("platformVersion", Str("")), ("platformId", Str("")),
     ("connectionPlatform", Str(platformName)), ("connectionDefinitionId", Str(""))]
  }

  /** What the composition reads from the template: a `models` folder, and an
      `auth` folder unless no auth is wanted. */
  predicate Composable(template: Layout, auth: string) {
    FolderIndex(template.folders, "models").Some? && (auth != "none" ==> FolderIndex(template.folders, "auth").Some?)
  }

  /** `models.folders?.[0] ?? {}`. */
  function FirstModel(models: FolderSpec): FolderSpec {
    if |models.layout.folders| > 0 then models.layout.folders[0] else FolderSpec("", Layout([], []))
  }

  /** The tree `addPlatform` lays out. The substitution on the shallow copy of the
      template reaches every nested folder object, so the `configs`, `models` and
      `auth` folders and the model template have the platform values in them
      before the model values are applied to a clone of the latter. */
  function ComposePlatform(template: Layout, platformName: string, auth: string, models: seq<string>): Layout
    requires Composable(template, auth)
  {
    var p := ReplaceStructureValues(template, PlatformValues(platformName, auth));
    var authFolders :=
      if auth == "none" then []
      else [AuthFolder(p.folders[FolderIndex(template.folders, "auth").value], auth)];
    Layout(Named(p.folders, "configs")
             + [ModelsFolder(p.folders[FolderIndex(template.folders, "models").value], platformName, models)]
             + authFolders,
           p.files)
  }

  /** The `models` folder: the folder's files, and per requested model a clone of the
      first model template with that model's values substituted. */
  function ModelsFolder(modelsFolder: FolderSpec, platformName: string, models: seq<string>): FolderSpec {
    var model := FirstModel(modelsFolder);
    var modelFolders := seq(|models|, i requires 0 <= i < |models| =>
      FolderSpec(models[i], ReplaceStructureValues(model.layout, NewModelValues(models[i], platformName))));
    FolderSpec("models", Layout(modelFolders, modelsFolder.layout.files))
  }

  /** The `auth` folder: its files, and only the sub-folders named like the auth type. */
  function AuthFolder(authFolder: FolderSpec, auth: string): FolderSpec {
    FolderSpec("auth", Layout(Named(authFolder.layout.folders, auth), authFolder.layout.files))
  }

  /** The composed tree has `configs` folders, one `models` folder with a sub-folder
      per requested model in order, and an `auth` folder exactly when the auth type
      is not `none`, whose sub-folders are the template's named exactly like the
      auth type (case-sensitively). Each model's rules are the template's rules with
      the platform values and then that model's values substituted. */
  lemma ComposePlatformSpec(template: Layout, platformName: string, auth: string, models: seq<string>)
    requires Composable(template, auth)
    ensures var l := ComposePlatform(template, platformName, auth, models);
      && (forall f | f in l.folders :: f.name in {"configs", "models", "auth"})
      && (exists f | f in l.folders :: f.name == "auth") == (auth != "none")
      && (exists f | f in l.folders :: f.name == "models")
      && (forall f | f in l.folders && f.name == "models" ::
            |f.layout.folders| == |models| && forall i | 0 <= i < |models| :: f.layout.folders[i].name == models[i])
      && (forall f, g | f in l.folders && f.name == "auth" && g in f.layout.folders :: g.name == auth)
  {
    var p := ReplaceStructureValues(template, PlatformValues(platformName, auth));
    var l := ComposePlatform(template, platformName, auth, models);
    var k := |Named(p.folders, "configs")|;
    ComposedParts(template, platformName, auth, models);
    forall f | f in l.folders
      ensures f.name in {"configs", "models", "auth"}
      ensures f.name == "models" ==> f == l.folders[k]
      ensures f.name == "auth" ==> auth != "none" && f == l.folders[k + 1]
    {
      var i :| 0 <= i < |l.folders| && l.folders[i] == f;
      if i < k {
        assert f in l.folders[..k];
      }
    }
    assert l.folders[k] in l.folders;
    if auth != "none" {
      assert l.folders[k + 1] in l.folders;
    }
  }

  /** The composed folders by position: the `configs` folders, then `models`, then
      `auth` unless no auth is wanted. */
  lemma ComposedParts(template: Layout, platformName: string, auth: string, models: seq<string>)
    requires Composable(template, auth)
    ensures var p := ReplaceStructureValues(template, PlatformValues(platformName, auth));
      var l := ComposePlatform(template, platformName, auth, models);
      var k := |Named(p.folders, "configs")|;
      && |l.folders| == (if auth == "none" then k + 1 else k + 2)
      && (forall f | f in l.folders[..k] :: f.name == "configs")
      && l.folders[k].name == "models" && |l.folders[k].layout.folders| == |models|
      && (forall i | 0 <= i < |models| :: l.folders[k].layout.folders[i].name == models[i])
      && (auth != "none" ==> l.folders[k + 1].name == "auth" && forall g | g in l.folders[k + 1].layout.folders :: g.name == auth)
  {
    var p := ReplaceStructureValues(template, PlatformValues(platformName, auth));
    var l := ComposePlatform(template, platformName, auth, models);
    var k := |Named(p.folders, "configs")|;
    assert l.folders[..k] == Named(p.folders, "configs");
    ComposedModels(template, platformName, auth, models);
    if auth != "none" {
      ComposedAuth(template, platformName, auth, models);
    }
  }

  lemma ComposedModels(template: Layout, platformName: string, auth: string, models: seq<string>)
    requires Composable(template, auth)
    ensures var p := ReplaceStructureValues(template, PlatformValues(platformName, auth));
      var l := ComposePlatform(template, platformName, auth, models);
      var k := |Named(p.folders, "configs")|;
      && k < |l.folders| && l.folders[k].name == "models" && |l.folders[k].layout.folders| == |models|
      && (forall i | 0 <= i < |models| :: l.folders[k].layout.folders[i].name == models[i])
  {
  }

  lemma ComposedAuth(template: Layout, platformName: string, auth: string, models: seq<string>)
    requires Composable(template, auth) && auth != "none"
    ensures var p := ReplaceStructureValues(template, PlatformValues(platformName, auth));
      var l := ComposePlatform(template, platformName, auth, models);
      var k := |Named(p.folders, "configs")|;
      && |l.folders| == k + 2 && l.folders[k + 1].name == "auth"
      && forall g | g in l.folders[k + 1].layout.folders :: g.name == auth
  {
  }

  /** Every rule of model `i`'s subtree is the model template's rule with the
      platform values substituted, then model `i`'s values: no model sees another
      model's values. */
  lemma ModelRules(template: Layout, platformName: string, auth: string, models: seq<string>, i: nat)
    requires Composable(template, auth) && i < |models|
    ensures var p := ReplaceStructureValues(template, PlatformValues(platformName, auth));
      var original := FirstModel(template.folders[FolderIndex(template.folders, "models").value]);
      var l := ComposePlatform(template, platformName, auth, models);
      var k := |Named(p.folders, "configs")|;
      k < |l.folders| && i < |l.folders[k].layout.folders|
      && AllRules(l.folders[k].layout.folders[i].layout)
         == SubstituteRules(SubstituteRules(AllRules(original.layout), PlatformValues(platformName, auth)), NewModelValues(models[i], platformName))
  {
    var values := PlatformValues(platformName, auth);
    var p := ReplaceStructureValues(template, values);
    var idx := FolderIndex(template.folders, "models").value;
    var original := FirstModel(template.folders[idx]);
    var tf := template.folders[idx];
    assert p.folders[idx] == tf.(layout := ReplaceStructureValues(tf.layout, values));
    var q := ReplaceStructureValues(tf.layout, values);
    var replaced := FirstModel(p.folders[idx]);
    if |tf.layout.folders| > 0 {
      assert q.folders[0] == tf.layout.folders[0].(layout := ReplaceStructureValues(tf.layout.folders[0].layout, values));
      assert replaced.layout == ReplaceStructureValues(original.layout, values);
      ReplaceAllRules(original.layout, values);
    } else {
      assert |q.folders| == 0;
      assert replaced == original == FolderSpec("", Layout([], []));
      assert AllRules(original.layout) == [];
    }
    ReplaceAllRules(replaced.layout, NewModelValues(models[i], platformName));
  }

  /** The composed tree read against the template: its `configs` folders are the
      template's with the platform values in, the `models` folder holds the template's
      files with the platform values and, per requested model in order, the first model
      template with the platform values and then that model's values in, and the `auth`
      folder holds the template's files and only its sub-folders named like the auth type,
      with the platform values in. */
  lemma ComposedFromTemplate(template: Layout, platformName: string, auth: string, models: seq<string>)
    requires Composable(template, auth)
    ensures var values := PlatformValues(platformName, auth);
      var l := ComposePlatform(template, platformName, auth, models);
      var configs := ReplacedFolders(Named(template.folders, "configs"), values);
      var tm := template.folders[FolderIndex(template.folders, "models").value];
      && l.files == SubstituteFiles(template.files, values)
      && |l.folders| == |configs| + (if auth == "none" then 1 else 2)
      && l.folders[..|configs|] == configs
      && l.folders[|configs|].name == "models"
      && l.folders[|configs|].layout.files == SubstituteFiles(tm.layout.files, values)
      && |l.folders[|configs|].layout.folders| == |models|
      && (forall i | 0 <= i < |models| ::
            l.folders[|configs|].layout.folders[i]
            == FolderSpec(models[i], ReplaceStructureValues(ReplaceStructureValues(FirstModel(tm).layout, values),
                                                            NewModelValues(models[i], platformName))))
      && (auth != "none" ==>
            var ta := template.folders[FolderIndex(template.folders, "auth").value];
            l.folders[|configs| + 1]
            == FolderSpec("auth", Layout(ReplacedFolders(Named(ta.layout.folders, auth), values),
                                         SubstituteFiles(ta.layout.files, values))))
  {
    var values := PlatformValues(platformName, auth);
    var p := ReplaceStructureValues(template, values);
    assert p.folders == ReplacedFolders(template.folders, values);
    NamedReplaced(template.folders, "configs", values);
    var mi := FolderIndex(template.folders, "models").value;
    ModelsFromTemplate(template.folders[mi], values, platformName, models);
    if auth != "none" {
      AuthFromTemplate(template.folders[FolderIndex(template.folders, "auth").value], values, auth);
    }
  }

  lemma ModelsFromTemplate(tm: FolderSpec, values: Fields, platformName: string, models: seq<string>)
    ensures var m := ModelsFolder(tm.(layout := ReplaceStructureValues(tm.layout, values)), platformName, models);
      && m.name == "models"
      && m.layout.files == SubstituteFiles(tm.layout.files, values)
      && |m.layout.folders| == |models|
      && forall i | 0 <= i < |models| ::
           m.layout.folders[i]
           == FolderSpec(models[i], ReplaceStructureValues(ReplaceStructureValues(FirstModel(tm).layout, values),
                                                           NewModelValues(models[i], platformName)))
  {
    var replaced := tm.(layout := ReplaceStructureValues(tm.layout, values));
    if |tm.layout.folders| > 0 {
      assert FirstModel(replaced).layout == ReplaceStructureValues(FirstModel(tm).layout, values);
    } else {
      assert ReplaceStructureValues(FirstModel(tm).layout, values) == FirstModel(tm).layout;
    }
  }

  lemma AuthFromTemplate(ta: FolderSpec, values: Fields, auth: string)
    ensures AuthFolder(ta.(layout := ReplaceStructureValues(ta.layout, values)), auth)
            == FolderSpec("auth", Layout(ReplacedFolders(Named(ta.layout.folders, auth), values),
                                         SubstituteFiles(ta.layout.files, values)))
  {
    assert ReplaceStructureValues(ta.layout, values).folders == ReplacedFolders(ta.layout.folders, values);
    NamedReplaced(ta.layout.folders, auth, values);
  }

  /** The composed tree can be laid out in full: sibling names stay distinct when the
      template's are and the requested models are, and every template it names is one
      the template already named. */
  lemma ComposedFits(template: Layout, platformName: string, auth: string, models: seq<string>,
                     templates: map<string, string>)
    requires Composable(template, auth) && DistinctFolders(template)
    requires forall i, j | 0 <= i < j < |models| :: models[i] != models[j]
    ensures var l := ComposePlatform(template, platformName, auth, models);
      && DistinctFolders(l)
      && (TemplatesPresent(templates, template) ==> TemplatesPresent(templates, l))
  {
    var values := PlatformValues(platformName, auth);
    var p := ReplaceStructureValues(template, values);
    ReplaceKeepsShape(template, values);
    ShapeKeepsFit(template, p, templates);
    var mi := FolderIndex(template.folders, "models").value;
    var ai := if auth == "none" then 0 else FolderIndex(template.folders, "auth").value;
    SubstitutedFits(p, platformName, auth, models, mi, ai, templates, TemplatesPresent(templates, template));
  }

  /** `ComposePlatform` once the platform values are in, with the positions of the
      `models` and `auth` folders given. */
  lemma SubstitutedFits(p: Layout, platformName: string, auth: string, models: seq<string>, mi: nat, ai: nat,
                        templates: map<string, string>, tp: bool)
    requires mi < |p.folders| && (auth != "none" ==> ai < |p.folders|)
    requires DistinctFolders(p) && (tp ==> TemplatesPresent(templates, p))
    requires forall i, j | 0 <= i < j < |models| :: models[i] != models[j]
    ensures var authFolders := if auth == "none" then [] else [AuthFolder(p.folders[ai], auth)];
      var l := Layout(Named(p.folders, "configs") + [ModelsFolder(p.folders[mi], platformName, models)] + authFolders, p.files);
      DistinctFolders(l) && (tp ==> TemplatesPresent(templates, l))
  {
    var configs := Named(p.folders, "configs");
    PickedFit(p, configs, templates);
    NamedAtMostOne(p.folders, "configs");
    var mf := p.folders[mi];
    PickedFit(p, [mf], templates);
    ModelsFolderFits(mf, platformName, models, templates);
    var authFolders := if auth == "none" then [] else [AuthFolder(p.folders[ai], auth)];
    if auth != "none" {
      var a := p.folders[ai];
      PickedFit(p, [a], templates);
      AuthFolderFits(a, auth, templates);
    }
    PartsFit(configs, ModelsFolder(mf, platformName, models), authFolders, p.files, templates);
  }

  /** The `configs` folders, the `models` folder and the `auth` folder have distinct names. */
  lemma PartsFit(configs: seq<FolderSpec>, m: FolderSpec, authFolders: seq<FolderSpec>, files: seq<FileSpec>,
                 templates: map<string, string>)
    requires |configs| <= 1 && |authFolders| <= 1 && m.name == "models"
    requires forall f | f in configs :: f.name == "configs"
    requires forall f | f in authFolders :: f.name == "auth"
    ensures (forall f | f in configs :: DistinctFolders(f.layout)) && DistinctFolders(m.layout)
            && (forall f | f in authFolders :: DistinctFolders(f.layout))
            ==> DistinctFolders(Layout(configs + [m] + authFolders, files))
    ensures (forall f | f in configs :: TemplatesPresent(templates, f.layout)) && TemplatesPresent(templates, m.layout)
            && (forall f | f in authFolders :: TemplatesPresent(templates, f.layout))
            && (forall j | 0 <= j < |files| :: files[j].template in templates)
            ==> TemplatesPresent(templates, Layout(configs + [m] + authFolders, files))
  {
    var folders := configs + [m] + authFolders;
    assert forall f | f in folders :: f in configs || f == m || f in authFolders;
    forall i, j | 0 <= i < j < |folders| ensures folders[i].name != folders[j].name {
      assert folders[i].name == (if i < |configs| then "configs" else if i == |configs| then "models" else "auth") by {
        if i < |configs| { assert folders[i] in configs; }
      }
      assert folders[j].name == (if j < |configs| then "configs" else if j == |configs| then "models" else "auth") by {
        if j > |configs| { assert folders[j] in authFolders; }
      }
    }
    AssembleFits(folders, files, templates);
  }

  lemma ModelsFolderFits(mf: FolderSpec, platformName: string, models: seq<string>, templates: map<string, string>)
    requires DistinctFolders(mf.layout)
    requires forall i, j | 0 <= i < j < |models| :: models[i] != models[j]
    ensures DistinctFolders(ModelsFolder(mf, platformName, models).layout)
    ensures TemplatesPresent(templates, mf.layout) ==> TemplatesPresent(templates, ModelsFolder(mf, platformName, models).layout)
  {
    var tp := TemplatesPresent(templates, mf.layout);
    var model := FirstModel(mf);
    if |mf.layout.folders| > 0 {
      PickedFit(mf.layout, [model], templates);
    }
    var folders := ModelsFolder(mf, platformName, models).layout.folders;
    forall f | f in folders
      ensures DistinctFolders(f.layout) && (tp ==> TemplatesPresent(templates, f.layout))
    {
      var i :| 0 <= i < |models| && folders[i] == f;
      ReplaceKeepsShape(model.layout, NewModelValues(models[i], platformName));
      ShapeKeepsFit(model.layout, f.layout, templates);
    }
    AssembleFits(folders, mf.layout.files, templates);
  }

  lemma AuthFolderFits(a: FolderSpec, auth: string, templates: map<string, string>)
    requires DistinctFolders(a.layout)
    ensures DistinctFolders(AuthFolder(a, auth).layout)
    ensures TemplatesPresent(templates, a.layout) ==> TemplatesPresent(templates, AuthFolder(a, auth).layout)
  {
    var picked := Named(a.layout.folders, auth);
    PickedFit(a.layout, picked, templates);
    NamedAtMostOne(a.layout.folders, auth);
    AssembleFits(picked, a.layout.files, templates);
  }

  /** The platform folder is `toPascalCase(platform)` under the platforms folder. */
  function PlatformPath(platformsDir: Path, platform: string): Path {
    platformsDir + [Naming.ToPascalCase(platform)]
  }

  /** The tree after `addPlatform`: nothing happens when the platform folder exists;
      otherwise it is created and the composed tree laid out in it. */
  function AddPlatformTree(t: Entries, templates: map<string, string>, platformsDir: Path, platform: string,
                           auth: string, models: seq<string>, template: Layout): Entries
    requires Composable(template, auth)
  {
    var dir := PlatformPath(platformsDir, platform);
    if dir in t then t
    else Materialize(Apply(t, MakeDirs(t, dir)), templates, dir,
                     ComposePlatform(template, Naming.ToPascalCase(platform), auth, models), false)
  }

  method AddPlatform(fs: FileSystem, platformsDir: Path, platform: string, auth: string, models: seq<string>, template: Layout)
    requires Composable(template, auth)
    modifies fs
    ensures fs.entries == AddPlatformTree(old(fs.entries), fs.templates, platformsDir, platform, auth, models, template)
  {
    var platformName := Naming.ToPascalCase(platform);
    var dir := platformsDir + [platformName];
    var present := fs.CheckExistence(dir);
    if present {
      return;
    }
    var layout := ComposePlatform(template, platformName, auth, models);
    var _ := fs.CreateFolder(dir);
    CreateFolderStructure(fs, dir, layout, false);
  }

  /** An existing platform folder is left alone. A new one, when no file is in the
      way, ends up a directory holding the composed tree in full (given the templates),
      with everything that was there kept and new entries only on the way to it or
      below it. */
  lemma AddPlatformSpec(t: Entries, templates: map<string, string>, platformsDir: Path, platform: string,
                        auth: string, models: seq<string>, template: Layout)
    requires Composable(template, auth)
    ensures var dir := PlatformPath(platformsDir, platform);
      dir in t ==> AddPlatformTree(t, templates, platformsDir, platform, auth, models, template) == t
    ensures var dir := PlatformPath(platformsDir, platform);
      var t' := AddPlatformTree(t, templates, platformsDir, platform, auth, models, template);
      var composed := ComposePlatform(template, Naming.ToPascalCase(platform), auth, models);
      dir !in t && WellFormed(t) && !Blocked(t, dir) && DistinctFolders(template)
      && (forall i, j | 0 <= i < j < |models| :: models[i] != models[j]) ==>
        && WellFormed(t') && Extends(t, t') && IsDir(t', dir)
        && (forall q | q in t' && q !in t :: q <= dir || dir < q)
        && (TemplatesPresent(templates, template) ==> Complete(t', dir, composed))
  {
    var dir := PlatformPath(platformsDir, platform);
    if dir !in t && WellFormed(t) && !Blocked(t, dir) && DistinctFolders(template)
       && (forall i, j | 0 <= i < j < |models| :: models[i] != models[j]) {
      var composed := ComposePlatform(template, Naming.ToPascalCase(platform), auth, models);
      MakeDirsSpec(t, dir);
      ComposedFits(template, Naming.ToPascalCase(platform), auth, models, templates);
      LaidOutInNewFolder(t, MakeDirs(t, dir).value, templates, dir, composed);
    }
  }

  /** Laying a layout out in a folder `mkdir -p` has just created. */
  lemma LaidOutInNewFolder(t: Entries, t1: Entries, templates: map<string, string>, dir: Path, layout: Layout)
    requires WellFormed(t) && dir !in t && DistinctFolders(layout)
    requires WellFormed(t1) && Extends(t, t1) && (forall i | 0 <= i <= |dir| :: IsDir(t1, dir[..i]))
    requires forall q | q in t1 && q !in t :: q <= dir
    ensures var t' := Materialize(t1, templates, dir, layout, false);
      && WellFormed(t') && Extends(t, t') && IsDir(t', dir)
      && (forall q | q in t' && q !in t :: q <= dir || dir < q)
      && (TemplatesPresent(templates, layout) ==> Complete(t', dir, layout))
  {
    forall q | q in t1 ensures !(dir < q) {
      if q in t {
        AncestorPresent(t, dir, q);
      }
    }
    assert Reachable(t1, dir);
    NoFileBelowEmpty(t1, dir, layout);
    MaterializeSpec(t1, templates, dir, layout);
    MaterializeWellFormed(t1, templates, dir, layout, false);
    var t' := Materialize(t1, templates, dir, layout, false);
    ExtendsTransitive(t, t1, t');
    assert IsDir(t1, dir) by { assert dir[..|dir|] == dir; }
  }

  // ------------------------------------------------------------ addPlatformModel

  /** The `platforms?name=` reply: its status and `data.rows`. */
  datatype PlatformReply = PlatformReply(status: int, rows: seq<Value>)

  /** A key of an object literal; an `undefined` value is as good as absent. */
  function Defined(k: string, m: Option<Value>): Fields {
    if m.Some? then [(k, m.value)] else []
  }

  /** `basename(dirname(getCaseCorrectedPath(platformPath/models)))`. */
  function CorrectedPlatformName(listing: Listing, platformPath: Path): Result<string> {
    var p :- CaseCorrected(listing, platformPath + ["models"]);
    Success(if |p| >= 2 then p[|p| - 2] else "")
  }

  /** `platformConfig`: empty ids and the case-corrected folder name, replaced by the
      first row's values when the API answers 2xx with rows; destructuring a `null`
      row throws. */
  function PlatformConfig(folderName: string, reply: PlatformReply): Result<Fields> {
    if Naming.IsSuccessful(reply.status) && |reply.rows| > 0 then
      var row := reply.rows[0];
      if row.Null? then Failure("TypeError: Cannot destructure 'platformResponse.data.rows[0]' as it is null")
      else Success(RowConfig(row))
    else Success(DefaultConfig(folderName))
  }

  lemma DefinedLookup(k: string, m: Option<Value>, rest: Fields, k': string)
    ensures Lookup(Defined(k, m) + rest, k') == if k' == k && m.Some? then m else Lookup(rest, k')
  {
    if m.Some? {
      assert (Defined(k, m) + rest)[1..] == rest;
    } else {
      assert Defined(k, m) + rest == rest;
    }
  }

  /** `{ platformVersion, platformId: _id, connectionPlatform: name, connectionDefinitionId }` of a row. */
  function RowConfig(row: Value): Fields {
    Defined("platformVersion", Prop(row, "platformVersion")) + Defined("platformId", Prop(row, "_id"))
    + Defined("connectionPlatform", Prop(row, "name")) + Defined("connectionDefinitionId", Prop(row, "connectionDefinitionId"))
  }

  /** The row's values under their new keys, and nothing else. */
  lemma RowConfigLookup(row: Value, k: string)
    ensures Lookup(RowConfig(row), k) ==
      if k == "platformId" then Prop(row, "_id")
      else if k == "connectionPlatform" then Prop(row, "name")
      else if k == "platformVersion" || k == "connectionDefinitionId" then Prop(row, k)
      else None
  {
    var d := Defined("connectionDefinitionId", Prop(row, "connectionDefinitionId"));
    var c := Defined("connectionPlatform", Prop(row, "name")) + d;
    var b := Defined("platformId", Prop(row, "_id")) + c;
    assert RowConfig(row) == Defined("platformVersion", Prop(row, "platformVersion")) + b;
    DefinedLookup("platformVersion", Prop(row, "platformVersion"), b, k);
    DefinedLookup("platformId", Prop(row, "_id"), c, k);
    DefinedLookup("connectionPlatform", Prop(row, "name"), d, k);
    assert d == d + [];
    DefinedLookup("connectionDefinitionId", Prop(row, "connectionDefinitionId"), [], k);
  }

  /** The configuration used when the API gives no row. */
  function DefaultConfig(folderName: string): Fields {
    [("platformId", Str("")), ("platformVersion", Str("")), ("connectionPlatform", Str(folderName)), ("connectionDefinitionId", Str(""))]
  }

  /** Empty ids and the folder's own spelling of the platform. */
  lemma DefaultConfigLookup(folderName: string)
    ensures var c := DefaultConfig(folderName);
      && Lookup(c, "platformId") == Some(Str("")) && Lookup(c, "platformVersion") == Some(Str(""))
      && Lookup(c, "connectionPlatform") == Some(Str(folderName)) && Lookup(c, "connectionDefinitionId") == Some(Str(""))
  {
    var c := DefaultConfig(folderName);
    assert Lookup(c, "platformVersion") == Some(Str("")) by {
      LookupAt(c, 1, "platformVersion");
    }
    assert Lookup(c, "connectionPlatform") == Some(Str(folderName)) by {
      LookupAt(c, 2, "connectionPlatform");
    }
    assert Lookup(c, "connectionDefinitionId") == Some(Str("")) by {
      LookupAt(c, 3, "connectionDefinitionId");
    }
  }

  /** A key first found at entry `n`, the keys before it being of other lengths. */
  lemma LookupAt(c: Fields, n: nat, k: string)
    requires n < |c| && c[n].0 == k && forall i | 0 <= i < n :: |c[i].0| != |k|
    ensures Lookup(c, k) == Some(c[n].1)
    decreases n
  {
    if n > 0 {
      LookupAt(c[1..], n - 1, k);
    }
  }

  /** Without a usable reply the ids are empty and the platform is the folder's own
      spelling; with one, the configuration is the first row's (and destructuring a
      `null` row throws). */
  lemma PlatformConfigSpec(folderName: string, reply: PlatformReply)
    ensures var c := PlatformConfig(folderName, reply);
      && (!(Naming.IsSuccessful(reply.status) && |reply.rows| > 0) ==> c == Success(DefaultConfig(folderName)))
      && (Naming.IsSuccessful(reply.status) && |reply.rows| > 0 ==>
            (c.Success? <==> !reply.rows[0].Null?) && (c.Success? ==> c.value == RowConfig(reply.rows[0])))
  {
  }

  /** The model template with only its `schema` folders and a fresh `actions` folder
      whose sub-folders are the template's, each renamed `<name>-<modelName>`;
      reading the sub-folders of a missing `actions` folder throws. */
  function ModelLayout(template: Layout, modelName: string): Result<Layout> {
    match FolderIndex(template.folders, "actions")
    case None => Failure("TypeError: Cannot read properties of undefined (reading 'folders')")
    case Some(i) =>
      var actions := template.folders[i].layout.folders;
      var renamed := seq(|actions|, j requires 0 <= j < |actions| =>
        actions[j].(name := actions[j].name + "-" + modelName));
      Success(Layout(Named(template.folders, "schema") + [FolderSpec("actions", Layout(renamed, []))], template.files))
  }

  /** The model tree is the template's `schema` folders followed by one `actions`
      folder holding the first template `actions` folder's sub-folders, in order,
      each renamed `<name>-<modelName>` with its contents kept. */
  lemma ModelLayoutSpec(template: Layout, modelName: string)
    ensures ModelLayout(template, modelName).Success? <==> exists f | f in template.folders :: f.name == "actions"
    ensures ModelLayout(template, modelName).Success? ==>
      var l := ModelLayout(template, modelName).value;
      var acts := template.folders[FolderIndex(template.folders, "actions").value].layout.folders;
      && |l.folders| > 0
      && (forall f | f in l.folders[..|l.folders| - 1] :: f in template.folders && f.name == "schema")
      && l.folders[|l.folders| - 1].name == "actions"
      && |l.folders[|l.folders| - 1].layout.folders| == |acts|
      && (forall j | 0 <= j < |acts| ::
            l.folders[|l.folders| - 1].layout.folders[j] == FolderSpec(acts[j].name + "-" + modelName, acts[j].layout))
      && l.files == template.files
  {
    match FolderIndex(template.folders, "actions")
    case None =>
      forall f | f in template.folders
        ensures f.name != "actions"
      {
        var j :| 0 <= j < |template.folders| && template.folders[j] == f;
      }
    case Some(i) =>
      assert template.folders[i] in template.folders;
      var l := ModelLayout(template, modelName).value;
      assert l.folders[..|l.folders| - 1] == Named(template.folders, "schema");
  }

  /** `{ modelName, ...platformConfig }`. */
  function ModelValues(modelName: string, config: Fields): Fields {
    [("modelName", Str(modelName))] + config
  }

  /** One model of the loop: skipped when its folder exists, otherwise laid out
      under `models/<commonModelNameFormatter(model)>`. */
  function AddModel(t: Entries, templates: map<string, string>, platformPath: Path, template: Layout, config: Fields, model: string)
    : Result<Entries>
  {
    var name := Naming.CommonModelNameFormatter(model);
    var dir := platformPath + ["models", name];
    if dir in t then Success(t)
    else
      var layout :- ModelLayout(template, name);
      Success(Materialize(t, templates, dir, ReplaceStructureValues(layout, ModelValues(name, config)), false))
  }

  /** The first `n` models; an exception stops the loop, keeping what was laid out. */
  function AddModels(t: Entries, templates: map<string, string>, platformPath: Path, template: Layout, config: Fields,
                     models: seq<string>, n: nat): (Entries, bool)
    requires n <= |models|
  {
    if n == 0 then (t, false)
    else
      var (t1, stopped) := AddModels(t, templates, platformPath, template, config, models, n - 1);
      if stopped then (t1, true)
      else match AddModel(t1, templates, platformPath, template, config, models[n - 1])
        case Success(t2) => (t2, false)
        case Failure(_) => (t1, true)
  }

  /** The tree after `addPlatformModel`: nothing happens unless the platform folder
      exists; an exception before the loop changes nothing. */
  function AddPlatformModelTree(t: Entries, templates: map<string, string>, platformsDir: Path, platform: string,
                                models: seq<string>, template: Layout, listing: Listing, reply: PlatformReply): Entries
  {
    var dir := PlatformPath(platformsDir, platform);
    if dir !in t then t
    else match CorrectedPlatformName(listing, dir)
      case Failure(_) => t
      case Success(folderName) =>
        match PlatformConfig(folderName, reply)
        case Failure(_) => t
        case Success(config) => AddModels(t, templates, dir, template, config, models, |models|).0
  }

  method AddPlatformModel(fs: FileSystem, platformsDir: Path, platform: string, models: seq<string>, template: Layout,
                          listing: Listing, reply: PlatformReply)
    modifies fs
    ensures fs.entries == AddPlatformModelTree(old(fs.entries), fs.templates, platformsDir, platform, models, template, listing, reply)
  {
    var dir := platformsDir + [Naming.ToPascalCase(platform)];
    var present := fs.CheckExistence(dir);
    if !present {
      return;
    }
    var folderName := CorrectedPlatformName(listing, dir);
    if folderName.Failure? {
      return;
    }
    var config := PlatformConfig(folderName.value, reply);
    if config.Failure? {
      return;
    }
    AddEachModel(fs, dir, template, config.value, models);
  }

  /** The loop over the requested models, stopping at the first that throws. */
  method AddEachModel(fs: FileSystem, dir: Path, template: Layout, config: Fields, models: seq<string>)
    modifies fs
    ensures fs.entries == AddModels(old(fs.entries), fs.templates, dir, template, config, models, |models|).0
  {
    ghost var t0 := fs.entries;
    for i := 0 to |models|
      invariant AddModels(t0, fs.templates, dir, template, config, models, i) == (fs.entries, false)
    {
      ghost var before := fs.entries;
      var ok := AddOneModel(fs, dir, template, config, models[i]);
      AddModelsNext(t0, fs.templates, dir, template, config, models, i, before,
                    AddModel(before, fs.templates, dir, template, config, models[i]));
      if !ok {
        AddModelsStopped(t0, fs.templates, dir, template, config, models, i + 1, |models|);
        return;
      }
    }
  }

  lemma AddModelsNext(t: Entries, templates: map<string, string>, platformPath: Path, template: Layout,
                      config: Fields, models: seq<string>, i: nat, t1: Entries, r: Result<Entries>)
    requires i < |models| && AddModels(t, templates, platformPath, template, config, models, i) == (t1, false)
    requires r == AddModel(t1, templates, platformPath, template, config, models[i])
    ensures AddModels(t, templates, platformPath, template, config, models, i + 1) == (Apply(t1, r), r.Failure?)
  {
  }

  /** One turn of the loop; `ok` is false when it threw. */
  method AddOneModel(fs: FileSystem, dir: Path, template: Layout, config: Fields, model: string) returns (ok: bool)
    modifies fs
    ensures ok == AddModel(old(fs.entries), fs.templates, dir, template, config, model).Success?
    ensures fs.entries == Apply(old(fs.entries), AddModel(old(fs.entries), fs.templates, dir, template, config, model))
  {
    var name := Naming.CommonModelNameFormatter(model);
    var modelDir := dir + ["models", name];
    var present := fs.CheckExistence(modelDir);
    if present {
      return true;
    }
    var layout := ModelLayout(template, name);
    if layout.Failure? {
      return false;
    }
    CreateFolderStructure(fs, modelDir, ReplaceStructureValues(layout.value, ModelValues(name, config)), false);
    ok := true;
  }

  /** Once the loop has stopped it stays stopped, with the same tree. */
  lemma {:induction false} AddModelsStopped(t: Entries, templates: map<string, string>, platformPath: Path, template: Layout,
                                            config: Fields, models: seq<string>, n: nat, m: nat)
    requires n <= m <= |models| && AddModels(t, templates, platformPath, template, config, models, n).1
    ensures AddModels(t, templates, platformPath, template, config, models, m) == AddModels(t, templates, platformPath, template, config, models, n)
    decreases m
  {
    if m > n {
      AddModelsStopped(t, templates, platformPath, template, config, models, n, m - 1);
      AddModelsStays(t, templates, platformPath, template, config, models, m);
    }
  }

  lemma AddModelsStays(t: Entries, templates: map<string, string>, platformPath: Path, template: Layout,
                       config: Fields, models: seq<string>, m: nat)
    requires 0 < m <= |models| && AddModels(t, templates, platformPath, template, config, models, m - 1).1
    ensures AddModels(t, templates, platformPath, template, config, models, m) == AddModels(t, templates, platformPath, template, config, models, m - 1)
  {
  }

  /** A model whose folder already exists is skipped and leaves the tree as it is;
      so is everything when the platform folder is missing. */
  lemma AddModelSkips(t: Entries, templates: map<string, string>, platformsDir: Path, platform: string,
                      models: seq<string>, template: Layout, listing: Listing, reply: PlatformReply, config: Fields, model: string)
    ensures PlatformPath(platformsDir, platform) !in t ==>
      AddPlatformModelTree(t, templates, platformsDir, platform, models, template, listing, reply) == t
    ensures var dir := PlatformPath(platformsDir, platform);
      dir + ["models", Naming.CommonModelNameFormatter(model)] in t ==>
        AddModel(t, templates, dir, template, config, model) == Success(t)
  {
  }

  /** Every model is given its own name under the key `modelName`, and the platform
      values come from the configuration. */
  lemma ModelValuesSpec(modelName: string, config: Fields, k: string)
    ensures Lookup(ModelValues(modelName, config), k) == if k == "modelName" then Some(Str(modelName)) else Lookup(config, k)
  {
    assert ModelValues(modelName, config)[1..] == config;
  }
}

=== FILE: assembly.dfy ===
/** Document assembly for the push commands: the `getPushStructureData` functions
    of bin/commands/pushPlatform.ts, pushPlatformModel.ts, pushPlatformAction.ts,
    pushCommonModel.ts and pushCommonEnum.ts fold the files a push structure
    declares into one outgoing object. `json` holds, for each `.json` file that exists,
    what `JSON.parse` makes of its text (`None` when the text is not JSON); any other
    file is read as its text (`text`). */
module Assembly {
  import opened Wrappers
  import opened Text
  import opened Json
  import opened Projection

  /** `{ from, to }` of `rearrangeKeys`: dot paths in the file and in the result. */
  datatype Rearrange = Rearrange(from: string, to: string)

  /** An entry of `structure.files`. An empty `key` is a missing one, and an absent
      operator list is an empty one. */
  datatype PushFile = PushFile(
    name: string, root: bool, key: string, nested: bool,
    copyKeys: seq<string>, manualStructure: bool, spreadToRoot: seq<string>,
    addKeys: Fields, rearrangeKeys: seq<Rearrange>)

  /** Which copy of `getPushStructureData` runs: pushPlatform.ts honours the
      operators and needs non-empty text; pushPlatformModel.ts and
      pushPlatformAction.ts need non-empty text; pushCommonModel.ts assigns text
      even when it is empty. */
  datatype Flavour = PlatformPush | ModelPush | CommonModelPush

  /** The exception `JSON.parse` throws on text that is not JSON. */
  const SyntaxError := "SyntaxError: JSON.parse"

  predicate IsJsonName(name: string) {
    |name| >= 5 && name[|name| - 5..] == ".json"
  }

  /** `fileContents[k]`: reading a property of `null` throws. */
  function Member(v: Value, k: string): (r: Result<Option<Value>>)
    ensures r.Failure? <==> v.Null?
    ensures r.Success? ==> r.value == Prop(v, k)
  {
    if v.Null? then Failure("TypeError: Cannot read properties of null") else Success(Prop(v, k))
  }

  // ---------------------------------------------------------------- operators

  /** `copyKeys.forEach(key => structureData[key] = fileContents[key])`. */
  function CopyKeys(acc: Fields, v: Value, ks: seq<string>): Result<Fields>
    decreases |ks|
  {
    if |ks| == 0 then Success(acc)
    else
      var a :- CopyKeys(acc, v, ks[..|ks| - 1]);
      var m :- Member(v, ks[|ks| - 1]);
      Success(SetOrDrop(a, ks[|ks| - 1], m))
  }

  /** One `spreadToRoot` key: merged only when its value is a truthy object. */
  function SpreadKey(acc: Fields, v: Value, k: string): (r: Result<Fields>)
    ensures r.Success? && !(Prop(v, k).Some? && Truthy(Prop(v, k).value) && IsContainer(Prop(v, k).value)) ==> r.value == acc
    ensures r.Success? ==> forall k' :: k' in Keys(acc) ==> k' in Keys(r.value)
  {
    var m :- Member(v, k);
    if m.Some? && Truthy(m.value) && IsContainer(m.value) then
      AssignKeys(acc, SpreadOf(m.value));
      Success(Assign(acc, SpreadOf(m.value)))
    else Success(acc)
  }

  function SpreadKeys(acc: Fields, v: Value, ks: seq<string>): Result<Fields>
    decreases |ks|
  {
    if |ks| == 0 then Success(acc)
    else
      var a :- SpreadKeys(acc, v, ks[..|ks| - 1]);
      SpreadKey(a, v, ks[|ks| - 1])
  }

  /** `for (const part of fromParts) value = value ? value[part] : null`; `None` is `undefined`. */
  function Follow(v: Option<Value>, parts: seq<string>): Option<Value>
    decreases |parts|
  {
    if |parts| == 0 then v
    else Follow(if v.Some? && Truthy(v.value) then Prop(v.value, parts[0]) else Some(Null), parts[1..])
  }

  /** The walk down `toParts`: `current = current[part] = current[part] || {}`, then
      `current[last] = value`. */
  function SetPath(c: Value, parts: seq<string>, x: Value): (r: Result<Value>)
    requires |parts| > 0
    ensures c.Obj? && r.Success? ==> r.value.Obj?
    decreases |parts|
  {
    if |parts| == 1 then SetProp(c, parts[0], x)
    else
      var child := Prop(c, parts[0]);
      var next := if child.Some? && Truthy(child.value) then child.value else Obj([]);
      var n :- SetPath(next, parts[1..], x);
      SetProp(c, parts[0], n)
  }

  /** One `rearrangeKeys` entry: a missing or falsy value is not moved. */
  function RearrangeOne(acc: Fields, v: Value, r: Rearrange): (res: Result<Fields>)
    ensures var value := Follow(Some(v), Split(r.from, '.'));
      !(value.Some? && Truthy(value.value)) ==> res == Success(acc)
  {
    var value := Follow(Some(v), Split(r.from, '.'));
    if value.Some? && Truthy(value.value) then
      var moved :- SetPath(Obj(acc), Split(r.to, '.'), value.value);
      Success(moved.fields)
    else Success(acc)
  }

  function Rearranges(acc: Fields, v: Value, rs: seq<Rearrange>): Result<Fields>
    decreases |rs|
  {
    if |rs| == 0 then Success(acc)
    else
      var a :- Rearranges(acc, v, rs[..|rs| - 1]);
      RearrangeOne(a, v, rs[|rs| - 1])
  }

  // ---------------------------------------------------------------- one file

  /** The default step for a parsed file, unless `manualStructure` skips it. */
  function DefaultStep(acc: Fields, f: PushFile, v: Value, manual: bool): Fields {
    if manual then acc
    else if f.root && f.key != "" then Put(acc, f.key, v)
    else if !f.root then Assign(acc, SpreadOf(v))
    else acc
  }

  /** A `.json` file that exists: the operators (pushPlatform.ts only) in the order
      `copyKeys`, `spreadToRoot`, `addKeys`, `rearrangeKeys`, then the default step. */
  function JsonStep(acc: Fields, f: PushFile, v: Value, flavour: Flavour): Result<Fields> {
    if flavour.PlatformPush? then
      var a1 :- CopyKeys(acc, v, f.copyKeys);
      var a2 :- SpreadKeys(a1, v, f.spreadToRoot);
      var a3 := Assign(a2, f.addKeys);
      var a4 :- Rearranges(a3, v, f.rearrangeKeys);
      Success(DefaultStep(a4, f, v, f.manualStructure))
    else Success(DefaultStep(acc, f, v, false))
  }

  /** The `keysPath.reduce(...)` of a `nested` text file: intermediate keys reuse a
      truthy value or get `{}`, and the last one becomes `{ ...old, [lastKey]: text }`. */
  function NestText(obj: Value, ks: seq<string>, lastKey: string, text: string): (r: Result<Value>)
    requires |ks| > 0
    ensures obj.Obj? && r.Success? ==> r.value.Obj?
    decreases |ks|
  {
    var existing := Prop(obj, ks[0]);
    if |ks| == 1 then
      var inner := if existing.Some? then SpreadOf(existing.value) else [];
      SetProp(obj, ks[0], Obj(Put(Assign([], inner), lastKey, Str(text))))
    else
      var next := if existing.Some? && Truthy(existing.value) then existing.value else Obj([]);
      var n :- NestText(next, ks[1..], lastKey, text);
      SetProp(obj, ks[0], n)
  }

  /** Any other file, read as text. */
  function TextStep(acc: Fields, f: PushFile, text: string, flavour: Flavour): (r: Result<Fields>)
    ensures f.root && (f.key == "" || (|text| == 0 && !flavour.CommonModelPush?)) ==> r == Success(acc)
    ensures f.root && f.key != "" && f.nested && '.' !in f.key ==> r == Success(acc)
  {
    if f.root && f.key != "" && (flavour.CommonModelPush? || |text| > 0) then
      if f.nested then
        var parts := Split(f.key, '.');
        var keysPath := parts[..|parts| - 1];
        var lastKey := parts[|parts| - 1];
        if lastKey == "" || |keysPath| == 0 then Success(acc)
        else
          var r :- NestText(Obj(acc), keysPath, lastKey, text);
          Success(r.fields)
      else Success(Put(acc, f.key, Str(text)))
    else if !f.root then Success(Assign(acc, SpreadOf(Str(text))))
    else Success(acc)
  }

  /** Every declared file that is not `.json` can be read. */
  predicate TextPresent(files: seq<PushFile>, text: map<string, string>) {
    forall i | 0 <= i < |files| :: !IsJsonName(files[i].name) ==> files[i].name in text
  }

  /** One declared file; a `.json` file that does not exist contributes nothing, and
      one whose text is not JSON throws `JSON.parse`'s `SyntaxError`. */
  function FileStep(acc: Fields, f: PushFile, json: map<string, Option<Value>>, text: map<string, string>, flavour: Flavour): (r: Result<Fields>)
    requires !IsJsonName(f.name) ==> f.name in text
    ensures IsJsonName(f.name) && f.name !in json ==> r == Success(acc)
    ensures IsJsonName(f.name) && f.name in json && json[f.name].None? ==> r == Failure(SyntaxError)
  {
    if IsJsonName(f.name) then
      if f.name in json then
        if json[f.name].Some? then JsonStep(acc, f, json[f.name].value, flavour) else Failure(SyntaxError)
      else Success(acc)
    else TextStep(acc, f, text[f.name], flavour)
  }

  /** The first `n` declared files folded in order from `{}`. */
  function Assemble(files: seq<PushFile>, json: map<string, Option<Value>>, text: map<string, string>, flavour: Flavour, n: nat): Result<Fields>
    requires n <= |files| && TextPresent(files, text)
  {
    if n == 0 then Success([])
    else
      var acc :- Assemble(files, json, text, flavour, n - 1);
      FileStep(acc, files[n - 1], json, text, flavour)
  }

  // ---------------------------------------------------------------- the loops

  /** `getPushStructureData`: the loop over `structure.files`. */
  method GetPushStructureData(files: seq<PushFile>, json: map<string, Option<Value>>, text: map<string, string>, flavour: Flavour)
    returns (r: Result<Fields>)
    requires TextPresent(files, text)
    ensures r == Assemble(files, json, text, flavour, |files|)
  {
    var structureData: Fields := [];
    var i := 0;
    while i < |files|
      invariant 0 <= i <= |files|
      invariant Assemble(files, json, text, flavour, i) == Success(structureData)
    {
      var step := ApplyFile(structureData, files[i], json, text, flavour);
      AssembleNext(files, json, text, flavour, i, structureData);
      if step.Failure? {
        AssembleFailureStays(files, json, text, flavour, i + 1, |files|);
        return Failure(step.error);
      }
      structureData := step.value;
      i := i + 1;
    }
    r := Success(structureData);
  }

  lemma AssembleNext(files: seq<PushFile>, json: map<string, Option<Value>>, text: map<string, string>, flavour: Flavour, i: nat, acc: Fields)
    requires i < |files| && TextPresent(files, text) && Assemble(files, json, text, flavour, i) == Success(acc)
    ensures Assemble(files, json, text, flavour, i + 1) == FileStep(acc, files[i], json, text, flavour)
  {
  }

  lemma {:induction false} AssembleFailureStays(files: seq<PushFile>, json: map<string, Option<Value>>, text: map<string, string>, flavour: Flavour, k: nat, n: nat)
    requires k <= n <= |files| && TextPresent(files, text) && Assemble(files, json, text, flavour, k).Failure?
    ensures Assemble(files, json, text, flavour, n) == Assemble(files, json, text, flavour, k)
  {
    if n > k {
      AssembleFailureStays(files, json, text, flavour, k, n - 1);
    }
  }

  /** A declared `.json` file whose text is not JSON makes the whole assembly throw,
      whatever the files around it hold. */
  lemma UnparsableFileFails(files: seq<PushFile>, json: map<string, Option<Value>>, text: map<string, string>, flavour: Flavour, i: nat)
    requires i < |files| && TextPresent(files, text)
    requires IsJsonName(files[i].name) && files[i].name in json && json[files[i].name].None?
    ensures Assemble(files, json, text, flavour, |files|).Failure?
  {
    assert Assemble(files, json, text, flavour, i + 1).Failure?;
    AssembleFailureStays(files, json, text, flavour, i + 1, |files|);
  }

  /** One pass of the loop: a parsed file, an unparsable one, a missing one, or a text file. */
  method ApplyFile(acc: Fields, f: PushFile, json: map<string, Option<Value>>, text: map<string, string>, flavour: Flavour)
    returns (r: Result<Fields>)
    requires !IsJsonName(f.name) ==> f.name in text
    ensures r == FileStep(acc, f, json, text, flavour)
  {
    if IsJsonName(f.name) {
      if f.name in json {
        if json[f.name].Some? {
          r := ApplyJsonFile(acc, f, json[f.name].value, flavour);
        } else {
          r := Failure(SyntaxError);
        }
      } else {
        r := Success(acc);
      }
    } else {
      r := TextStep(acc, f, text[f.name], flavour);
    }
  }

  /** The operators and the default step for one parsed file. */
  method ApplyJsonFile(acc: Fields, f: PushFile, v: Value, flavour: Flavour) returns (r: Result<Fields>)
    ensures r == JsonStep(acc, f, v, flavour)
  {
    if !flavour.PlatformPush? {
      return Success(DefaultStep(acc, f, v, false));
    }
    var a1 := CopyKeysLoop(acc, v, f.copyKeys);
    if a1.Failure? {
      return Failure(a1.error);
    }
    var a2 := SpreadKeysLoop(a1.value, v, f.spreadToRoot);
    if a2.Failure? {
      return Failure(a2.error);
    }
    var a3 := Assign(a2.value, f.addKeys);
    var a4 := RearrangeLoop(a3, v, f.rearrangeKeys);
    if a4.Failure? {
      return Failure(a4.error);
    }
    r := Success(DefaultStep(a4.value, f, v, f.manualStructure));
  }

  method CopyKeysLoop(acc: Fields, v: Value, ks: seq<string>) returns (r: Result<Fields>)
    ensures r == CopyKeys(acc, v, ks)
  {
    if v.Null? && |ks| > 0 {
      CopyKeysNull(acc, ks);
      return Failure("TypeError: Cannot read properties of null");
    }
    var a := acc;
    var i := 0;
    while i < |ks|
      invariant 0 <= i <= |ks|
      invariant CopyKeys(acc, v, ks[..i]) == Success(a)
    {
      CopyKeysNext(acc, v, ks, i, a);
      a := SetOrDrop(a, ks[i], Prop(v, ks[i]));
      i := i + 1;
    }
    assert ks[..|ks|] == ks;
    r := Success(a);
  }

  lemma CopyKeysNext(acc: Fields, v: Value, ks: seq<string>, i: nat, a: Fields)
    requires i < |ks| && !v.Null? && CopyKeys(acc, v, ks[..i]) == Success(a)
    ensures CopyKeys(acc, v, ks[..i + 1]) == Success(SetOrDrop(a, ks[i], Prop(v, ks[i])))
  {
    assert ks[..i + 1][..i] == ks[..i];
  }

  lemma {:induction false} CopyKeysNull(acc: Fields, ks: seq<string>)
    requires |ks| > 0
    ensures CopyKeys(acc, Null, ks) == Failure("TypeError: Cannot read properties of null")
    decreases |ks|
  {
    if |ks| > 1 {
      CopyKeysNull(acc, ks[..|ks| - 1]);
    }
  }

  method SpreadKeysLoop(acc: Fields, v: Value, ks: seq<string>) returns (r: Result<Fields>)
    ensures r == SpreadKeys(acc, v, ks)
  {
    var a := acc;
    var i := 0;
    while i < |ks|
      invariant 0 <= i <= |ks|
      invariant SpreadKeys(acc, v, ks[..i]) == Success(a)
    {
      var step := SpreadKey(a, v, ks[i]);
      SpreadKeysNext(acc, v, ks, i, a);
      if step.Failure? {
        SpreadKeysFailureStays(acc, v, ks, i + 1);
        return step;
      }
      a := step.value;
      i := i + 1;
    }
    assert ks[..|ks|] == ks;
    r := Success(a);
  }

  lemma SpreadKeysNext(acc: Fields, v: Value, ks: seq<string>, i: nat, a: Fields)
    requires i < |ks| && SpreadKeys(acc, v, ks[..i]) == Success(a)
    ensures SpreadKeys(acc, v, ks[..i + 1]) == SpreadKey(a, v, ks[i])
  {
    assert ks[..i + 1][..i] == ks[..i];
  }

  lemma {:induction false} SpreadKeysFailureStays(acc: Fields, v: Value, ks: seq<string>, n: nat)
    requires n <= |ks| && SpreadKeys(acc, v, ks[..n]).Failure?
    ensures SpreadKeys(acc, v, ks) == SpreadKeys(acc, v, ks[..n])
    decreases |ks|
  {
    if n < |ks| {
      var front := ks[..|ks| - 1];
      assert front[..n] == ks[..n];
      SpreadKeysFailureStays(acc, v, front, n);
    } else {
      assert ks[..n] == ks;
    }
  }

  method RearrangeLoop(acc: Fields, v: Value, rs: seq<Rearrange>) returns (r: Result<Fields>)
    ensures r == Rearranges(acc, v, rs)
  {
    var a := acc;
    var i := 0;
    while i < |rs|
      invariant 0 <= i <= |rs|
      invariant Rearranges(acc, v, rs[..i]) == Success(a)
    {
      var step := RearrangeOne(a, v, rs[i]);
      RearrangesNext(acc, v, rs, i, a);
      if step.Failure? {
        RearrangesFailureStays(acc, v, rs, i + 1);
        return step;
      }
      a := step.value;
      i := i + 1;
    }
    assert rs[..|rs|] == rs;
    r := Success(a);
  }

  lemma RearrangesNext(acc: Fields, v: Value, rs: seq<Rearrange>, i: nat, a: Fields)
    requires i < |rs| && Rearranges(acc, v, rs[..i]) == Success(a)
    ensures Rearranges(acc, v, rs[..i + 1]) == RearrangeOne(a, v, rs[i])
  {
    assert rs[..i + 1][..i] == rs[..i];
  }

  lemma {:induction false} RearrangesFailureStays(acc: Fields, v: Value, rs: seq<Rearrange>, n: nat)
    requires n <= |rs| && Rearranges(acc, v, rs[..n]).Failure?
    ensures Rearranges(acc, v, rs) == Rearranges(acc, v, rs[..n])
    decreases |rs|
  {
    if n < |rs| {
      var front := rs[..|rs| - 1];
      assert front[..n] == rs[..n];
      RearrangesFailureStays(acc, v, front, n);
    } else {
      assert rs[..n] == rs;
    }
  }

  // ---------------------------------------------------------------- properties

  /** A plain non-root merge: the file's keys win, every other key keeps its value. */
  lemma MergeLaterWins(acc: Fields, f: PushFile, v: Value, flavour: Flavour, k: string)
    requires !f.root && v.Obj? && UniqueKeys(v.fields)
    requires flavour.PlatformPush? ==> f.copyKeys == [] && f.spreadToRoot == [] && f.addKeys == [] && f.rearrangeKeys == [] && !f.manualStructure
    ensures JsonStep(acc, f, v, flavour).Success?
    ensures Lookup(JsonStep(acc, f, v, flavour).value, k) == if k in Keys(v.fields) then Lookup(v.fields, k) else Lookup(acc, k)
  {
    AssignLookup(acc, v.fields, k);
  }

  /** `root && key`: the whole parsed file is stored under `key`; `root` without a key
      contributes nothing. */
  lemma RootFile(acc: Fields, f: PushFile, v: Value, flavour: Flavour)
    requires f.root && !f.manualStructure
    requires flavour.PlatformPush? ==> f.copyKeys == [] && f.spreadToRoot == [] && f.addKeys == [] && f.rearrangeKeys == []
    ensures f.key != "" ==> JsonStep(acc, f, v, flavour) == Success(Put(acc, f.key, v))
    ensures f.key == "" ==> JsonStep(acc, f, v, flavour) == Success(acc)
  {
    assert Assign(acc, []) == acc;
  }

  /** `manualStructure` skips the default step but keeps the operators. */
  lemma ManualSkipsDefault(acc: Fields, f: PushFile, v: Value)
    requires f.manualStructure
    ensures JsonStep(acc, f, v, PlatformPush) ==
      (var a1 :- CopyKeys(acc, v, f.copyKeys);
       var a2 :- SpreadKeys(a1, v, f.spreadToRoot);
       Rearranges(Assign(a2, f.addKeys), v, f.rearrangeKeys))
  {
    var a1 := CopyKeys(acc, v, f.copyKeys);
    if a1.Success? {
      var a2 := SpreadKeys(a1.value, v, f.spreadToRoot);
      if a2.Success? {
        var a4 := Rearranges(Assign(a2.value, f.addKeys), v, f.rearrangeKeys);
        if a4.Success? {
          assert DefaultStep(a4.value, f, v, true) == a4.value;
        }
      }
    }
  }

  /** Each copied key holds the file's value afterwards; an absent value removes the
      key; keys not copied keep their values. */
  lemma {:induction false} CopyKeysValues(acc: Fields, v: Value, ks: seq<string>, k: string)
    requires !v.Null?
    ensures CopyKeys(acc, v, ks).Success?
    ensures Lookup(CopyKeys(acc, v, ks).value, k) == if k in ks then Prop(v, k) else Lookup(acc, k)
    decreases |ks|
  {
    if |ks| > 0 {
      var front := ks[..|ks| - 1];
      var last := ks[|ks| - 1];
      CopyKeysValues(acc, v, front, k);
      var a := CopyKeys(acc, v, front).value;
      assert CopyKeys(acc, v, ks) == Success(SetOrDrop(a, last, Prop(v, last))) by {
        CopyKeysStep(acc, v, ks);
      }
      SetOrDropLookup(a, last, Prop(v, last), k);
      LastMember(ks, k);
    }
  }

  /** Membership in a non-empty sequence: the last element, or one of the rest. */
  lemma LastMember<T>(xs: seq<T>, x: T)
    requires |xs| > 0
    ensures x in xs <==> x == xs[|xs| - 1] || x in xs[..|xs| - 1]
  {
    assert xs == xs[..|xs| - 1] + [xs[|xs| - 1]];
  }

  lemma CopyKeysStep(acc: Fields, v: Value, ks: seq<string>)
    requires !v.Null? && |ks| > 0 && CopyKeys(acc, v, ks[..|ks| - 1]).Success?
    ensures CopyKeys(acc, v, ks) == Success(SetOrDrop(CopyKeys(acc, v, ks[..|ks| - 1]).value, ks[|ks| - 1], Prop(v, ks[|ks| - 1])))
  {
  }

  /** The value `rearrangeKeys` writes lands at its `to` path when the result
      holds no arrays. */
  lemma {:induction false} SetPathPlaces(c: Value, parts: seq<string>, x: Value)
    requires |parts| > 0 && c.Obj? && ObjectTree(c)
    requires SetPath(c, parts, x).Success?
    ensures At(SetPath(c, parts, x).value, parts) == Some(x)
    decreases |parts|
  {
    if |parts| > 1 {
      var child := Prop(c, parts[0]);
      var next := if child.Some? && Truthy(child.value) then child.value else Obj([]);
      if child.Some? && Truthy(child.value) {
        LookupInTree(c.fields, parts[0]);
      }
      var n := SetPath(next, parts[1..], x);
      assert n.Success?;
      if !next.Obj? {
        assert false;
      }
      SetPathPlaces(next, parts[1..], x);
    }
  }

  /** The walk keeps every sibling: top-level keys other than the first segment are
      untouched, and a truthy value under the first segment is reused, not replaced. */
  lemma SetPathKeepsSiblings(c: Value, parts: seq<string>, x: Value, k: string)
    requires |parts| > 1 && c.Obj? && SetPath(c, parts, x).Success?
    ensures k != parts[0] ==> Prop(SetPath(c, parts, x).value, k) == Prop(c, k)
    ensures var child := Prop(c, parts[0]);
      child.Some? && Truthy(child.value) ==>
        Prop(SetPath(c, parts, x).value, parts[0]) == Some(SetPath(child.value, parts[1..], x).value)
  {
  }

  /** No object is reached by reading properties of a falsy value. */
  lemma NoObjectUnderFalsy(v: Value, p: seq<string>)
    requires |p| > 0 && !Truthy(v)
    ensures !(At(v, p).Some? && At(v, p).value.Obj?)
  {
    match Prop(v, p[0])
    case None =>
    case Some(child) =>
      assert child == Num(0);
      if |p| > 1 {
        assert Prop(child, p[1]).None?;
      }
  }

  /** The last intermediate key: `{ ...old, [lastKey]: text }` is stored under it. */
  lemma NestTextLast(obj: Value, key: string, lastKey: string, text: string)
    requires obj.Obj? && NestText(obj, [key], lastKey, text).Success?
    ensures var p := At(NestText(obj, [key], lastKey, text).value, [key]);
      && p.Some? && p.value.Obj? && Lookup(p.value.fields, lastKey) == Some(Str(text))
      && forall fs, k | At(obj, [key]) == Some(Obj(fs)) && UniqueKeys(fs) && k != lastKey ::
           Lookup(p.value.fields, k) == Lookup(fs, k)
  {
    var existing := Prop(obj, key);
    var r := NestText(obj, [key], lastKey, text).value;
    var inner := if existing.Some? then SpreadOf(existing.value) else [];
    var o := Put(Assign([], inner), lastKey, Str(text));
    assert Prop(r, key) == Some(Obj(o));
    assert At(r, [key]) == Some(Obj(o));
    forall fs, k | At(obj, [key]) == Some(Obj(fs)) && UniqueKeys(fs) && k != lastKey
      ensures Lookup(o, k) == Lookup(fs, k)
    {
      assert existing.Some? && At(existing.value, []) == Some(Obj(fs));
      AssignLookup([], fs, k);
    }
  }

  /** A nested text file lands at its full dotted key: the object at `ks` holds the
      text under `lastKey` and keeps the parent's other keys. */
  lemma {:induction false} NestTextPlaces(obj: Value, ks: seq<string>, lastKey: string, text: string)
    requires |ks| > 0 && obj.Obj? && ObjectTree(obj) && NestText(obj, ks, lastKey, text).Success?
    ensures var p := At(NestText(obj, ks, lastKey, text).value, ks);
      && p.Some? && p.value.Obj? && Lookup(p.value.fields, lastKey) == Some(Str(text))
      && forall fs, k | At(obj, ks) == Some(Obj(fs)) && UniqueKeys(fs) && k != lastKey ::
           Lookup(p.value.fields, k) == Lookup(fs, k)
    decreases |ks|
  {
    var existing := Prop(obj, ks[0]);
    var r := NestText(obj, ks, lastKey, text).value;
    if |ks| == 1 {
      NestTextLast(obj, ks[0], lastKey, text);
      assert ks == [ks[0]];
    } else {
      var next := if existing.Some? && Truthy(existing.value) then existing.value else Obj([]);
      if existing.Some? && Truthy(existing.value) {
        LookupInTree(obj.fields, ks[0]);
      }
      var n := NestText(next, ks[1..], lastKey, text);
      assert n.Success?;
      if !next.Obj? {
        assert false;
      }
      NestTextPlaces(next, ks[1..], lastKey, text);
      assert Prop(r, ks[0]) == Some(n.value);
      assert At(r, ks) == At(n.value, ks[1..]);
      forall fs | At(obj, ks) == Some(Obj(fs))
        ensures At(next, ks[1..]) == Some(Obj(fs))
      {
        assert existing.Some? && At(existing.value, ks[1..]) == Some(Obj(fs));
        if !Truthy(existing.value) {
          NoObjectUnderFalsy(existing.value, ks[1..]);
        }
      }
    }
  }

  /** Empty text under `root && key`: pushCommonModel.ts assigns it, the platform
      pushes skip it. */
  lemma EmptyTextAssignedOnlyForCommonModels(acc: Fields, f: PushFile)
    requires f.root && f.key != "" && !f.nested
    ensures TextStep(acc, f, "", CommonModelPush) == Success(Put(acc, f.key, Str("")))
    ensures TextStep(acc, f, "", PlatformPush) == Success(acc)
    ensures TextStep(acc, f, "", ModelPush) == Success(acc)
  {
  }

  // ---------------------------------------------------------------- common enums

  /** `getPushStructureData` of pushCommonEnum.ts over its first `n` names: every
      existing `.json` file is merged in order, one that is not JSON throws, and any
      other name ends the process. */
  function EnumAssemble(names: seq<string>, json: map<string, Option<Value>>, n: nat): Result<Fields>
    requires n <= |names|
  {
    if n == 0 then Success([])
    else
      var acc :- EnumAssemble(names, json, n - 1);
      var name := names[n - 1];
      if !IsJsonName(name) then Failure("file is not supported")
      else if name !in json then Success(acc)
      else if json[name].None? then Failure(SyntaxError)
      else Success(Assign(acc, SpreadOf(json[name].value)))
  }

  /** What a key holds after the merge, read back to front: the last existing file
      that has the key decides. */
  function LastValue(names: seq<string>, json: map<string, Option<Value>>, k: string): Option<Value>
    decreases |names|
  {
    if |names| == 0 then None
    else
      var name := names[|names| - 1];
      if name in json && json[name].Some? && k in Keys(SpreadOf(json[name].value)) then Lookup(SpreadOf(json[name].value), k)
      else LastValue(names[..|names| - 1], json, k)
  }

  /** Parsed objects have one entry per key. */
  predicate ParsedObjects(json: map<string, Option<Value>>) {
    forall name | name in json && json[name].Some? :: json[name].value.Obj? ==> UniqueKeys(json[name].value.fields)
  }

  /** A `.json` name that can be merged: the file is absent or its text is JSON. */
  predicate Mergeable(json: map<string, Option<Value>>, name: string) {
    IsJsonName(name) && (name in json ==> json[name].Some?)
  }

  /** The merge succeeds exactly when every name is a `.json` name whose file is absent
      or parses, and each key then holds the value of the last file that has it. */
  lemma {:induction false} EnumMerge(names: seq<string>, json: map<string, Option<Value>>, n: nat, k: string)
    requires n <= |names| && ParsedObjects(json)
    ensures EnumAssemble(names, json, n).Success? <==> forall i | 0 <= i < n :: Mergeable(json, names[i])
    ensures EnumAssemble(names, json, n).Success? ==>
      Lookup(EnumAssemble(names, json, n).value, k) == LastValue(names[..n], json, k)
  {
    if n > 0 {
      EnumMerge(names, json, n - 1, k);
      var name := names[n - 1];
      assert names[..n][..n - 1] == names[..n - 1];
      if EnumAssemble(names, json, n - 1).Success? && IsJsonName(name) && name in json && json[name].Some? {
        var v := json[name].value;
        SpreadOfUnique(v);
        AssignLookup(EnumAssemble(names, json, n - 1).value, SpreadOf(v), k);
        if k in Keys(SpreadOf(v)) {
        } else {
          assert Lookup(SpreadOf(v), k) == None;
        }
      }
    }
  }

  /** The loop of pushCommonEnum.ts. */
  method GetEnumStructureData(names: seq<string>, json: map<string, Option<Value>>) returns (r: Result<Fields>)
    ensures r == EnumAssemble(names, json, |names|)
  {
    var structureData: Fields := [];
    var i := 0;
    while i < |names|
      invariant 0 <= i <= |names|
      invariant EnumAssemble(names, json, i) == Success(structureData)
    {
      if !IsJsonName(names[i]) {
        EnumFailureStays(names, json, i + 1, |names|);
        return Failure("file is not supported");
      }
      if names[i] in json {
        if json[names[i]].None? {
          EnumFailureStays(names, json, i + 1, |names|);
          return Failure(SyntaxError);
        }
        structureData := Assign(structureData, SpreadOf(json[names[i]].value));
      }
      i := i + 1;
    }
    r := Success(structureData);
  }

  lemma {:induction false} EnumFailureStays(names: seq<string>, json: map<string, Option<Value>>, k: nat, n: nat)
    requires k <= n <= |names| && EnumAssemble(names, json, k).Failure?
    ensures EnumAssemble(names, json, n) == EnumAssemble(names, json, k)
  {
    if n > k {
      EnumFailureStays(names, json, k, n - 1);
    }
  }
}

=== FILE: files.dfy ===
/** The file system as the CLI's helpers in bin/helpers.ts see it through Node's
    `fs.promises`: a map from paths to directories and text files, with the
    operations `mkdir -p`, `appendFile`, `writeFile`/`copyFile`, `rm -r`, `rename`
    and `readFile`, and the `FileSystem` object whose state they change. A path is
    the list of its segments. */
module Files {
  import opened Wrappers
  import opened Text

  type Path = seq<string>

  datatype Entry = Dir | File(text: string)

  type Entries = map<Path, Entry>

  function Parent(p: Path): Path
    requires |p| > 0
  {
    p[..|p| - 1]
  }

  predicate IsDir(t: Entries, p: Path) { p in t && t[p].Dir? }

  predicate IsFile(t: Entries, p: Path) { p in t && t[p].File? }

  /** A tree a real file system can hold: the root is a directory and so is the
      parent of every other entry. */
  predicate WellFormed(t: Entries) {
    IsDir(t, []) && forall p {:trigger Parent(p)} | p in t && p != [] :: IsDir(t, Parent(p))
  }

  /** Everything `t` holds is still there, unchanged, in `t'`. */
  predicate Extends(t: Entries, t': Entries) {
    forall p | p in t :: p in t' && t'[p] == t[p]
  }

  /** In a well-formed tree every prefix of an entry is an entry: nothing lies below
      a missing path. */
  lemma {:induction false} AncestorPresent(t: Entries, p: Path, q: Path)
    requires WellFormed(t) && q in t
    ensures p < q ==> p in t
    decreases |q|
  {
    if p < q {
      assert IsDir(t, Parent(q));
      if p != Parent(q) {
        assert p < Parent(q);
        AncestorPresent(t, p, Parent(q));
      }
    }
  }

  /** The new state after an operation whose error the helper catches and returns. */
  function Apply(t: Entries, r: Result<Entries>): Entries {
    if r.Success? then r.value else t
  }

  /** A file sits where `mkdir -p p` needs a directory. */
  predicate Blocked(t: Entries, p: Path) {
    exists i | 0 <= i <= |p| :: IsFile(t, p[..i])
  }

  /** `mkdir(p, { recursive: true })`: creates every missing directory on the way;
      fails when a file is in the way. */
  function MakeDirs(t: Entries, p: Path): (r: Result<Entries>)
    decreases |p|
  {
    if p == [] then Success(t)
    else
      var t1 :- MakeDirs(t, Parent(p));
      if p in t1 then
        if t1[p].Dir? then Success(t1) else Failure("EEXIST: file already exists, mkdir")
      else Success(t1[p := Dir])
  }

  lemma BlockedParent(t: Entries, p: Path)
    requires |p| > 0
    ensures Blocked(t, p) <==> Blocked(t, Parent(p)) || IsFile(t, p)
  {
    if Blocked(t, p) && !IsFile(t, p) {
      var i :| 0 <= i <= |p| && IsFile(t, p[..i]);
      assert i < |p| by { assert p[..|p|] == p; }
      assert Parent(p)[..i] == p[..i];
    }
    if Blocked(t, Parent(p)) {
      var i :| 0 <= i <= |Parent(p)| && IsFile(t, Parent(p)[..i]);
      assert p[..i] == Parent(p)[..i];
    }
    if IsFile(t, p) {
      assert p[..|p|] == p;
    }
  }

  /** `mkdir -p` succeeds exactly when no file is in the way. It then leaves every
      directory on the path, keeps what was there, and adds nothing else. */
  lemma {:induction false} MakeDirsSpec(t: Entries, p: Path)
    requires WellFormed(t)
    ensures MakeDirs(t, p).Success? <==> !Blocked(t, p)
    ensures MakeDirs(t, p).Success? ==>
      var t' := MakeDirs(t, p).value;
      && WellFormed(t') && Extends(t, t')
      && (forall i | 0 <= i <= |p| :: IsDir(t', p[..i]))
      && (forall q | q in t' && q !in t :: q <= p)
    decreases |p|
  {
    if p == [] {
      assert !Blocked(t, p) by {
        forall i | 0 <= i <= |p| ensures !IsFile(t, p[..i]) {
          assert p[..i] == [];
        }
      }
    } else {
      MakeDirsSpec(t, Parent(p));
      BlockedParent(t, p);
      if MakeDirs(t, Parent(p)).Success? {
        var t1 := MakeDirs(t, Parent(p)).value;
        assert !(p <= Parent(p));
        assert p in t1 <==> p in t;
        if p !in t1 || t1[p].Dir? {
          var t' := MakeDirs(t, p).value;
          forall i | 0 <= i <= |p| ensures IsDir(t', p[..i]) {
            if i < |p| {
              assert Parent(p)[..i] == p[..i];
            } else {
              assert p[..i] == p;
            }
          }
          forall q | q in t' && q !in t ensures q <= p {
            if q != p {
              assert q <= Parent(p);
            }
          }
          assert IsDir(t', Parent(p)) by {
            assert Parent(p)[..|Parent(p)|] == Parent(p);
          }
        }
      }
    }
  }

  /** `appendFile(p, text)`: an existing file keeps its text in front; a missing file
      is created when its directory exists. */
  function AppendFile(t: Entries, p: Path, text: string): (r: Result<Entries>)
    ensures r.Success? ==> p in r.value && r.value[p] == File(if IsFile(t, p) then t[p].text + text else text)
    ensures r.Success? ==> forall q | q != p :: q in r.value <==> q in t
    ensures r.Success? ==> forall q | q != p && q in t :: r.value[q] == t[q]
  {
    if p in t then
      if t[p].File? then Success(t[p := File(t[p].text + text)]) else Failure("EISDIR: illegal operation on a directory")
    else if |p| > 0 && IsDir(t, Parent(p)) then Success(t[p := File(text)])
    else Failure("ENOENT: no such file or directory")
  }

  /** `writeFile(p, text)` and `copyFile(template, p)`: the file ends up holding exactly `text`. */
  function WriteFile(t: Entries, p: Path, text: string): (r: Result<Entries>)
    ensures r.Success? ==> p in r.value && r.value[p] == File(text)
    ensures r.Success? ==> forall q | q != p :: q in r.value <==> q in t
    ensures r.Success? ==> forall q | q != p && q in t :: r.value[q] == t[q]
  {
    if p in t then
      if t[p].File? then Success(t[p := File(text)]) else Failure("EISDIR: illegal operation on a directory")
    else if |p| > 0 && IsDir(t, Parent(p)) then Success(t[p := File(text)])
    else Failure("ENOENT: no such file or directory")
  }

  /** Both succeed on the same states: a file, or a missing file in an existing directory. */
  lemma WriteLikeAppend(t: Entries, p: Path, a: string, b: string)
    ensures WriteFile(t, p, a).Success? <==> AppendFile(t, p, b).Success?
    ensures AppendFile(t, p, b).Success? <==> IsFile(t, p) || (p !in t && |p| > 0 && IsDir(t, Parent(p)))
  {
  }

  /** Writing or appending to a file keeps the tree well formed. */
  lemma WriteKeepsWellFormed(t: Entries, p: Path, text: string)
    requires WellFormed(t)
    ensures WriteFile(t, p, text).Success? ==> WellFormed(WriteFile(t, p, text).value)
    ensures AppendFile(t, p, text).Success? ==> WellFormed(AppendFile(t, p, text).value)
  {
  }

  /** `rm(p, { recursive: true })`: the entry and everything below it. */
  function RemoveTree(t: Entries, p: Path): (r: Result<Entries>)
    ensures r.Success? <==> p in t
    ensures r.Success? ==> forall q :: q in r.value <==> q in t && !(p <= q)
    ensures r.Success? ==> forall q | q in r.value :: r.value[q] == t[q]
  {
    if p in t then Success(map q | q in t && !(p <= q) :: t[q]) else Failure("ENOENT: no such file or directory")
  }

  lemma RemoveKeepsWellFormed(t: Entries, p: Path)
    requires WellFormed(t) && p != [] && p in t
    ensures WellFormed(RemoveTree(t, p).value)
  {
    var t' := RemoveTree(t, p).value;
    forall q | q in t' && q != [] ensures IsDir(t', Parent(q)) {
      assert !(p <= Parent(q));
    }
  }

  /** Every ancestor of an entry of a well-formed tree is a directory. */
  lemma {:induction false} AncestorIsDir(t: Entries, p: Path, a: Path)
    requires WellFormed(t) && p in t && a <= p && a != p
    ensures IsDir(t, a)
    decreases |p|
  {
    if a != Parent(p) {
      assert a <= Parent(p);
      AncestorIsDir(t, Parent(p), a);
    }
  }

  /** `rename(from, to)` onto a free path in an existing directory; the whole subtree
      moves, keeping its entries. */
  function Rename(t: Entries, from: Path, to: Path): (r: Result<Entries>)
  {
    if from !in t then Failure("ENOENT: no such file or directory, rename")
    else if from == to then Success(t)
    else if from <= to then Failure("EINVAL: invalid argument, rename")
    else if to in t then Failure("EEXIST: file already exists, rename")
    else if |to| == 0 || !IsDir(t, Parent(to)) then Failure("ENOENT: no such file or directory, rename")
    else
      var moved := set p | p in t && from <= p :: to + p[|from|..];
      var kept := set p | p in t && !(from <= p);
      Success(map q | q in moved + kept ::
        if to <= q && from + q[|to|..] in t then t[from + q[|to|..]] else if q in t then t[q] else Dir)
  }

  /** After a rename of a well-formed tree the entry is found under its new name
      only, with the same content, and nothing outside the two subtrees changes. */
  lemma RenameSpec(t: Entries, from: Path, to: Path)
    requires WellFormed(t) && Rename(t, from, to).Success? && from != to
    ensures var t' := Rename(t, from, to).value;
      from !in t' && to in t' && t'[to] == t[from]
      && forall q | q in t && !(from <= q) :: q in t' && t'[q] == t[q]
  {
    var t' := Rename(t, from, to).value;
    assert to[|to|..] == [] && from + [] == from;
    assert to == to + from[|from|..];
    assert from !in t' by {
      if to <= from {
        AncestorIsDir(t, from, to);
      }
    }
    forall q | q in t && !(from <= q) ensures q in t' && t'[q] == t[q] {
      if to <= q && to != q {
        AncestorIsDir(t, q, to);
      }
    }
  }

  function ReadText(t: Entries, p: Path): (r: Result<string>)
    ensures r.Success? <==> IsFile(t, p)
  {
    if IsFile(t, p) then Success(t[p].text) else Failure("ENOENT: no such file or directory, open")
  }

  /** The first directory entry equal to `a` ignoring case (`dirs.find(...)`). */
  function FindIgnoringCase(names: seq<string>, a: string): (r: Option<string>)
    ensures r.Some? ==> r.value in names && Lower(r.value) == Lower(a)
    ensures r.None? ==> forall n | n in names :: Lower(n) != Lower(a)
    ensures a in names && (forall n | n in names && Lower(n) == Lower(a) :: n == a) ==> r == Some(a)
  {
    if |names| == 0 then None
    else if Lower(names[0]) == Lower(a) then Some(names[0])
    else FindIgnoringCase(names[1..], a)
  }

  /** The directory listings of the machine (`readdirSync`), in their own order. */
  type Listing = map<Path, seq<string>>

  /** `getCaseCorrectedPath(input)` on the resolved path `input`: from the root, each
      segment is replaced by the first entry of the current directory that equals it
      ignoring case; a segment without one is dropped and the walk goes on from the
      same directory; `.` is skipped; listing something that is not a directory
      throws. The result keeps the prefix walked so far, grows by at most one
      segment per input segment, and when no segment was dropped it spells the
      input ignoring case. */
  function CorrectFrom(listing: Listing, r: Path, segs: Path): (res: Result<Path>)
    ensures res.Success? ==> |r| <= |res.value| <= |r| + |segs| && res.value[..|r|] == r
    ensures res.Success? && |res.value| == |r| + |segs| ==>
      forall i | 0 <= i < |segs| :: Lower(res.value[|r| + i]) == Lower(segs[i])
    decreases |segs|
  {
    if segs == [] then Success(r)
    else if segs[0] == "." then CorrectFrom(listing, r, segs[1..])
    else if r !in listing then Failure("ENOTDIR: not a directory, scandir")
    else match FindIgnoringCase(listing[r], segs[0])
      case Some(n) =>
        var res := CorrectFrom(listing, r + [n], segs[1..]);
        assert res.Success? ==> res.value[..|r|] == (r + [n])[..|r|];
        res
      case None => CorrectFrom(listing, r, segs[1..])
  }

  function CaseCorrected(listing: Listing, input: Path): Result<Path> {
    CorrectFrom(listing, [], input)
  }

  /** Every step of the corrected path is an entry of the directory before it. */
  predicate Listed(listing: Listing, p: Path) {
    forall i | 0 <= i < |p| :: p[..i] in listing && p[i] in listing[p[..i]]
  }

  /** Names in one directory never differ only by case. */
  predicate CaseDistinct(listing: Listing) {
    forall d, m, n | d in listing && m in listing[d] && n in listing[d] && Lower(m) == Lower(n) :: m == n
  }

  /** The corrected path names things that exist. */
  lemma {:induction false} CorrectedIsListed(listing: Listing, r: Path, segs: Path)
    requires Listed(listing, r) && CorrectFrom(listing, r, segs).Success?
    ensures Listed(listing, CorrectFrom(listing, r, segs).value)
    decreases |segs|
  {
    if segs != [] && segs[0] != "." {
      match FindIgnoringCase(listing[r], segs[0])
      case Some(n) =>
        var r' := r + [n];
        assert Listed(listing, r') by {
          forall i | 0 <= i < |r'| ensures r'[..i] in listing && r'[i] in listing[r'[..i]] {
            if i < |r| {
              assert r'[..i] == r[..i];
            } else {
              assert r'[..i] == r;
            }
          }
        }
        CorrectedIsListed(listing, r', segs[1..]);
      case None =>
        CorrectedIsListed(listing, r, segs[1..]);
    } else if segs != [] {
      CorrectedIsListed(listing, r, segs[1..]);
    }
  }

  /** A path that exists in its exact spelling, on a disk whose directories never
      hold two names differing only by case, comes back unchanged. */
  lemma {:induction false} CorrectedExisting(listing: Listing, r: Path, segs: Path)
    requires CaseDistinct(listing)
    requires "." !in segs
    requires Listed(listing, r + segs)
    ensures CorrectFrom(listing, r, segs) == Success(r + segs)
    decreases |segs|
  {
    if segs != [] {
      var p := r + segs;
      assert p[..|r|] == r && p[|r|] == segs[0];
      assert FindIgnoringCase(listing[r], segs[0]) == Some(segs[0]);
      assert (r + [segs[0]]) + segs[1..] == p;
      CorrectedExisting(listing, r + [segs[0]], segs[1..]);
    } else {
      assert r + segs == r;
    }
  }

  /** The machine's file system, changed in place by the helpers, and the read-only
      template directory shipped with the CLI (template name to text). */
  class FileSystem {
    var entries: Entries
    const templates: map<string, string>

    constructor (entries: Entries, templates: map<string, string>)
      ensures this.entries == entries && this.templates == templates
    {
      this.entries := entries;
      this.templates := templates;
    }

    /** `checkExistence`. */
    method CheckExistence(p: Path) returns (b: bool)
      ensures b <==> p in entries
    {
      b := p in entries;
    }

    /** `createFolder(p)`: `true`, or the caught error. */
    method CreateFolder(p: Path) returns (ok: bool)
      modifies this
      ensures ok == MakeDirs(old(entries), p).Success?
      ensures entries == Apply(old(entries), MakeDirs(old(entries), p))
    {
      var r := MakeDirs(entries, p);
      ok := r.Success?;
      entries := Apply(entries, r);
    }

    /** `createFile(p, content)`: appends, catching the error. */
    method CreateFile(p: Path, content: string) returns (ok: bool)
      modifies this
      ensures ok == AppendFile(old(entries), p, content).Success?
      ensures entries == Apply(old(entries), AppendFile(old(entries), p, content))
    {
      var r := AppendFile(entries, p, content);
      ok := r.Success?;
      entries := Apply(entries, r);
    }

    /** `overwriteFile(p, content)`. */
    method OverwriteFile(p: Path, content: string) returns (ok: bool)
      modifies this
      ensures ok == WriteFile(old(entries), p, content).Success?
      ensures entries == Apply(old(entries), WriteFile(old(entries), p, content))
    {
      var r := WriteFile(entries, p, content);
      ok := r.Success?;
      entries := Apply(entries, r);
    }

    /** `removeFileOrFolder(p)`. */
    method RemoveFileOrFolder(p: Path) returns (ok: bool)
      modifies this
      ensures ok == (p in old(entries))
      ensures entries == Apply(old(entries), RemoveTree(old(entries), p))
    {
      var r := RemoveTree(entries, p);
      ok := r.Success?;
      entries := Apply(entries, r);
    }

    /** `renameFileOrFolder(from, to)`. */
    method RenameFileOrFolder(from: Path, to: Path) returns (ok: bool)
      modifies this
      ensures ok == Rename(old(entries), from, to).Success?
      ensures entries == Apply(old(entries), Rename(old(entries), from, to))
    {
      var r := Rename(entries, from, to);
      ok := r.Success?;
      entries := Apply(entries, r);
    }

    /** `readFile(p)`: the text, or the error object. */
    method ReadFile(p: Path) returns (r: Result<string>)
      ensures r == ReadText(entries, p)
    {
      r := ReadText(entries, p);
    }
  }
}

=== FILE: json.dfy ===
/** JSON values as the CLI holds them after `JSON.parse`, with the JavaScript
    operations it applies to them: truthiness, property reads, property writes,
    `delete`, object spread / `Object.assign`, and `JSON.stringify`.
    An object is an association list that keeps its keys in insertion order. */
module Json {
  import opened Wrappers
  import opened Text

  datatype Value =
    | Null
    | Bool(b: bool)
    | Num(n: int)
    | Str(s: string)
    | Arr(items: seq<Value>)
    | Obj(fields: seq<(string, Value)>)

  type Fields = seq<(string, Value)>

  /** JavaScript truthiness: `null`, `false`, `0` and `""` are falsy. */
  predicate Truthy(v: Value) {
    match v
    case Null => false
    case Bool(b) => b
    case Num(n) => n != 0
    case Str(s) => s != ""
    case _ => true
  }

  /** `typeof v === "object"` for a truthy value. */
  predicate IsContainer(v: Value) { v.Arr? || v.Obj? }

  function Keys(fs: Fields): (ks: seq<string>)
    ensures |ks| == |fs|
    ensures forall i | 0 <= i < |fs| :: ks[i] == fs[i].0
  {
    if |fs| == 0 then [] else [fs[0].0] + Keys(fs[1..])
  }

  /** No key occurs twice: every object a JavaScript program can build. */
  predicate UniqueKeys(fs: Fields) {
    forall i, j | 0 <= i < j < |fs| :: fs[i].0 != fs[j].0
  }

  /** `o[k]` for an own property `k` of an object. */
  function Lookup(fs: Fields, k: string): (r: Option<Value>)
    ensures r.None? <==> k !in Keys(fs)
    ensures r.Some? ==> (k, r.value) in fs
  {
    if |fs| == 0 then None
    else if fs[0].0 == k then Some(fs[0].1)
    else Lookup(fs[1..], k)
  }

  lemma LookupUnique(fs: Fields, i: nat)
    requires UniqueKeys(fs) && i < |fs|
    ensures Lookup(fs, fs[i].0) == Some(fs[i].1)
  {
    if i > 0 {
      assert fs[0].0 != fs[i].0;
      LookupUnique(fs[1..], i - 1);
    }
  }

  /** `o[k] = v`: an existing key keeps its position, a new key goes last. */
  function Put(fs: Fields, k: string, v: Value): (r: Fields)
    ensures Lookup(r, k) == Some(v)
    ensures forall k' | k' != k :: Lookup(r, k') == Lookup(fs, k')
  {
    if |fs| == 0 then [(k, v)]
    else if fs[0].0 == k then [(k, v)] + fs[1..]
    else [fs[0]] + Put(fs[1..], k, v)
  }

  /** An existing key keeps its position, a new key goes last. */
  lemma {:induction false} PutKeys(fs: Fields, k: string, v: Value)
    ensures Keys(Put(fs, k, v)) == if k in Keys(fs) then Keys(fs) else Keys(fs) + [k]
  {
    if |fs| > 0 {
      var r := Put(fs, k, v);
      if fs[0].0 == k {
        assert r[1..] == fs[1..];
      } else {
        PutKeys(fs[1..], k, v);
        assert r[1..] == Put(fs[1..], k, v);
        assert Keys(fs) == [fs[0].0] + Keys(fs[1..]);
        assert k in Keys(fs) <==> k in Keys(fs[1..]);
      }
    }
  }

  /** Writing a key the object does not have appends it. */
  lemma {:induction false} PutAbsent(fs: Fields, k: string, v: Value)
    requires k !in Keys(fs)
    ensures Put(fs, k, v) == fs + [(k, v)]
  {
    if |fs| > 0 {
      AbsentFromTail(fs, k);
      var tail := Put(fs[1..], k, v);
      assert tail == fs[1..] + [(k, v)] by { PutAbsent(fs[1..], k, v); }
      assert Put(fs, k, v) == [fs[0]] + tail;
      assert [fs[0]] + tail == fs + [(k, v)];
    }
  }

  lemma AbsentFromTail(fs: Fields, k: string)
    requires |fs| > 0 && k !in Keys(fs)
    ensures fs[0].0 != k && k !in Keys(fs[1..])
  {
    assert Keys(fs) == [fs[0].0] + Keys(fs[1..]);
  }

  /** Objects keep at most one entry per key. */
  lemma UniqueByKeys(fs: Fields, gs: Fields)
    requires UniqueKeys(fs)
    requires Keys(gs) == Keys(fs) || exists k :: k !in Keys(fs) && Keys(gs) == Keys(fs) + [k]
    ensures UniqueKeys(gs)
  {
    forall i, j | 0 <= i < j < |gs| ensures gs[i].0 != gs[j].0 {
      assert Keys(gs)[i] == gs[i].0 && Keys(gs)[j] == gs[j].0;
      if j < |fs| {
        assert Keys(fs)[i] == fs[i].0 && Keys(fs)[j] == fs[j].0;
      }
    }
  }

  lemma PutUnique(fs: Fields, k: string, v: Value)
    requires UniqueKeys(fs)
    ensures UniqueKeys(Put(fs, k, v))
  {
    PutKeys(fs, k, v);
    UniqueByKeys(fs, Put(fs, k, v));
  }

  /** `delete o[k]`. */
  function Remove(fs: Fields, k: string): (r: Fields)
    ensures Lookup(r, k) == None
    ensures forall k' | k' != k :: Lookup(r, k') == Lookup(fs, k')
    ensures k !in Keys(fs) ==> r == fs
    ensures UniqueKeys(fs) ==> UniqueKeys(r)
    ensures forall i | 0 <= i < |r| :: r[i] in fs
  {
    if |fs| == 0 then []
    else if fs[0].0 == k then Remove(fs[1..], k)
    else [fs[0]] + Remove(fs[1..], k)
  }

  /** `Object.assign(target, source)` and `{ ...target, ...source }`: the source's
      keys are written in order, so later keys win and a key already in the target
      keeps its place. */
  function Assign(target: Fields, source: Fields): Fields
    decreases |source|
  {
    if |source| == 0 then target
    else Assign(Put(target, source[0].0, source[0].1), source[1..])
  }

  /** The target's keys stay first and in their order; the source adds its new keys. */
  lemma {:induction false} AssignKeys(target: Fields, source: Fields)
    ensures Keys(target) <= Keys(Assign(target, source))
    ensures forall k :: k in Keys(Assign(target, source)) <==> k in Keys(target) || k in Keys(source)
    ensures UniqueKeys(target) ==> UniqueKeys(Assign(target, source))
    decreases |source|
  {
    if |source| > 0 {
      var t' := Put(target, source[0].0, source[0].1);
      PutKeys(target, source[0].0, source[0].1);
      if UniqueKeys(target) {
        PutUnique(target, source[0].0, source[0].1);
      }
      AssignKeys(t', source[1..]);
      assert Keys(source) == [source[0].0] + Keys(source[1..]);
    }
  }

  /** What `Assign` leaves under each key when the source is a real object. */
  lemma {:induction false} AssignLookup(target: Fields, source: Fields, k: string)
    requires UniqueKeys(source)
    ensures Lookup(Assign(target, source), k) ==
      if k in Keys(source) then Lookup(source, k) else Lookup(target, k)
    decreases |source|
  {
    if |source| > 0 {
      var t' := Put(target, source[0].0, source[0].1);
      assert UniqueKeys(source[1..]);
      AssignLookup(t', source[1..], k);
      if k == source[0].0 {
        assert k !in Keys(source[1..]) by {
          forall i | 0 <= i < |source[1..]| ensures source[1..][i].0 != k {
            assert source[i + 1].0 != source[0].0;
          }
        }
      }
    }
  }

  /** The own enumerable properties `{ ...v }` copies: an object's fields, an
      array's or a string's elements under their index keys, nothing for the rest. */
  function SpreadOf(v: Value): (fs: Fields)
    ensures v.Obj? ==> fs == v.fields
  {
    match v
    case Obj(fields) => fields
    case Arr(items) => seq(|items|, i requires 0 <= i < |items| => (NatToString(i), items[i]))
    case Str(s) => seq(|s|, i requires 0 <= i < |s| => (NatToString(i), Str([s[i]])))
    case _ => []
  }

  /** Spreading a well-formed value yields each key once: index keys are distinct. */
  lemma SpreadOfUnique(v: Value)
    requires v.Obj? ==> UniqueKeys(v.fields)
    ensures UniqueKeys(SpreadOf(v))
  {
    var fs := SpreadOf(v);
    if v.Arr? || v.Str? {
      forall i, j | 0 <= i < j < |fs| ensures fs[i].0 != fs[j].0 {
        IndexRoundTrip(i);
        IndexRoundTrip(j);
      }
    }
  }

  /** `v[k]` on a value that is not `null`: own properties of objects, the
      elements and `length` of arrays and strings; primitives have none. */
  function Prop(v: Value, k: string): (r: Option<Value>)
    ensures v.Obj? ==> r == Lookup(v.fields, k)
    ensures v.Null? || v.Bool? || v.Num? ==> r.None?
  {
    match v
    case Obj(fs) => Lookup(fs, k)
    case Arr(items) =>
      if k == "length" then Some(Num(|items|))
      else (match ParseIndex(k)
        case Some(i) => if i < |items| then Some(items[i]) else None
        case None => None)
    case Str(s) =>
      if k == "length" then Some(Num(|s|))
      else (match ParseIndex(k)
        case Some(i) => if i < |s| then Some(Str([s[i]])) else None
        case None => None)
    case _ => None
  }

  function Nulls(n: nat): (r: seq<Value>)
    ensures |r| == n && forall i | 0 <= i < n :: r[i] == Null
  {
    if n == 0 then [] else Nulls(n - 1) + [Null]
  }

  /** `v[k] = x` in strict-mode JavaScript. Writing past the end of an array
      leaves holes, which serialise as `null`; a non-index key written to an
      array is not part of its JSON form; writing to a primitive throws. */
  function SetProp(v: Value, k: string, x: Value): (r: Result<Value>)
    ensures r.Success? <==> IsContainer(v)
    ensures v.Obj? ==> r == Success(Obj(Put(v.fields, k, x)))
    ensures r.Success? ==> Prop(r.value, k) == Some(x) || (v.Arr? && (ParseIndex(k).None? || k == "length"))
  {
    match v
    case Obj(fs) => Success(Obj(Put(fs, k, x)))
    case Arr(items) =>
      (match ParseIndex(k)
       case Some(i) =>
         if i < |items| then Success(Arr(items[i := x]))
         else Success(Arr(items + Nulls(i - |items|) + [x]))
       case None => Success(v))
    case _ => Failure("TypeError: Cannot create property '" + k + "'")
  }

  /** `JSON.stringify(v)` in compact form; string escaping covers `"` and `\` only. */
  function Serialize(v: Value): string
  {
    match v
    case Null => "null"
    case Bool(b) => if b then "true" else "false"
    case Num(n) => IntToString(n)
    case Str(s) => Quote(s)
    case Arr(items) =>
      "[" + Join(seq(|items|, i requires 0 <= i < |items| => Serialize(items[i])), ',') + "]"
    case Obj(fs) =>
      "{" + Join(seq(|fs|, i requires 0 <= i < |fs| => Quote(fs[i].0) + ":" + Serialize(fs[i].1)), ',') + "}"
  }

  function Quote(s: string): string {
    "\"" + Escape(s) + "\""
  }

  function Escape(s: string): string {
    if |s| == 0 then ""
    else (if s[0] == '"' || s[0] == '\\' then ['\\', s[0]] else [s[0]]) + Escape(s[1..])
  }

  /** `String(v)`, as a template literal or `String.prototype.replace` renders a value. */
  function JsString(v: Value): string {
    match v
    case Null => "null"
    case Bool(b) => if b then "true" else "false"
    case Num(n) => IntToString(n)
    case Str(s) => s
    case Obj(_) => "[object Object]"
    case Arr(items) => Join(seq(|items|, i requires 0 <= i < |items| => if items[i].Null? then "" else JsString(items[i])), ',')
  }
}

=== FILE: lists.dfy ===
/** The list helpers of bin/helpers.ts: `splitNames` (the regex scan that turns a
    command-line string into names), `sortByNameKey` (the in-place sort of
    listed rows) and `joinKeyValuePairs` (environment assignments for a shell). */
module Lists {
  import opened Wrappers
  import opened Text
  import Json

  predicate IsQuote(c: char) { c == '"' || c == '\'' }

  /** Where the run of non-quote characters starting at `i` ends. */
  function NonQuoteEnd(s: string, i: nat): (j: nat)
    requires i <= |s|
    ensures i <= j <= |s| && (j < |s| ==> IsQuote(s[j]))
    ensures forall k | i <= k < j :: !IsQuote(s[k])
    decreases |s| - i
  {
    if i == |s| || IsQuote(s[i]) then i else NonQuoteEnd(s, i + 1)
  }

  /** Where the run of non-space characters (`\S+`) starting at `i` ends. */
  function NonSpaceEnd(s: string, i: nat): (j: nat)
    requires i <= |s|
    ensures i <= j <= |s| && (j < |s| ==> IsSpace(s[j]))
    ensures forall k | i <= k < j :: !IsSpace(s[k])
    decreases |s| - i
  {
    if i == |s| || IsSpace(s[i]) then i else NonSpaceEnd(s, i + 1)
  }

  /** A match of `/["']([^"']+)["']|\S+/` that starts at `i`: the name pushed for it
      (the quoted text, or the whole match) and the index where the next search starts. */
  function MatchAt(s: string, i: nat): (m: Option<(string, nat)>)
    requires i < |s|
    ensures m.Some? ==> i < m.value.1 <= |s| && |m.value.0| > 0
    ensures m.None? <==> IsSpace(s[i])
  {
    var q := NonQuoteEnd(s, i + 1);
    if IsQuote(s[i]) && i + 1 < q < |s| then Some((s[i + 1..q], q + 1))
    else if !IsSpace(s[i]) then Some((s[i..NonSpaceEnd(s, i)], NonSpaceEnd(s, i)))
    else None
  }

  /** The names `splitNames` collects from index `i` on. */
  function NamesFrom(s: string, i: nat): (names: seq<string>)
    requires i <= |s|
    ensures forall k | 0 <= k < |names| :: |names[k]| > 0
    decreases |s| - i
  {
    if i == |s| then []
    else match MatchAt(s, i)
      case Some((name, next)) => [name] + NamesFrom(s, next)
      case None => NamesFrom(s, i + 1)
  }

  /** `splitNames`: each `regex.exec` call scans for the next match; its quoted
      group is pushed when present, the whole match otherwise. */
  method SplitNames(input: string) returns (names: seq<string>)
    ensures names == NamesFrom(input, 0)
  {
    names := [];
    var last := 0;
    while last < |input|
      invariant last <= |input|
      invariant names + NamesFrom(input, last) == NamesFrom(input, 0)
      decreases |input| - last
    {
      var start := last;
      while start < |input| && MatchAt(input, start).None?
        invariant last <= start <= |input|
        invariant NamesFrom(input, start) == NamesFrom(input, last)
      {
        start := start + 1;
      }
      if start == |input| {
        break;
      }
      var name := MatchAt(input, start).value.0;
      names := names + [name];
      last := MatchAt(input, start).value.1;
    }
  }

  function Unspaced(s: string): string {
    if |s| == 0 then "" else (if IsSpace(s[0]) then "" else [s[0]]) + Unspaced(s[1..])
  }

  function Concat(ws: seq<string>): string {
    if |ws| == 0 then "" else ws[0] + Concat(ws[1..])
  }

  lemma {:induction false} UnspacedRun(s: string, i: nat, j: nat)
    requires i <= j <= |s|
    requires forall k | i <= k < j :: !IsSpace(s[k])
    ensures Unspaced(s[i..]) == s[i..j] + Unspaced(s[j..])
    decreases j - i
  {
    if i < j {
      UnspacedRun(s, i + 1, j);
      assert s[i..][1..] == s[i + 1..];
      assert s[i..j] == [s[i]] + s[i + 1..j];
    }
  }

  /** Without quotes, the names are the input's whitespace-separated words: none
      holds a space, and together they hold every other character in order. */
  lemma {:induction false} UnquotedNames(s: string, i: nat)
    requires i <= |s|
    requires forall k | 0 <= k < |s| :: !IsQuote(s[k])
    ensures forall k | 0 <= k < |NamesFrom(s, i)| :: forall c | c in NamesFrom(s, i)[k] :: !IsSpace(c)
    ensures Concat(NamesFrom(s, i)) == Unspaced(s[i..])
    decreases |s| - i
  {
    if i < |s| {
      if IsSpace(s[i]) {
        UnquotedNames(s, i + 1);
        assert s[i..][1..] == s[i + 1..];
      } else {
        var j := NonSpaceEnd(s, i);
        UnquotedNames(s, j);
        UnspacedRun(s, i, j);
        assert MatchAt(s, i) == Some((s[i..j], j));
        var names := NamesFrom(s, i);
        assert names == [s[i..j]] + NamesFrom(s, j);
        assert names[1..] == NamesFrom(s, j);
      }
    }
  }

  lemma {:induction false} NonQuoteEndAt(s: string, i: nat, j: nat)
    requires i <= j < |s| && IsQuote(s[j])
    requires forall k | i <= k < j :: !IsQuote(s[k])
    ensures NonQuoteEnd(s, i) == j
    decreases j - i
  {
    if i < j {
      NonQuoteEndAt(s, i + 1, j);
    }
  }

  /** A quoted name stays one name, spaces and all. */
  lemma QuotedName(w: string, open: char, close: char)
    requires IsQuote(open) && IsQuote(close) && |w| > 0
    requires forall k | 0 <= k < |w| :: !IsQuote(w[k])
    ensures NamesFrom([open] + w + [close], 0) == [w]
  {
    var s := [open] + w + [close];
    assert s[0] == open && s[|w| + 1] == close;
    assert s[1..|w| + 1] == w;
    assert forall k | 1 <= k < |w| + 1 :: !IsQuote(s[k]) by {
      forall k | 1 <= k < |w| + 1 ensures !IsQuote(s[k]) {
        assert s[k] == w[k - 1];
      }
    }
    NonQuoteEndAt(s, 1, |w| + 1);
    var m := MatchAt(s, 0);
    assert m == Some((w, |s|));
    assert NamesFrom(s, 0) == [w] + NamesFrom(s, |s|);
  }

  /** A listed row: `sortByNameKey` compares rows by their `name`. */
  datatype Row = Row(name: string, data: Json.Value)

  /** JavaScript's `<` on strings, lexicographic with a proper prefix first; characters
      compare by code point, which is JavaScript's UTF-16 code-unit order except
      between characters above U+FFFF and those in U+E000 to U+FFFF. */
  predicate StrLess(a: string, b: string)
    decreases |a|
  {
    if |a| == 0 then |b| > 0
    else if |b| == 0 then false
    else if a[0] != b[0] then a[0] < b[0]
    else StrLess(a[1..], b[1..])
  }

  lemma {:induction false} StrLessIrreflexive(a: string)
    ensures !StrLess(a, a)
    decreases |a|
  {
    if |a| > 0 {
      StrLessIrreflexive(a[1..]);
    }
  }

  lemma {:induction false} StrLessTransitive(a: string, b: string, c: string)
    requires StrLess(a, b) && StrLess(b, c)
    ensures StrLess(a, c)
    decreases |a|
  {
    if |a| > 0 && a[0] == b[0] && b[0] == c[0] {
      StrLessTransitive(a[1..], b[1..], c[1..]);
    }
  }

  lemma {:induction false} StrLessTotal(a: string, b: string)
    ensures a == b || StrLess(a, b) || StrLess(b, a)
    decreases |a|
  {
    if |a| > 0 && |b| > 0 && a[0] == b[0] {
      StrLessTotal(a[1..], b[1..]);
      if a[1..] == b[1..] {
        assert a == [a[0]] + a[1..] && b == [b[0]] + b[1..];
      }
    }
  }

  lemma StrLessAsymmetric(a: string, b: string)
    ensures !(StrLess(a, b) && StrLess(b, a))
  {
    if StrLess(a, b) && StrLess(b, a) {
      StrLessTransitive(a, b, a);
      StrLessIrreflexive(a);
    }
  }

  /** "Not after" is transitive. */
  lemma StrNotLessTransitive(a: string, b: string, c: string)
    requires !StrLess(b, a) && !StrLess(c, b)
    ensures !StrLess(c, a)
  {
    StrLessTotal(a, b);
    StrLessTotal(b, c);
    if StrLess(c, a) {
      if a == b {
        StrLessAsymmetric(b, c);
      } else if b == c {
        StrLessAsymmetric(a, b);
      } else {
        StrLessTransitive(a, b, c);
        StrLessAsymmetric(a, c);
      }
    }
  }

  /** The comparator returns a negative number: `x` goes before `y`. */
  predicate Before(x: Row, y: Row, descending: bool) {
    if descending then StrLess(y.name, x.name) else StrLess(x.name, y.name)
  }

  lemma BeforeAsymmetric(x: Row, y: Row, descending: bool)
    ensures !(Before(x, y, descending) && Before(y, x, descending))
  {
    StrLessAsymmetric(x.name, y.name);
  }

  lemma NotBeforeTransitive(x: Row, y: Row, z: Row, descending: bool)
    requires !Before(y, x, descending) && !Before(z, y, descending)
    ensures !Before(z, x, descending)
  {
    if descending {
      StrNotLessTransitive(z.name, y.name, x.name);
    } else {
      StrNotLessTransitive(x.name, y.name, z.name);
    }
  }

  /** No row goes before one to its left. */
  predicate SortedByName(s: seq<Row>, descending: bool) {
    forall p, q | 0 <= p < q < |s| :: !Before(s[q], s[p], descending)
  }

  /** While the row at `j` sinks into the sorted prefix `s[..i + 1]`: every other
      pair is in order, and nothing to its right goes before it. */
  predicate Sinking(s: seq<Row>, j: nat, i: nat, descending: bool)
    requires j <= i < |s|
  {
    (forall p, q | 0 <= p < q <= i && p != j && q != j :: !Before(s[q], s[p], descending))
    && (forall q | j < q <= i :: !Before(s[q], s[j], descending))
  }

  lemma SinkStep(s: seq<Row>, j: nat, i: nat, descending: bool)
    requires 0 < j <= i < |s| && Sinking(s, j, i, descending)
    requires Before(s[j], s[j - 1], descending)
    ensures Sinking(s[j - 1 := s[j]][j := s[j - 1]], j - 1, i, descending)
  {
    var t := s[j - 1 := s[j]][j := s[j - 1]];
    BeforeAsymmetric(s[j], s[j - 1], descending);
  }

  lemma SinkDone(s: seq<Row>, j: nat, i: nat, descending: bool)
    requires j <= i < |s| && Sinking(s, j, i, descending)
    requires j == 0 || !Before(s[j], s[j - 1], descending)
    ensures forall p, q | 0 <= p < q <= i :: !Before(s[q], s[p], descending)
  {
    forall p | 0 <= p < j
      ensures !Before(s[j], s[p], descending)
    {
      if p < j - 1 {
        NotBeforeTransitive(s[p], s[j - 1], s[j], descending);
      }
    }
  }

  /** `sortByNameKey`: sorts the rows in place by `name`, ascending or descending. */
  method SortByNameKey(a: array<Row>, descending: bool)
    modifies a
    ensures SortedByName(a[..], descending)
    ensures multiset(a[..]) == multiset(old(a[..]))
  {
    if a.Length == 0 {
      return;
    }
    var i := 1;
    while i < a.Length
      invariant 1 <= i <= a.Length
      invariant forall p, q | 0 <= p < q < i :: !Before(a[..][q], a[..][p], descending)
      invariant multiset(a[..]) == multiset(old(a[..]))
    {
      var j := i;
      while j > 0 && Before(a[j], a[j - 1], descending)
        invariant 0 <= j <= i
        invariant Sinking(a[..], j, i, descending)
        invariant multiset(a[..]) == multiset(old(a[..]))
      {
        SinkStep(a[..], j, i, descending);
        a[j - 1], a[j] := a[j], a[j - 1];
        j := j - 1;
      }
      SinkDone(a[..], j, i, descending);
      i := i + 1;
    }
  }

  /** `parts` separated by `sep`, built as the loop builds it. */
  function JoinWith(parts: seq<string>, sep: string): string {
    if |parts| == 0 then ""
    else if |parts| == 1 then parts[0]
    else JoinWith(parts[..|parts| - 1], sep) + sep + parts[|parts| - 1]
  }

  function Assignments(pairs: Json.Fields, prefix: string): (r: seq<string>)
    ensures |r| == |pairs|
    ensures forall i | 0 <= i < |pairs| :: r[i] == prefix + pairs[i].0 + "=" + Json.JsString(pairs[i].1)
  {
    seq(|pairs|, i requires 0 <= i < |pairs| => prefix + pairs[i].0 + "=" + Json.JsString(pairs[i].1))
  }

  /** The command line `joinKeyValuePairs` builds on each operating system. */
  function KeyValueLine(pairs: Json.Fields, platform: string): Result<string> {
    if platform == "win32" then Success(JoinWith(Assignments(pairs, "set "), " && "))
    else if platform == "linux" || platform == "darwin" then Success(JoinWith(Assignments(pairs, ""), " "))
    else Failure("Platform not supported! Please contact the developer!")
  }

  /** `joinKeyValuePairs`: Windows gets `set k=v` joined by ` && `, Linux and macOS
      `k=v` joined by a space, any other platform an error. */
  method JoinKeyValuePairs(pairs: Json.Fields, platform: string) returns (r: Result<string>)
    ensures r == KeyValueLine(pairs, platform)
  {
    var prefix, sep;
    if platform == "win32" {
      prefix, sep := "set ", " && ";
    } else if platform == "linux" || platform == "darwin" {
      prefix, sep := "", " ";
    } else {
      return Failure("Platform not supported! Please contact the developer!");
    }
    var parts := Assignments(pairs, prefix);
    var result := "";
    var i := 0;
    while i < |pairs|
      invariant i <= |pairs|
      invariant result == JoinWith(parts[..i], sep)
      invariant result == "" <==> i == 0
    {
      var item := prefix + pairs[i].0 + "=" + Json.JsString(pairs[i].1);
      JoinWithNext(parts, i, sep);
      if result != "" {
        result := result + sep + item;
      } else {
        result := item;
      }
      i := i + 1;
    }
    assert parts[..|pairs|] == parts;
    r := Success(result);
  }

  lemma JoinWithNext(parts: seq<string>, i: nat, sep: string)
    requires i < |parts|
    ensures JoinWith(parts[..i + 1], sep) == if i == 0 then parts[0] else JoinWith(parts[..i], sep) + sep + parts[i]
  {
    assert parts[..i + 1][..i] == parts[..i];
  }

  /** Each pair adds one assignment, after a separator when it is not the first. */
  lemma KeyValueLineAppend(pairs: Json.Fields, k: string, v: Json.Value, platform: string)
    requires KeyValueLine(pairs, platform).Success?
    ensures var sep := if platform == "win32" then " && " else " ";
      var prefix := if platform == "win32" then "set " else "";
      KeyValueLine(pairs + [(k, v)], platform) ==
        Success(KeyValueLine(pairs, platform).value + (if pairs == [] then "" else sep) + (prefix + k + "=" + Json.JsString(v)))
  {
    var sep := if platform == "win32" then " && " else " ";
    var prefix := if platform == "win32" then "set " else "";
    var parts := Assignments(pairs + [(k, v)], prefix);
    assert parts[..|pairs|] == Assignments(pairs, prefix);
    assert parts[|pairs|] == prefix + k + "=" + Json.JsString(v);
    if |pairs| > 0 {
      assert JoinWith(parts, sep) == JoinWith(parts[..|pairs|], sep) + sep + parts[|pairs|];
    } else {
      assert pairs == [] && JoinWith(Assignments(pairs, prefix), sep) == "";
      assert JoinWith(parts, sep) == parts[0];
      assert "" + "" + parts[0] == parts[0];
    }
  }
}

=== FILE: naming.dfy ===
/** The naming helpers of bin/helpers.ts: how user-given names become folder
    names, model names and action folder names, and how a status code is judged. */
module Naming {
  import opened Wrappers
  import opened Text

  /** The non-empty pieces `s.split(/[^a-zA-Z0-9]+/)` keeps after dropping empty
      words: the maximal runs of ASCII letters and digits. */
  function Runs(s: string): (ws: seq<string>)
    ensures forall i | 0 <= i < |ws| :: |ws[i]| > 0 && AllAlnum(ws[i])
    ensures |s| > 0 && IsAlnum(s[0]) ==> |ws| > 0 && ws[0][0] == s[0]
  {
    if |s| == 0 then []
    else
      var rest := Runs(s[1..]);
      if !IsAlnum(s[0]) then rest
      else if |s| > 1 && IsAlnum(s[1]) then [[s[0]] + rest[0]] + rest[1..]
      else [[s[0]]] + rest
  }

  function Concat(ws: seq<string>): string {
    if |ws| == 0 then "" else ws[0] + Concat(ws[1..])
  }

  lemma ConcatAppend(ws: seq<string>, w: string)
    ensures Concat(ws + [w]) == Concat(ws) + w
  {
    if |ws| > 0 {
      assert (ws + [w])[1..] == ws[1..] + [w];
      ConcatAppend(ws[1..], w);
    }
  }

  /** Gluing the runs back together drops exactly the non-alphanumeric characters. */
  lemma {:induction false} ConcatRuns(s: string)
    ensures Concat(Runs(s)) == StripNonAlnum(s)
    decreases |s|
  {
    if |s| > 0 {
      ConcatRuns(s[1..]);
      var rest := Runs(s[1..]);
      if IsAlnum(s[0]) && |s| > 1 && IsAlnum(s[1]) {
        assert ([[s[0]] + rest[0]] + rest[1..])[1..] == rest[1..];
        assert Concat(rest) == rest[0] + Concat(rest[1..]);
      } else if IsAlnum(s[0]) {
        assert ([[s[0]]] + rest)[1..] == rest;
      }
    }
  }

  lemma {:induction false} RunsOfAlnum(p: string)
    requires |p| > 0 && AllAlnum(p)
    ensures Runs(p) == [p]
    decreases |p|
  {
    assert IsAlnum(p[0]);
    if |p| > 1 {
      assert IsAlnum(p[1]);
      RunsOfAlnum(p[1..]);
      assert Runs(p) == [[p[0]] + p[1..]];
      assert [p[0]] + p[1..] == p;
    } else {
      assert Runs(p[1..]) == [];
      assert Runs(p) == [[p[0]]];
      assert [p[0]] == p;
    }
  }

  lemma LowerAppend(a: string, b: string)
    ensures Lower(a + b) == Lower(a) + Lower(b)
  {
    assert forall i | 0 <= i < |a + b| :: Lower(a + b)[i] == (Lower(a) + Lower(b))[i];
  }

  function Capitalize(w: string): string {
    if |w| == 0 then w else [ToUpper(w[0])] + w[1..]
  }

  function CapitalizeAll(ws: seq<string>): (cs: seq<string>)
    ensures |cs| == |ws| && forall i | 0 <= i < |ws| :: cs[i] == Capitalize(ws[i])
  {
    seq(|ws|, i requires 0 <= i < |ws| => Capitalize(ws[i]))
  }

  /** `toPascalCase`: each run of letters and digits with its first character upper-cased. */
  function ToPascalCase(s: string): string {
    Concat(CapitalizeAll(Runs(s)))
  }

  lemma {:induction false} CapitalizedConcat(ws: seq<string>)
    requires forall i | 0 <= i < |ws| :: |ws[i]| > 0 && AllAlnum(ws[i])
    ensures AllAlnum(Concat(CapitalizeAll(ws)))
    ensures Lower(Concat(CapitalizeAll(ws))) == Lower(Concat(ws))
    ensures |ws| > 0 ==> Concat(CapitalizeAll(ws))[0] == ToUpper(ws[0][0])
  {
    if |ws| > 0 {
      CapitalizedConcat(ws[1..]);
      var cs := CapitalizeAll(ws);
      assert cs[1..] == CapitalizeAll(ws[1..]);
      var c := Capitalize(ws[0]);
      assert Lower(c) == Lower(ws[0]) by {
        assert Lower(c)[0] == ToLower(ToUpper(ws[0][0])) == ToLower(ws[0][0]);
        assert forall i | 1 <= i < |c| :: c[i] == ws[0][i];
      }
      LowerAppend(c, Concat(cs[1..]));
      LowerAppend(ws[0], Concat(ws[1..]));
    }
  }

  /** The PascalCase name holds the input's letters and digits, in order, and only
      their case may differ. */
  lemma PascalCaseKeepsCharacters(s: string)
    ensures AllAlnum(ToPascalCase(s))
    ensures Lower(ToPascalCase(s)) == Lower(StripNonAlnum(s))
    ensures |ToPascalCase(s)| == |StripNonAlnum(s)|
  {
    CapitalizedConcat(Runs(s));
    ConcatRuns(s);
    assert |Lower(ToPascalCase(s))| == |ToPascalCase(s)|;
  }

  /** A PascalCase name is its own PascalCase form. */
  lemma PascalCaseIdempotent(s: string)
    ensures ToPascalCase(ToPascalCase(s)) == ToPascalCase(s)
  {
    var p := ToPascalCase(s);
    PascalCaseKeepsCharacters(s);
    CapitalizedConcat(Runs(s));
    if |p| > 0 {
      RunsOfAlnum(p);
      assert CapitalizeAll([p]) == [Capitalize(p)];
      assert Capitalize(p) == p by {
        assert [ToUpper(p[0])] + p[1..] == p;
      }
      assert Concat([p]) == p;
    } else {
      assert Runs(p) == [];
    }
  }

  /** Words after the first: upper-case first character, lower-case rest. */
  function TitleWord(w: string): string {
    if |w| == 0 then w else [ToUpper(w[0])] + Lower(w[1..])
  }

  function CamelWords(ws: seq<string>): (cs: seq<string>)
    ensures |cs| == |ws|
  {
    seq(|ws|, i requires 0 <= i < |ws| => if i == 0 then ws[0] else TitleWord(ws[i]))
  }

  /** What `toCamelCase` computes; an input without letters or digits makes it
      read `result[0]` of an empty string and throw. */
  function CamelCase(s: string): Result<string> {
    var joined := Concat(CamelWords(Runs(s)));
    if |joined| == 0 then Failure("TypeError: Cannot read properties of undefined (reading 'toLowerCase')")
    else Success([ToLower(joined[0])] + joined[1..])
  }

  /** `toCamelCase`, with its loop over the words. */
  method ToCamelCase(input: string) returns (r: Result<string>)
    ensures r == CamelCase(input)
  {
    var ws := Runs(input);
    var words := ws;
    var i := 1;
    while i < |words|
      invariant |words| == |ws|
      invariant 1 <= i && (i <= |ws| || |ws| == 0)
      invariant forall k | 0 <= k < |ws| :: words[k] == if k == 0 || k >= i then ws[k] else TitleWord(ws[k])
    {
      words := words[i := [ToUpper(words[i][0])] + Lower(words[i][1..])];
      i := i + 1;
    }
    assert words == CamelWords(ws);
    var result := Concat(words);
    if |result| == 0 {
      r := Failure("TypeError: Cannot read properties of undefined (reading 'toLowerCase')");
    } else {
      r := Success([ToLower(result[0])] + result[1..]);
    }
  }

  function TitleAll(ws: seq<string>): (ts: seq<string>)
    ensures |ts| == |ws| && forall i | 0 <= i < |ws| :: ts[i] == TitleWord(ws[i])
  {
    seq(|ws|, i requires 0 <= i < |ws| => TitleWord(ws[i]))
  }

  lemma LowerLower(s: string)
    ensures Lower(Lower(s)) == Lower(s)
  {
  }

  lemma TitleWordShape(w: string)
    requires AllAlnum(w)
    ensures AllAlnum(TitleWord(w)) && Lower(TitleWord(w)) == Lower(w)
  {
    if |w| > 0 {
      var t := TitleWord(w);
      LowerAppend([ToUpper(w[0])], Lower(w[1..]));
      LowerAppend([w[0]], w[1..]);
      LowerLower(w[1..]);
      assert w == [w[0]] + w[1..];
      assert Lower([ToUpper(w[0])]) == Lower([w[0]]);
    }
  }

  lemma {:induction false} TitleConcat(ws: seq<string>)
    requires forall i | 0 <= i < |ws| :: AllAlnum(ws[i])
    ensures AllAlnum(Concat(TitleAll(ws))) && Lower(Concat(TitleAll(ws))) == Lower(Concat(ws))
  {
    if |ws| > 0 {
      TitleConcat(ws[1..]);
      var ts := TitleAll(ws);
      assert ts[1..] == TitleAll(ws[1..]);
      TitleWordShape(ws[0]);
      LowerAppend(ts[0], Concat(ts[1..]));
      LowerAppend(ws[0], Concat(ws[1..]));
    }
  }

  /** camelCase fails exactly on inputs without letters or digits; otherwise it
      keeps the input's letters and digits in order, changes only their case,
      and starts with a character that is not an upper-case letter. */
  lemma CamelCaseShape(s: string)
    ensures CamelCase(s).Failure? <==> StripNonAlnum(s) == ""
    ensures CamelCase(s).Success? ==>
      var c := CamelCase(s).value;
      AllAlnum(c) && !IsUpper(c[0]) && Lower(c) == Lower(StripNonAlnum(s))
  {
    var joined := Concat(CamelWords(Runs(s)));
    CamelJoined(s);
    assert |joined| == |StripNonAlnum(s)| by {
      assert |Lower(joined)| == |joined| && |Lower(StripNonAlnum(s))| == |StripNonAlnum(s)|;
    }
    if |joined| > 0 {
      LowerFirst(joined);
    }
  }

  /** The joined words keep the letters and digits of the input up to case. */
  lemma CamelJoined(s: string)
    ensures var joined := Concat(CamelWords(Runs(s)));
      AllAlnum(joined) && Lower(joined) == Lower(StripNonAlnum(s))
  {
    var ws := Runs(s);
    ConcatRuns(s);
    if |ws| > 0 {
      var head, rest := ws[0], ws[1..];
      var tail := Concat(TitleAll(rest));
      CamelWordsSplit(ws);
      TitleConcat(rest);
      assert AllAlnum(head) && AllAlnum(tail);
      assert AllAlnum(head + tail);
      LowerAppend(head, tail);
      LowerAppend(head, Concat(rest));
    } else {
      assert CamelWords(ws) == [];
    }
  }

  lemma CamelWordsSplit(ws: seq<string>)
    requires |ws| > 0
    ensures Concat(CamelWords(ws)) == ws[0] + Concat(TitleAll(ws[1..]))
  {
    var cs := CamelWords(ws);
    assert cs[1..] == TitleAll(ws[1..]);
  }

  /** Lower-casing the first character changes neither the letters nor their case-folded form. */
  lemma LowerFirst(w: string)
    requires |w| > 0
    ensures var c := [ToLower(w[0])] + w[1..];
      !IsUpper(c[0]) && Lower(c) == Lower(w) && (AllAlnum(w) ==> AllAlnum(c))
  {
    var c := [ToLower(w[0])] + w[1..];
    assert forall i | 0 <= i < |c| :: Lower(c)[i] == Lower(w)[i];
  }

  /** A camelCase name is its own camelCase form. */
  lemma CamelCaseIdempotent(s: string)
    requires CamelCase(s).Success?
    ensures CamelCase(CamelCase(s).value) == CamelCase(s)
  {
    CamelCaseShape(s);
    var c := CamelCase(s).value;
    RunsOfAlnum(c);
    assert CamelWords([c]) == [c];
    assert Concat([c]) == c;
    assert [ToLower(c[0])] + c[1..] == c;
  }

  /** `commonModelNameFormatter`: `::` becomes `_` by way of a placeholder word,
      every other character outside `[a-zA-Z0-9]` is dropped. */
  function CommonModelNameFormatter(s: string): string {
    ReplaceAll(StripNonAlnum(ReplaceAll(s, "::", "DOUBLECOLON")), "DOUBLECOLON", "_")
  }

  /** The formatted name holds only letters, digits and `_`. */
  lemma FormatterCharacters(s: string)
    ensures forall i | 0 <= i < |CommonModelNameFormatter(s)| ::
      IsAlnum(CommonModelNameFormatter(s)[i]) || CommonModelNameFormatter(s)[i] == '_'
  {
    var ok := (c: char) => IsAlnum(c) || c == '_';
    var t := StripNonAlnum(ReplaceAll(s, "::", "DOUBLECOLON"));
    ReplaceAllChars(t, "DOUBLECOLON", "_", ok);
  }

  /** A name without `:` whose letters and digits do not spell the placeholder
      only loses its other characters. */
  lemma FormatterWithoutColons(s: string)
    requires ':' !in s
    requires forall j: nat :: !OccursAt(StripNonAlnum(s), "DOUBLECOLON", j)
    ensures CommonModelNameFormatter(s) == StripNonAlnum(s)
  {
    NoColonPairs(s);
    ReplaceAllAbsent(s, "::", "DOUBLECOLON");
    ReplaceAllAbsent(StripNonAlnum(s), "DOUBLECOLON", "_");
  }

  /** The placeholder is not escaped: a name that spells it also turns into `_`. */
  lemma FormatterPlaceholderCollision()
    ensures CommonModelNameFormatter("DOUBLECOLON") == "_"
  {
    var w := "DOUBLECOLON";
    NoColonPairs(w);
    ReplaceAllAbsent(w, "::", w);
    assert AllAlnum(w);
    assert StripNonAlnum(w) == w;
    WholeReplacement(w, "_");
  }

  lemma NoColonPairs(w: string)
    requires ':' !in w
    ensures forall j: nat :: !OccursAt(w, "::", j)
  {
    forall j: nat ensures !OccursAt(w, "::", j) {
      if j + 2 <= |w| {
        assert w[j..j + 2][0] == w[j] != ':';
      }
    }
  }

  lemma WholeReplacement(w: string, rep: string)
    requires |w| > 0
    ensures ReplaceAll(w, w, rep) == rep
  {
    assert OccursAt(w, w, 0);
    assert IndexOfFrom(w, w, 0) == Some(0);
    assert w[|w|..] == "";
    assert IndexOfFrom("", w, 0) == None;
    assert ReplaceAll("", w, rep) == "";
  }

  /** The regex replacement `([a-z])([A-Z])` -> `$1-$2`, scanning left to right. */
  function KebabBreaks(s: string): string
    decreases |s|
  {
    if |s| < 2 then s
    else if IsLower(s[0]) && IsUpper(s[1]) then [s[0], '-', s[1]] + KebabBreaks(s[2..])
    else [s[0]] + KebabBreaks(s[1..])
  }

  /** `camelToKebab`. */
  function CamelToKebab(s: string): string {
    Lower(KebabBreaks(s))
  }

  predicate NoUpper(s: string) { forall i | 0 <= i < |s| :: !IsUpper(s[i]) }

  function WithoutDashes(s: string): string {
    if |s| == 0 then "" else (if s[0] == '-' then "" else [s[0]]) + WithoutDashes(s[1..])
  }

  lemma WithoutDashesAppend(a: string, b: string)
    ensures WithoutDashes(a + b) == WithoutDashes(a) + WithoutDashes(b)
  {
    if |a| > 0 {
      assert (a + b)[1..] == a[1..] + b;
      WithoutDashesAppend(a[1..], b);
    } else {
      assert a + b == b;
    }
  }

  /** The break step only inserts dashes. */
  lemma {:induction false} KebabBreaksKeepsChars(s: string)
    ensures WithoutDashes(KebabBreaks(s)) == WithoutDashes(s)
    decreases |s|
  {
    if |s| >= 2 {
      if IsLower(s[0]) && IsUpper(s[1]) {
        var rest := KebabBreaks(s[2..]);
        assert WithoutDashes(rest) == WithoutDashes(s[2..]) by {
          KebabBreaksKeepsChars(s[2..]);
        }
        assert KebabBreaks(s) == [s[0], '-', s[1]] + rest;
        WithoutDashesAppend([s[0], '-', s[1]], rest);
        assert s == [s[0], s[1]] + s[2..];
        WithoutDashesAppend([s[0], s[1]], s[2..]);
      } else {
        var rest := KebabBreaks(s[1..]);
        assert WithoutDashes(rest) == WithoutDashes(s[1..]) by {
          KebabBreaksKeepsChars(s[1..]);
        }
        assert KebabBreaks(s) == [s[0]] + rest;
        WithoutDashesAppend([s[0]], rest);
        assert s == [s[0]] + s[1..];
        WithoutDashesAppend([s[0]], s[1..]);
      }
    }
  }

  /** Without upper-case letters there is nothing to break. */
  lemma {:induction false} KebabBreaksNoUpper(s: string)
    requires NoUpper(s)
    ensures KebabBreaks(s) == s
    decreases |s|
  {
    if |s| >= 2 {
      assert !IsUpper(s[1]);
      assert NoUpper(s[1..]) by {
        forall i | 0 <= i < |s[1..]| ensures !IsUpper(s[1..][i]) {
          assert s[1..][i] == s[i + 1];
        }
      }
      KebabBreaksNoUpper(s[1..]);
      assert s == [s[0]] + s[1..];
    }
  }

  lemma {:induction false} LowerWithoutDashes(s: string)
    ensures WithoutDashes(Lower(s)) == Lower(WithoutDashes(s))
    decreases |s|
  {
    if |s| > 0 {
      LowerWithoutDashes(s[1..]);
      assert Lower(s)[1..] == Lower(s[1..]);
      LowerAppend(if s[0] == '-' then "" else [s[0]], WithoutDashes(s[1..]));
    }
  }

  /** The kebab name is the lower-cased input with dashes inserted, and it is
      already in kebab form. */
  lemma CamelToKebabSpec(s: string)
    ensures NoUpper(CamelToKebab(s))
    ensures WithoutDashes(CamelToKebab(s)) == Lower(WithoutDashes(s))
    ensures CamelToKebab(CamelToKebab(s)) == CamelToKebab(s)
  {
    var k := CamelToKebab(s);
    KebabBreaksKeepsChars(s);
    LowerWithoutDashes(KebabBreaks(s));
    KebabBreaksNoUpper(k);
    assert Lower(k) == k;
  }

  /** `input.slice(-n)`: the last `n` characters for positive `n`; `slice(-0)` is
      the whole string; a negative `n` drops the first `-n` characters. */
  function GetLastNCharacters(s: string, n: int): (r: string)
    ensures n > 0 ==> |r| == (if n < |s| then n else |s|) && s == s[..|s| - |r|] + r
  {
    if n > 0 then (if n < |s| then s[|s| - n..] else s)
    else if n == 0 then s
    else (if -n < |s| then s[-n..] else "")
  }

  /** `getActionName`: the kebab-case name, a dash, the last six characters of the id. */
  function GetActionName(name: string, id: string): string {
    CamelToKebab(name) + "-" + GetLastNCharacters(id, 6)
  }

  lemma ActionNameParts(name: string, id: string)
    ensures var r := GetActionName(name, id);
      var tail := if |id| < 6 then |id| else 6;
      |r| == |KebabBreaks(name)| + 1 + tail
      && r[|r| - tail..] == id[|id| - tail..]
      && r[|r| - tail - 1] == '-'
      && NoUpper(r[..|r| - tail - 1])
  {
    var k := CamelToKebab(name);
    var t := GetLastNCharacters(id, 6);
    assert NoUpper(k) by { CamelToKebabSpec(name); }
    SeparatedParts(k, '-', t);
  }

  /** The pieces of `a`, a separator and `b`, read back from the joined sequence. */
  lemma SeparatedParts<T>(a: seq<T>, sep: T, b: seq<T>)
    ensures var r := a + [sep] + b;
      |r| == |a| + 1 + |b| && r[..|a|] == a && r[|a|] == sep && r[|r| - |b|..] == b
  {
  }

  /** Characters `:` and `/` replaced by `c`, as `replaceAll(":", c).replaceAll("/", c)`
      and `replace(/[:/]/g, c)` both do. */
  function ReplacePathChars(s: string, c: char): (r: string)
    requires c != ':' && c != '/'
    ensures |r| == |s| && ':' !in r && '/' !in r
    ensures forall i | 0 <= i < |s| :: r[i] == if s[i] == ':' || s[i] == '/' then c else s[i]
  {
    seq(|s|, i requires 0 <= i < |s| => if s[i] == ':' || s[i] == '/' then c else s[i])
  }

  /** The folder a platform model lives in: `models/<name with : and / as _>`. */
  function ModelFolderName(modelName: string): string {
    ReplacePathChars(modelName, '_')
  }

  /** The folder a platform action lives in: `actions/<getActionName(name with : and / as -, id)>`. */
  function ActionFolderName(actionName: string, id: string): string {
    GetActionName(ReplacePathChars(actionName, '-'), id)
  }

  /** Folder names are single path segments when the id is. */
  lemma FolderNamesAreSegments(modelName: string, actionName: string, id: string)
    requires '/' !in id
    ensures '/' !in ModelFolderName(modelName)
    ensures '/' !in ActionFolderName(actionName, id)
  {
    var slug := ReplacePathChars(actionName, '-');
    assert forall i | 0 <= i < |KebabBreaks(slug)| :: KebabBreaks(slug)[i] in slug || KebabBreaks(slug)[i] == '-' by {
      KebabChars(slug);
    }
    var r := ActionFolderName(actionName, id);
    var k := CamelToKebab(slug);
    forall i | 0 <= i < |r| ensures r[i] != '/' {
      if i < |k| {
        assert r[i] == ToLower(KebabBreaks(slug)[i]);
      } else if i > |k| {
        assert r[i] == GetLastNCharacters(id, 6)[i - |k| - 1];
        assert GetLastNCharacters(id, 6)[i - |k| - 1] in id;
      }
    }
  }

  lemma {:induction false} KebabChars(s: string)
    ensures forall i | 0 <= i < |KebabBreaks(s)| :: KebabBreaks(s)[i] in s || KebabBreaks(s)[i] == '-'
    decreases |s|
  {
    if |s| >= 2 {
      if IsLower(s[0]) && IsUpper(s[1]) {
        KebabChars(s[2..]);
        assert forall c | c in s[2..] :: c in s;
      } else {
        KebabChars(s[1..]);
        assert forall c | c in s[1..] :: c in s;
      }
    }
  }

  /** `isSuccessful`: the status code, written in decimal, matches `^2\d{2}$`. */
  predicate IsSuccessful(status: int) {
    var t := IntToString(status);
    |t| == 3 && t[0] == '2' && IsDigit(t[1]) && IsDigit(t[2])
  }

  lemma ThreeDigits(n: nat)
    requires 100 <= n < 1000
    ensures NatToString(n) == [DigitChar(n / 100), DigitChar(n / 10 % 10), DigitChar(n % 10)]
  {
    assert NatToString(n) == NatToString(n / 10) + [DigitChar(n % 10)];
    assert NatToString(n / 10) == NatToString(n / 100) + [DigitChar(n / 10 % 10)];
  }

  /** The 2xx class of section 15.3 of RFC 9110, and nothing else. */
  lemma IsSuccessfulIff(status: int)
    ensures IsSuccessful(status) <==> 200 <= status <= 299
  {
    if status < 0 {
      assert IntToString(status)[0] == '-';
    } else if status < 100 {
      ShortCode(status);
    } else if status < 1000 {
      ThreeDigitCode(status);
    } else {
      LongCode(status);
    }
  }

  lemma ShortCode(n: nat)
    requires n < 100
    ensures |NatToString(n)| <= 2
  {
    if n >= 10 {
      assert NatToString(n) == NatToString(n / 10) + [DigitChar(n % 10)];
    }
  }

  lemma ThreeDigitCode(n: nat)
    requires 100 <= n < 1000
    ensures IsSuccessful(n) <==> 200 <= n <= 299
  {
    ThreeDigits(n);
    assert n / 100 == 2 <==> 200 <= n <= 299;
    assert DigitChar(n / 100) == '2' <==> n / 100 == 2;
  }

  lemma LongCode(n: nat)
    requires n >= 1000
    ensures |NatToString(n)| >= 4
  {
    assert NatToString(n) == NatToString(n / 10) + [DigitChar(n % 10)];
    assert NatToString(n / 10) == NatToString(n / 100) + [DigitChar(n / 10 % 10)];
    assert NatToString(n / 100) == NatToString(n / 1000) + [DigitChar(n / 100 % 10)];
  }
}

=== FILE: projection.dfy ===
/** The JSON projection helpers of bin/helpers.ts: `extractProperties` picks dot-paths
    out of a remote document, `nestByDotNotation` turns dotted keys back into nested
    containers, and `moveKeyToRoot` lifts a nested value to the top level. Objects are
    values here: the source's in-place mutation of shared sub-objects is rebuilt along
    the path that changes. */
module Projection {
  import opened Wrappers
  import opened Text
  import opened Json

  // ---------------------------------------------------------------- extractProperties

  /** Following the segments of one dot-path from `v`, as the inner loop of
      `extractProperties` does: a missing segment or a falsy value on the way gives
      nothing; a truthy primitive on the way makes `part in value` throw. */
  function Walk(v: Value, parts: seq<string>): (r: Result<Option<Value>>)
    ensures r.Failure? ==> |parts| > 0
    decreases |parts|
  {
    if |parts| == 0 then Success(Some(v))
    else if !Truthy(v) then Success(None)
    else if !IsContainer(v) then Failure("TypeError: Cannot use 'in' operator to search for '" + parts[0] + "'")
    else match Prop(v, parts[0])
      case None => Success(None)
      case Some(x) => Walk(x, parts[1..])
  }

  /** The object `extractProperties` fills for truthy `data`, one requested key at a time. */
  function ExtractFields(data: Value, keys: seq<string>): (r: Result<Fields>)
    decreases |keys|
  {
    if |keys| == 0 then Success([])
    else
      var found :- ExtractFields(data, keys[..|keys| - 1]);
      var k := keys[|keys| - 1];
      var w :- Walk(data, Split(k, '.'));
      Success(if w.Some? then Put(found, k, w.value) else found)
  }

  /** `extractProperties(data, keys)`: falsy data gives `{}`. */
  function Extract(data: Value, keys: seq<string>): Result<Value> {
    if !Truthy(data) then Success(Obj([]))
    else
      var fs :- ExtractFields(data, keys);
      Success(Obj(fs))
  }

  /** Once a key throws, the keys after it are never looked at. */
  lemma {:induction false} ExtractFailureStays(data: Value, keys: seq<string>, n: nat)
    requires n <= |keys| && ExtractFields(data, keys[..n]).Failure?
    ensures ExtractFields(data, keys) == ExtractFields(data, keys[..n])
    decreases |keys|
  {
    if n < |keys| {
      var front := keys[..|keys| - 1];
      assert front[..n] == keys[..n];
      ExtractFailureStays(data, front, n);
    } else {
      assert keys[..n] == keys;
    }
  }

  /** The inner loop of `extractProperties`: `value && part in value` before each step. */
  method WalkPath(data: Value, parts: seq<string>) returns (r: Result<Option<Value>>)
    ensures r == Walk(data, parts)
  {
    var value: Option<Value> := Some(data);
    var j := 0;
    while j < |parts| && value.Some?
      invariant j <= |parts|
      invariant value.Some? ==> Walk(data, parts) == Walk(value.value, parts[j..])
      invariant value.None? ==> Walk(data, parts) == Success(None)
      decreases |parts| - j, if value.Some? then 1 else 0
    {
      var v := value.value;
      if !Truthy(v) {
        value := None;
      } else if !IsContainer(v) {
        return Failure("TypeError: Cannot use 'in' operator to search for '" + parts[j] + "'");
      } else {
        assert parts[j..][1..] == parts[j + 1..];
        value := Prop(v, parts[j]);
        j := j + 1;
      }
    }
    return Success(value);
  }

  /** `extractProperties`: for every key, walk a copy of `data` along the key's
      segments and record what is found, `null` included. */
  method ExtractProperties(data: Value, keys: seq<string>) returns (r: Result<Value>)
    ensures r == Extract(data, keys)
  {
    if !Truthy(data) {
      return Success(Obj([]));
    }
    var result: Fields := [];
    for i := 0 to |keys|
      invariant ExtractFields(data, keys[..i]) == Success(result)
    {
      var found := WalkPath(data, Split(keys[i], '.'));
      assert keys[..i + 1][..i] == keys[..i];
      if found.Failure? {
        ExtractFailureStays(data, keys, i + 1);
        return Failure(found.error);
      }
      if found.value.Some? {
        result := Put(result, keys[i], found.value.value);
      }
    }
    assert keys[..|keys|] == keys;
    return Success(Obj(result));
  }

  /** The position of the first occurrence of `x` in `s`. */
  function FirstIndex(s: seq<string>, x: string): (i: nat)
    requires x in s
    ensures i < |s| && s[i] == x && x !in s[..i]
  {
    if s[0] == x then 0 else assert s == [s[0]] + s[1..]; 1 + FirstIndex(s[1..], x)
  }

  lemma FirstIndexAt(s: seq<string>, x: string, i: nat)
    requires i < |s| && s[i] == x && x !in s[..i]
    ensures FirstIndex(s, x) == i
  {
  }

  /** What `extractProperties` keeps: each requested key maps to what walking its
      segments finds, the keys that find nothing are left out, no other key appears,
      and each key appears once. */
  lemma {:induction false} ExtractedLookup(data: Value, keys: seq<string>)
    requires ExtractFields(data, keys).Success?
    ensures var fs := ExtractFields(data, keys).value;
      && UniqueKeys(fs)
      && (forall k :: k in Keys(fs) ==> k in keys)
      && (forall k | k in keys :: Walk(data, Split(k, '.')).Success? && Lookup(fs, k) == Walk(data, Split(k, '.')).value)
    decreases |keys|
  {
    if |keys| > 0 {
      var n := |keys| - 1;
      var front := keys[..n];
      var k := keys[n];
      ExtractFieldsLast(data, keys);
      ExtractedLookup(data, front);
      PrefixSnoc(keys, |keys|);
      assert keys[..|keys|] == keys;
      ExtractedStep(data, front, k, ExtractFields(data, front).value, Walk(data, Split(k, '.')).value);
    }
  }

  lemma ExtractFieldsLast(data: Value, keys: seq<string>)
    requires |keys| > 0 && ExtractFields(data, keys).Success?
    ensures var front, k := keys[..|keys| - 1], keys[|keys| - 1];
      && ExtractFields(data, front).Success? && Walk(data, Split(k, '.')).Success?
      && var found, w := ExtractFields(data, front).value, Walk(data, Split(k, '.')).value;
         ExtractFields(data, keys).value == if w.Some? then Put(found, k, w.value) else found
  {
  }

  /** One more requested key: found, it is put; not found, nothing changes. */
  lemma ExtractedStep(data: Value, front: seq<string>, k: string, found: Fields, w: Option<Value>)
    requires UniqueKeys(found) && forall k' :: k' in Keys(found) ==> k' in front
    requires forall k' | k' in front :: Walk(data, Split(k', '.')).Success? && Lookup(found, k') == Walk(data, Split(k', '.')).value
    requires Walk(data, Split(k, '.')) == Success(w)
    ensures var fs := if w.Some? then Put(found, k, w.value) else found;
      && UniqueKeys(fs)
      && (forall k' :: k' in Keys(fs) ==> k' in front + [k])
      && (forall k' | k' in front + [k] :: Walk(data, Split(k', '.')).Success? && Lookup(fs, k') == Walk(data, Split(k', '.')).value)
  {
    if w.Some? {
      PutUnique(found, k, w.value);
      PutKeys(found, k, w.value);
    }
  }

  /** Requesting one more key leaves the first positions of the earlier keys alone. */
  lemma FirstIndexSnoc(front: seq<string>, k: string, x: string)
    requires x in front
    ensures x in front + [k] && FirstIndex(front + [k], x) == FirstIndex(front, x)
  {
    var f := FirstIndex(front, x);
    assert (front + [k])[..f] == front[..f];
    FirstIndexAt(front + [k], x, f);
  }

  /** A key not requested before sits after every earlier one. */
  lemma FirstIndexNew(front: seq<string>, k: string)
    requires k !in front
    ensures FirstIndex(front + [k], k) == |front|
  {
    assert (front + [k])[..|front|] == front;
    FirstIndexAt(front + [k], k, |front|);
  }

  /** Every key of `fs` was requested, and the keys come in the order of their first request. */
  predicate InRequestOrder(fs: Fields, keys: seq<string>) {
    (forall i | 0 <= i < |fs| :: fs[i].0 in keys)
    && forall i, j | 0 <= i < j < |fs| :: FirstIndex(keys, fs[i].0) < FirstIndex(keys, fs[j].0)
  }

  lemma OrderExtend(fs: Fields, front: seq<string>, k: string)
    requires InRequestOrder(fs, front)
    ensures InRequestOrder(fs, front + [k])
  {
    forall i | 0 <= i < |fs| ensures FirstIndex(front + [k], fs[i].0) == FirstIndex(front, fs[i].0) {
      FirstIndexSnoc(front, k, fs[i].0);
    }
  }

  lemma OrderPutNew(fs: Fields, front: seq<string>, k: string, v: Value)
    requires InRequestOrder(fs, front) && k !in front
    ensures InRequestOrder(fs + [(k, v)], front + [k])
  {
    OrderExtend(fs, front, k);
    FirstIndexNew(front, k);
    var keys := front + [k];
    var gs := fs + [(k, v)];
    forall i | 0 <= i < |fs| ensures FirstIndex(keys, fs[i].0) < |front| {
      FirstIndexSnoc(front, k, fs[i].0);
    }
    assert forall i | 0 <= i < |fs| :: gs[i] == fs[i];
  }

  lemma OrderPutOld(fs: Fields, keys: seq<string>, k: string, v: Value)
    requires InRequestOrder(fs, keys) && k in Keys(fs)
    ensures InRequestOrder(Put(fs, k, v), keys)
  {
    PutKeys(fs, k, v);
    var gs := Put(fs, k, v);
    forall i | 0 <= i < |gs| ensures gs[i].0 == fs[i].0 {
      assert Keys(gs)[i] == gs[i].0 && Keys(fs)[i] == fs[i].0;
    }
  }

  lemma ExtractStep(data: Value, keys: seq<string>)
    requires |keys| > 0 && ExtractFields(data, keys).Success?
    ensures var front := keys[..|keys| - 1];
      var k := keys[|keys| - 1];
      && ExtractFields(data, front).Success?
      && Walk(data, Split(k, '.')).Success?
      && var found := ExtractFields(data, front).value;
         var w := Walk(data, Split(k, '.')).value;
         ExtractFields(data, keys).value == if w.Some? then Put(found, k, w.value) else found
  {
  }

  /** The found keys keep the order in which they were first requested. */
  lemma {:induction false} ExtractedOrder(data: Value, keys: seq<string>)
    requires ExtractFields(data, keys).Success?
    ensures InRequestOrder(ExtractFields(data, keys).value, keys)
    decreases |keys|
  {
    if |keys| > 0 {
      var n := |keys| - 1;
      var front := keys[..n];
      var k := keys[n];
      assert keys == front + [k];
      ExtractStep(data, keys);
      ExtractedOrder(data, front);
      ExtractedLookup(data, front);
      var found := ExtractFields(data, front).value;
      var w := Walk(data, Split(k, '.')).value;
      OrderExtend(found, front, k);
      if w.Some? {
        if k !in Keys(found) {
          PutAbsent(found, k, w.value);
          OrderPutNew(found, front, k, w.value);
        } else {
          OrderPutOld(found, keys, k, w.value);
        }
      }
    }
  }

  /** A key without dots reads the top level of an object. */
  lemma ExtractTopLevel(fs: Fields, keys: seq<string>, k: string)
    requires Truthy(Obj(fs)) && k in keys && '.' !in k
    requires ExtractFields(Obj(fs), keys).Success?
    ensures Lookup(ExtractFields(Obj(fs), keys).value, k) == Lookup(fs, k)
  {
    ExtractedLookup(Obj(fs), keys);
    assert Split(k, '.') == [k];
    assert Walk(Obj(fs), [k]) == Success(Lookup(fs, k)) by {
      assert [k][1..] == [];
    }
  }

  /** `extractProperties` throws exactly when some key walks into a truthy primitive. */
  lemma {:induction false} ExtractSucceeds(data: Value, keys: seq<string>)
    ensures ExtractFields(data, keys).Success? <==> forall k | k in keys :: Walk(data, Split(k, '.')).Success?
    decreases |keys|
  {
    if |keys| > 0 {
      var front := keys[..|keys| - 1];
      var k := keys[|keys| - 1];
      ExtractSucceeds(data, front);
      assert keys == front + [k];
      if ExtractFields(data, front).Failure? {
        var x :| x in front && Walk(data, Split(x, '.')).Failure?;
        assert x in keys;
      } else if Walk(data, Split(k, '.')).Failure? {
        assert k in keys;
      } else {
        assert forall x | x in keys :: x in front || x == k;
      }
    }
  }

  // ---------------------------------------------------------------- nestByDotNotation

  /** `isNumber` of `nestByDotNotation`, taken here as a non-empty run of decimal
      digits (JavaScript's `Number()` also accepts signs, exponents and hex). */
  predicate IsNumber(s: string) { |s| > 0 && AllDigits(s) }

  /** Writing `x` under the segments `parts` below the container `c`: the `while`
      loop skips empty segments, reuses a truthy value it finds and otherwise creates
      an array (numeric segment) or an object; the last segment is assigned. */
  function Insert(c: Value, parts: seq<string>, x: Value): (r: Result<Value>)
    requires |parts| > 0
    decreases |parts|
  {
    if |parts| == 1 then SetProp(c, parts[0], x)
    else if parts[0] == "" then Insert(c, parts[1..], x)
    else
      var part := parts[0];
      var existing := Prop(c, part);
      if existing.Some? && Truthy(existing.value) then
        var child :- Insert(existing.value, parts[1..], x);
        SetProp(c, part, child)
      else
        var made := if IsNumber(part) then Arr([]) else Obj([]);
        var c' :- SetProp(c, part, made);
        var child :- Insert(made, parts[1..], x);
        SetProp(c', part, child)
  }

  /** The entries of `data` written one after another into the response. */
  function NestEntries(init: Value, es: Fields): Result<Value>
    decreases |es|
  {
    if |es| == 0 then Success(init)
    else
      var acc :- NestEntries(init, es[..|es| - 1]);
      Insert(acc, Split(es[|es| - 1].0, '.'), es[|es| - 1].1)
  }

  /** The response starts as an array for array input and as an object otherwise. */
  function Start(data: Value): Value {
    if data.Arr? then Arr([]) else Obj([])
  }

  function Nest(data: Value): Result<Value> {
    NestEntries(Start(data), SpreadOf(data))
  }

  lemma NestStep(init: Value, es: Fields, i: nat)
    requires i < |es| && NestEntries(init, es[..i]).Success?
    ensures NestEntries(init, es[..i + 1]) == Insert(NestEntries(init, es[..i]).value, Split(es[i].0, '.'), es[i].1)
  {
    assert es[..i + 1][..i] == es[..i];
  }

  lemma {:induction false} NestFailureStays(init: Value, es: Fields, n: nat)
    requires n <= |es| && NestEntries(init, es[..n]).Failure?
    ensures NestEntries(init, es) == NestEntries(init, es[..n])
    decreases |es|
  {
    if n < |es| {
      var front := es[..|es| - 1];
      assert front[..n] == es[..n];
      NestFailureStays(init, front, n);
    } else {
      assert es[..n] == es;
    }
  }

  /** `nestByDotNotation`. A single-segment key that is not a number is assigned
      directly; every other key goes through the segment loop, which for a single
      segment does the same assignment. */
  method NestByDotNotation(data: Value) returns (r: Result<Value>)
    ensures r == Nest(data)
  {
    var response := Start(data);
    var entries := SpreadOf(data);
    for i := 0 to |entries|
      invariant NestEntries(Start(data), entries[..i]) == Success(response)
    {
      var key := entries[i].0;
      var value := entries[i].1;
      var parts := Split(key, '.');
      NestStep(Start(data), entries, i);
      var next: Result<Value>;
      if |parts| == 1 && !IsNumber(parts[0]) {
        JoinSplit(key, '.');
        next := SetProp(response, key, value);
      } else {
        next := Insert(response, parts, value);
      }
      if next.Failure? {
        NestFailureStays(Start(data), entries, i + 1);
        return Failure(next.error);
      }
      response := next.value;
    }
    assert entries[..|entries|] == entries;
    return Success(response);
  }

  predicate DotFreeKeys(fs: Fields) {
    forall i | 0 <= i < |fs| :: '.' !in fs[i].0
  }

  /** Dot-free keys are copied unchanged: an object with no dotted key comes back equal. */
  lemma {:induction false} NestDotFreeObject(fs: Fields)
    requires UniqueKeys(fs) && DotFreeKeys(fs)
    ensures NestEntries(Obj([]), fs) == Success(Obj(fs))
    decreases |fs|
  {
    if |fs| > 0 {
      var front := fs[..|fs| - 1];
      var last := fs[|fs| - 1];
      assert UniqueKeys(front) && DotFreeKeys(front);
      NestDotFreeObject(front);
      LastKeyAbsent(fs);
      assert fs == front + [(last.0, last.1)];
      NestDotFreeStep(front, last.0, last.1);
    }
  }

  lemma NestDotFreeStep(front: Fields, k: string, x: Value)
    requires NestEntries(Obj([]), front) == Success(Obj(front))
    requires '.' !in k && k !in Keys(front)
    ensures NestEntries(Obj([]), front + [(k, x)]) == Success(Obj(front + [(k, x)]))
  {
    var es := front + [(k, x)];
    assert es[..|es| - 1] == front;
    assert NestEntries(Obj([]), es) == Insert(Obj(front), Split(k, '.'), x);
    assert Split(k, '.') == [k];
    PutAbsent(front, k, x);
  }

  lemma LastKeyAbsent(fs: Fields)
    requires UniqueKeys(fs) && |fs| > 0
    ensures fs[|fs| - 1].0 !in Keys(fs[..|fs| - 1])
  {
    var front := fs[..|fs| - 1];
    forall i | 0 <= i < |front| ensures Keys(front)[i] != fs[|fs| - 1].0 {
      assert front[i].0 == fs[i].0;
    }
  }

  /** `String(i)` has no dot, so it is a single segment. */
  lemma IndexKeySegment(i: nat)
    ensures Split(NatToString(i), '.') == [NatToString(i)]
  {
    var k := NatToString(i);
    assert '.' !in k by {
      forall j | 0 <= j < |k| ensures k[j] != '.' {
        assert IsDigit(k[j]);
      }
    }
  }

  /** An array comes back as the same array. */
  lemma {:induction false} NestArrayPrefix(items: seq<Value>, n: nat)
    requires n <= |items|
    ensures NestEntries(Arr([]), SpreadOf(Arr(items))[..n]) == Success(Arr(items[..n]))
    decreases n
  {
    if n > 0 {
      var es := SpreadOf(Arr(items));
      NestArrayPrefix(items, n - 1);
      NestStep(Arr([]), es, n - 1);
      assert es[n - 1] == (NatToString(n - 1), items[n - 1]);
      InsertNextIndex(items[..n - 1], items[n - 1]);
      PrefixSnoc(items, n);
    }
  }

  lemma PrefixSnoc<T>(xs: seq<T>, n: nat)
    requires 0 < n <= |xs|
    ensures xs[..n - 1] + [xs[n - 1]] == xs[..n]
  {
  }

  /** Writing at the next index of an array appends to it. */
  lemma InsertNextIndex(items: seq<Value>, x: Value)
    ensures Insert(Arr(items), Split(NatToString(|items|), '.'), x) == Success(Arr(items + [x]))
  {
    var k := NatToString(|items|);
    assert Split(k, '.') == [k] by { IndexKeySegment(|items|); }
    assert SetProp(Arr(items), k, x) == Success(Arr(items + Nulls(0) + [x])) by {
      IndexRoundTrip(|items|);
    }
    ConcatEmpty(items, Nulls(0), [x]);
  }

  lemma ConcatEmpty<T>(a: seq<T>, e: seq<T>, b: seq<T>)
    requires |e| == 0
    ensures a + e + b == a + b
  {
  }

  lemma NestArray(items: seq<Value>)
    ensures Nest(Arr(items)) == Success(Arr(items))
  {
    NestArrayPrefix(items, |items|);
    var es := SpreadOf(Arr(items));
    assert es[..|items|] == es;
    assert items[..|items|] == items;
  }

  /** An object whose keys have no dots is a fixed point of `nestByDotNotation`. */
  lemma NestDotFree(fs: Fields)
    requires UniqueKeys(fs) && DotFreeKeys(fs)
    ensures Nest(Obj(fs)) == Success(Obj(fs))
  {
    NestDotFreeObject(fs);
  }

  predicate DotFreeParts(parts: seq<string>) {
    forall i | 0 <= i < |parts| :: '.' !in parts[i]
  }

  /** Writing into an object keeps it an object with unique keys, and every key it
      gains is one of the segments. */
  lemma {:induction false} InsertKeepsObject(fs: Fields, parts: seq<string>, x: Value)
    requires |parts| > 0 && UniqueKeys(fs) && Insert(Obj(fs), parts, x).Success?
    ensures var r := Insert(Obj(fs), parts, x).value;
      r.Obj? && UniqueKeys(r.fields)
      && forall k | k in Keys(r.fields) :: k in Keys(fs) || k in parts
    decreases |parts|
  {
    var c := Obj(fs);
    if |parts| == 1 {
      PutUnique(fs, parts[0], x);
      PutKeys(fs, parts[0], x);
    } else if parts[0] == "" {
      InsertKeepsObject(fs, parts[1..], x);
      forall k | k in parts[1..] ensures k in parts { }
    } else {
      var part := parts[0];
      var existing := Prop(c, part);
      if existing.Some? && Truthy(existing.value) {
        var child := Insert(existing.value, parts[1..], x).value;
        PutUnique(fs, part, child);
        PutKeys(fs, part, child);
      } else {
        var made := if IsNumber(part) then Arr([]) else Obj([]);
        var fs' := Put(fs, part, made);
        PutUnique(fs, part, made);
        PutKeys(fs, part, made);
        var child := Insert(made, parts[1..], x).value;
        PutUnique(fs', part, child);
        PutKeys(fs', part, child);
      }
    }
  }

  /** Every response built from an object has unique, dot-free keys. */
  lemma {:induction false} NestEntriesShape(es: Fields)
    requires NestEntries(Obj([]), es).Success?
    ensures var r := NestEntries(Obj([]), es).value;
      r.Obj? && UniqueKeys(r.fields) && DotFreeKeys(r.fields)
    decreases |es|
  {
    if |es| > 0 {
      NestEntriesShape(es[..|es| - 1]);
      var acc := NestEntries(Obj([]), es[..|es| - 1]).value;
      var parts := Split(es[|es| - 1].0, '.');
      InsertKeepsObject(acc.fields, parts, es[|es| - 1].1);
      var r := Insert(acc, parts, es[|es| - 1].1).value;
      forall i | 0 <= i < |r.fields| ensures '.' !in r.fields[i].0 {
        assert Keys(r.fields)[i] == r.fields[i].0;
        if r.fields[i].0 in Keys(acc.fields) {
          var j :| 0 <= j < |acc.fields| && Keys(acc.fields)[j] == r.fields[i].0;
        }
      }
    }
  }

  /** `nestByDotNotation` is idempotent: nesting already nested data changes nothing. */
  lemma NestIdempotent(data: Value)
    requires Nest(data).Success?
    ensures Nest(Nest(data).value) == Nest(data)
  {
    if data.Arr? {
      NestArray(data.items);
    } else {
      NestEntriesShape(SpreadOf(data));
      NestDotFree(Nest(data).value.fields);
    }
  }

  /** Writing succeeds only into a container, and keeps its kind. */
  lemma {:induction false} InsertKind(c: Value, parts: seq<string>, x: Value)
    requires |parts| > 0 && Insert(c, parts, x).Success?
    ensures IsContainer(c)
    ensures Insert(c, parts, x).value.Arr? == c.Arr?
    ensures Insert(c, parts, x).value.Obj? == c.Obj?
    decreases |parts|
  {
    if |parts| > 1 && parts[0] == "" {
      InsertKind(c, parts[1..], x);
    }
  }

  /** A segment whose slot holds nothing truthy gets a new container: an array
      exactly when the segment is a number. */
  lemma NewContainerKind(fs: Fields, parts: seq<string>, x: Value)
    requires |parts| > 1 && parts[0] != "" && Insert(Obj(fs), parts, x).Success?
    requires Lookup(fs, parts[0]).None? || !Truthy(Lookup(fs, parts[0]).value)
    ensures var r := Insert(Obj(fs), parts, x).value;
      r.Obj? && Lookup(r.fields, parts[0]).Some?
      && IsContainer(Lookup(r.fields, parts[0]).value)
      && (Lookup(r.fields, parts[0]).value.Arr? <==> IsNumber(parts[0]))
  {
    var made := if IsNumber(parts[0]) then Arr([]) else Obj([]);
    InsertKind(made, parts[1..], x);
  }

  /** Only the slot of the first segment changes: keys with another first segment survive,
      and a truthy value already under the first segment is written into, not replaced,
      so keys sharing a prefix merge instead of clobbering each other. */
  lemma InsertKeepsSiblings(fs: Fields, parts: seq<string>, x: Value, k: string)
    requires |parts| > 0 && parts[0] != "" && k != parts[0]
    requires Insert(Obj(fs), parts, x).Success?
    ensures Lookup(Insert(Obj(fs), parts, x).value.fields, k) == Lookup(fs, k)
    ensures var child := Lookup(fs, parts[0]);
      |parts| > 1 && child.Some? && Truthy(child.value) ==>
        Insert(child.value, parts[1..], x).Success? &&
        Lookup(Insert(Obj(fs), parts, x).value.fields, parts[0]) == Some(Insert(child.value, parts[1..], x).value)
  {
    var part := parts[0];
    if |parts| == 1 {
      assert Insert(Obj(fs), parts, x) == Success(Obj(Put(fs, part, x)));
    } else {
      var existing := Prop(Obj(fs), part);
      if existing.Some? && Truthy(existing.value) {
        var child := Insert(existing.value, parts[1..], x).value;
        assert Insert(Obj(fs), parts, x) == Success(Obj(Put(fs, part, child)));
      } else {
        var made := if IsNumber(part) then Arr([]) else Obj([]);
        var child := Insert(made, parts[1..], x).value;
        assert Insert(Obj(fs), parts, x) == Success(Obj(Put(Put(fs, part, made), part, child)));
      }
    }
  }

  /** Two keys that share their first segment merge: inserting the second keeps the
      first one's other keys under the shared, already truthy, object. */
  lemma InsertKeepsNestedSiblings(fs: Fields, parts: seq<string>, x: Value, k: string)
    requires |parts| > 1 && parts[0] != "" && parts[1] != "" && k != parts[1]
    requires Insert(Obj(fs), parts, x).Success?
    requires var child := Lookup(fs, parts[0]); child.Some? && child.value.Obj?
    ensures var child := Lookup(fs, parts[0]).value;
      var after := Lookup(Insert(Obj(fs), parts, x).value.fields, parts[0]);
      after.Some? && after.value.Obj? && Lookup(after.value.fields, k) == Lookup(child.fields, k)
  {
    var child := Lookup(fs, parts[0]).value;
    var inner := Insert(child, parts[1..], x);
    assert Insert(Obj(fs), parts, x) == Success(Obj(Put(fs, parts[0], inner.value)));
    InsertKind(child, parts[1..], x);
    InsertKeepsSiblings(child.fields, parts[1..], x, k);
  }

  /** A value with no arrays anywhere inside. */
  predicate ObjectTree(v: Value) {
    match v
    case Arr(_) => false
    case Obj(fs) => forall i | 0 <= i < |fs| :: ObjectTree(fs[i].1)
    case _ => true
  }

  /** What `result[s1][s2]...` reads after the segment loop, skipping empty segments
      before the last as the loop does. */
  function NestedAt(v: Value, parts: seq<string>): Option<Value>
    requires |parts| > 0
    decreases |parts|
  {
    if |parts| == 1 then Prop(v, parts[0])
    else if parts[0] == "" then NestedAt(v, parts[1..])
    else match Prop(v, parts[0])
      case None => None
      case Some(child) => NestedAt(child, parts[1..])
  }

  lemma LookupInTree(fs: Fields, k: string)
    requires ObjectTree(Obj(fs)) && Lookup(fs, k).Some?
    ensures ObjectTree(Lookup(fs, k).value)
  {
    var i :| 0 <= i < |fs| && fs[i] == (k, Lookup(fs, k).value);
  }

  /** Key `"a.b.c"` lands at `result.a.b.c` when no segment is a number and the
      document holds no arrays. */
  lemma {:induction false} InsertPlaces(c: Value, parts: seq<string>, x: Value)
    requires |parts| > 0 && c.Obj? && ObjectTree(c)
    requires forall i | 0 <= i < |parts| :: !IsNumber(parts[i])
    requires Insert(c, parts, x).Success?
    ensures NestedAt(Insert(c, parts, x).value, parts) == Some(x)
    decreases |parts|
  {
    if |parts| > 1 {
      var rest := parts[1..];
      assert forall i | 0 <= i < |rest| :: !IsNumber(rest[i]) by {
        forall i | 0 <= i < |rest| ensures !IsNumber(rest[i]) { assert rest[i] == parts[i + 1]; }
      }
      if parts[0] == "" {
        InsertPlaces(c, rest, x);
      } else {
        var part := parts[0];
        var existing := Prop(c, part);
        if existing.Some? && Truthy(existing.value) {
          LookupInTree(c.fields, part);
          InsertKind(existing.value, rest, x);
          InsertPlaces(existing.value, rest, x);
        } else {
          InsertPlaces(Obj([]), rest, x);
        }
      }
    }
  }

  // ---------------------------------------------------------------- moveKeyToRoot

  /** `v[k1][k2]...`: the value a key path reaches. */
  function At(v: Value, path: seq<string>): Option<Value>
    decreases |path|
  {
    if |path| == 0 then Some(v)
    else match Prop(v, path[0])
      case None => None
      case Some(child) => At(child, path[1..])
  }

  /** `delete target[k]` in strict mode: an object loses the key, an array element
      becomes a hole (serialised as `null`), a non-configurable property (`length`,
      a character of a string) throws, anything else is left as it is. */
  function DeleteProp(v: Value, k: string): (r: Result<Value>)
    ensures r.Success? ==> (r.value.Obj? <==> v.Obj?) && (r.value.Arr? <==> v.Arr?)
  {
    match v
    case Obj(fs) => Success(Obj(Remove(fs, k)))
    case Arr(items) =>
      if k == "length" then Failure("TypeError: Cannot delete property 'length'")
      else (match ParseIndex(k)
        case Some(i) => if i < |items| then Success(Arr(items[i := Null])) else Success(v)
        case None => Success(v))
    case Str(s) =>
      if Prop(v, k).Some? then Failure("TypeError: Cannot delete property '" + k + "'") else Success(v)
    case _ => Success(v)
  }

  /** Walking to the parent of the path's last key, reading and deleting that key,
      and rebuilding the values on the way: the new value and what was there.
      Reading a property of `undefined` or `null` throws. */
  function Detach(v: Value, path: seq<string>): (r: Result<(Value, Option<Value>)>)
    requires |path| > 0
    ensures r.Success? ==> (r.value.0.Obj? <==> v.Obj?)
    decreases |path|
  {
    if v.Null? then Failure("TypeError: Cannot read properties of null")
    else if |path| == 1 then
      var rest :- DeleteProp(v, path[0]);
      Success((rest, Prop(v, path[0])))
    else match Prop(v, path[0])
      case None => Failure("TypeError: Cannot read properties of undefined")
      case Some(child) =>
        var (child', moved) :- Detach(child, path[1..]);
        if child' == child then Success((v, moved))
        else
          var v' :- SetProp(v, path[0], child');
          Success((v', moved))
  }

  /** Assigning a value that may be `undefined`: an undefined property is dropped
      by `JSON.stringify`, so it is modelled as absent. */
  function SetOrDrop(fs: Fields, k: string, m: Option<Value>): Fields {
    if m.Some? then Put(fs, k, m.value) else Remove(fs, k)
  }

  /** The key the moved value is stored under when it is not spread. */
  function StoreKey(keys: seq<string>, destinationKey: Option<string>): string
    requires |keys| > 0
  {
    if destinationKey.Some? && destinationKey.value != "" then destinationKey.value else keys[|keys| - 1]
  }

  /** Where the moved value goes: spread over the top level, or under one key. */
  function Relocate(fs: Fields, moved: Option<Value>, keys: seq<string>, spread: bool, destinationKey: Option<string>): Fields
    requires |keys| > 0
  {
    if spread then Assign(fs, if moved.Some? then SpreadOf(moved.value) else [])
    else SetOrDrop(fs, StoreKey(keys, destinationKey), moved)
  }

  /** `moveKeyToRoot(data, keyPath, spread, destinationKey)` on a shallow copy of
      `data`; an empty `destinationKey` counts as absent. */
  function MoveKeyToRoot(data: Value, keyPath: string, spread: bool, destinationKey: Option<string>): (r: Result<Value>)
    ensures r.Success? ==> r.value.Obj?
  {
    var keys := Split(keyPath, '.');
    match Detach(Obj(SpreadOf(data)), keys)
    case Failure(e) => Failure(e)
    case Success(d) => Success(Obj(Relocate(d.0.fields, d.1, keys, spread, destinationKey)))
  }

  /** The value taken out is the one the key path reached; afterwards the path reaches
      nothing (or an array hole); a top-level key off the path is untouched. */
  lemma {:induction false} DetachSpec(v: Value, path: seq<string>)
    requires |path| > 0 && Detach(v, path).Success?
    ensures Detach(v, path).value.1 == At(v, path)
    ensures var v' := Detach(v, path).value.0;
      At(v', path).None? || At(v', path) == Some(Null)
    ensures v.Obj? ==> forall k | k != path[0] :: Lookup(Detach(v, path).value.0.fields, k) == Lookup(v.fields, k)
    decreases |path|
  {
    var v' := Detach(v, path).value.0;
    if |path| == 1 {
      assert At(v, path) == Prop(v, path[0]) && At(v', path) == Prop(v', path[0]) by {
        assert path[1..] == [];
      }
    } else {
      var child := Prop(v, path[0]).value;
      DetachSpec(child, path[1..]);
      var child' := Detach(child, path[1..]).value.0;
      if child' != child {
        assert Prop(v', path[0]) == Some(child');
      }
    }
  }

  /** After `moveKeyToRoot` with `spread`, the moved value's own keys are at the top
      level, overriding keys of the same name; every other key keeps its value. */
  lemma MoveSpread(data: Value, keyPath: string, k: string)
    requires MoveKeyToRoot(data, keyPath, true, None).Success?
    requires var m := At(Obj(SpreadOf(data)), Split(keyPath, '.'));
      m.Some? && m.value.Obj? ==> UniqueKeys(m.value.fields)
    ensures var keys := Split(keyPath, '.');
      var (rest, moved) := Detach(Obj(SpreadOf(data)), keys).value;
      var spreadKeys := if moved.Some? then SpreadOf(moved.value) else [];
      Lookup(MoveKeyToRoot(data, keyPath, true, None).value.fields, k) ==
        if k in Keys(spreadKeys) then Lookup(spreadKeys, k) else Lookup(rest.fields, k)
  {
    var keys := Split(keyPath, '.');
    DetachSpec(Obj(SpreadOf(data)), keys);
    var (rest, moved) := Detach(Obj(SpreadOf(data)), keys).value;
    if moved.Some? {
      SpreadOfUnique(moved.value);
    }
    AssignLookup(rest.fields, if moved.Some? then SpreadOf(moved.value) else [], k);
  }

  lemma SetOrDropLookup(fs: Fields, t: string, m: Option<Value>, k: string)
    ensures Lookup(SetOrDrop(fs, t, m), k) == if k == t then m else Lookup(fs, k)
  {
  }

  /** Without `spread`, the moved value is stored under `destinationKey`, or under the
      path's last segment when there is none; every other key keeps its value. */
  lemma MoveStore(data: Value, keyPath: string, destinationKey: Option<string>, k: string)
    requires MoveKeyToRoot(data, keyPath, false, destinationKey).Success?
    ensures var keys := Split(keyPath, '.');
      var rest := Detach(Obj(SpreadOf(data)), keys).value.0;
      Lookup(MoveKeyToRoot(data, keyPath, false, destinationKey).value.fields, k) ==
        if k == StoreKey(keys, destinationKey) then At(Obj(SpreadOf(data)), keys) else Lookup(rest.fields, k)
  {
    var keys := Split(keyPath, '.');
    var top := Obj(SpreadOf(data));
    DetachSpec(top, keys);
    var d := Detach(top, keys).value;
    SetOrDropLookup(d.0.fields, StoreKey(keys, destinationKey), d.1, k);
  }
}

=== FILE: pull.dfy ===
/** Pulling remote documents into local files (bin/commands/pullPlatform.ts,
    pullCommonModel.ts, pullCommonEnum.ts): each extraction rule of the settings
    projects the document into one file, which is removed and written anew. */
module Pull {
  import opened Wrappers
  import opened Json
  import opened Projection
  import opened Files
  import Naming

  /** The platform `store*` functions default a missing value to `""`, nest dotted
      keys and create the file's directory; the common-model and common-enum ones
      do none of these. */
  datatype Dialect = PlatformDialect | CommonDialect

  /** A `moveToRoot` step: `spread` is coerced with `!!`. */
  datatype MoveStep = MoveStep(key: string, spread: Value)

  /** An entry of `settings.extractKeys`: the file, the dot-paths to extract, whether
      only the first extracted value is kept, and the `moveToRoot` steps. */
  datatype ExtractRule = ExtractRule(path: Path, keys: seq<string>, root: bool, moveToRoot: seq<MoveStep>)

  /** `Object.values(properties)[0]`. */
  function FirstValue(props: Value): Option<Value> {
    if props.Obj? && |props.fields| > 0 then Some(props.fields[0].1) else None
  }

  /** The `moveToRoot` steps in declared order. */
  function ApplyMoves(v: Value, moves: seq<MoveStep>): (r: Result<Value>)
    ensures r.Success? && |moves| > 0 ==> r.value.Obj?
    decreases |moves|
  {
    if |moves| == 0 then Success(v)
    else
      var w :- ApplyMoves(v, moves[..|moves| - 1]);
      var last := moves[|moves| - 1];
      MoveKeyToRoot(w, last.key, Truthy(last.spread), None)
  }

  /** What `createFile` is handed after a value has been projected: an object, an
      array or (for the common pulls) `null` is serialised; a string is written as
      it is; anything else (a number, a boolean, `undefined`) is rejected by
      `appendFile`, so no file results (`None`). */
  function Text(v: Option<Value>, d: Dialect): Result<Option<string>> {
    match v
    case None => Success(None)
    case Some(x) =>
      if IsContainer(x) then
        if d.PlatformDialect? then
          var n :- Nest(x);
          Success(Some(Serialize(n)))
        else Success(Some(Serialize(x)))
      else if x.Null? then Success(Some(Serialize(x)))
      else if x.Str? then Success(Some(x.s))
      else Success(None)
  }

  /** The projection of `data` by one rule: `Failure` when a step throws. */
  function Content(data: Value, rule: ExtractRule, d: Dialect, withMoves: bool): Result<Option<string>> {
    var props :- Extract(data, rule.keys);
    var selected := if rule.root then FirstValue(props) else Some(props);
    if d.PlatformDialect? then
      var v := if selected.None? || selected == Some(Null) then Str("") else selected.value;
      var moved :- if withMoves then ApplyMoves(v, rule.moveToRoot) else Success(v);
      Text(Some(moved), d)
    else Text(selected, d)
  }

  /** `path.dirname`. */
  function ParentDir(p: Path): Path {
    if |p| == 0 then [] else Parent(p)
  }

  /** The file system once the rule's file is gone and, for the platform pulls,
      its directory has been created. */
  function Prepared(t: Entries, p: Path, d: Dialect): Entries {
    var t1 := if p in t then Apply(t, RemoveTree(t, p)) else t;
    if d.PlatformDialect? && ParentDir(p) !in t1 then Apply(t1, MakeDirs(t1, ParentDir(p))) else t1
  }

  /** The file system after a rule, and whether the rule threw. */
  datatype Outcome = Outcome(entries: Entries, thrown: bool)

  /** One rule whose file is `p` and whose projection is `c`. */
  function StoreRule(t: Entries, p: Path, c: Result<Option<string>>, d: Dialect): Outcome {
    var t1 := Prepared(t, p, d);
    match c
    case Failure(_) => Outcome(t1, true)
    case Success(None) => Outcome(t1, false)
    case Success(Some(s)) => Outcome(Apply(t1, AppendFile(t1, p, s)), false)
  }

  /** The projections of every rule; they do not depend on the file system. */
  function Projections(data: Value, rules: seq<ExtractRule>, d: Dialect, withMoves: bool): (cs: seq<Result<Option<string>>>)
    ensures |cs| == |rules| && forall i | 0 <= i < |rules| :: cs[i] == Content(data, rules[i], d, withMoves)
  {
    seq(|rules|, i requires 0 <= i < |rules| => Content(data, rules[i], d, withMoves))
  }

  /** The first `n` rules in order; a rule that throws ends the loop. */
  function StoreRules(t: Entries, dir: Path, rules: seq<ExtractRule>, cs: seq<Result<Option<string>>>, d: Dialect, n: nat): Outcome
    requires n <= |rules| == |cs|
  {
    if n == 0 then Outcome(t, false)
    else
      var o := StoreRules(t, dir, rules, cs, d, n - 1);
      if o.thrown then o else StoreRule(o.entries, dir + rules[n - 1].path, cs[n - 1], d)
  }

  /** A `store*` function: the target folder is created if absent, then every rule runs. */
  function Store(t: Entries, dir: Path, data: Value, rules: seq<ExtractRule>, d: Dialect, withMoves: bool): Outcome {
    var t0 := if dir in t then t else Apply(t, MakeDirs(t, dir));
    StoreRules(t0, dir, rules, Projections(data, rules, d, withMoves), d, |rules|)
  }

  /** The projection steps of one rule, as the `store*` loop body runs them. */
  method ProjectRule(data: Value, rule: ExtractRule, d: Dialect, withMoves: bool) returns (r: Result<Option<string>>)
    ensures r == Content(data, rule, d, withMoves)
  {
    var props := ExtractProperties(data, rule.keys);
    if props.Failure? {
      return Failure(props.error);
    }
    var selected := if rule.root then FirstValue(props.value) else Some(props.value);
    if d.CommonDialect? {
      return Text(selected, d);
    }
    var v := if selected.None? || selected == Some(Null) then Str("") else selected.value;
    var moved: Result<Value> := Success(v);
    if withMoves {
      moved := MoveKeysToRoot(v, rule.moveToRoot);
      if moved.Failure? {
        return Failure(moved.error);
      }
    }
    r := Serialised(moved.value);
  }

  /** `data = moveKeyToRoot(data, item.key, !!item.spread)` for each step. */
  method MoveKeysToRoot(v: Value, moves: seq<MoveStep>) returns (r: Result<Value>)
    ensures r == ApplyMoves(v, moves)
  {
    var moved := v;
    var i := 0;
    while i < |moves|
      invariant 0 <= i <= |moves|
      invariant ApplyMoves(v, moves[..i]) == Success(moved)
    {
      assert moves[..i + 1][..i] == moves[..i];
      var step := MoveKeyToRoot(moved, moves[i].key, Truthy(moves[i].spread), None);
      if step.Failure? {
        MovesFailureStays(v, moves, i + 1);
        return Failure(step.error);
      }
      moved := step.value;
      i := i + 1;
    }
    assert moves[..|moves|] == moves;
    r := Success(moved);
  }

  /** `if (typeof data === "object") data = JSON.stringify(await nestByDotNotation(data))`. */
  method Serialised(v: Value) returns (r: Result<Option<string>>)
    ensures r == Text(Some(v), PlatformDialect)
  {
    if IsContainer(v) {
      var nested := NestByDotNotation(v);
      if nested.Failure? {
        return Failure(nested.error);
      }
      return Success(Some(Serialize(nested.value)));
    }
    r := Text(Some(v), PlatformDialect);
  }

  /** Once a step throws, the later steps never run. */
  lemma {:induction false} MovesFailureStays(v: Value, moves: seq<MoveStep>, n: nat)
    requires n <= |moves| && ApplyMoves(v, moves[..n]).Failure?
    ensures ApplyMoves(v, moves) == ApplyMoves(v, moves[..n])
    decreases |moves|
  {
    if n < |moves| {
      var front := moves[..|moves| - 1];
      assert front[..n] == moves[..n];
      MovesFailureStays(v, front, n);
    } else {
      assert moves[..n] == moves;
    }
  }

  /** A `store*` function; `thrown` reports an exception, which the platform
      functions catch and the common ones pass on. */
  method StoreData(fs: FileSystem, dir: Path, data: Value, rules: seq<ExtractRule>, d: Dialect, withMoves: bool)
    returns (thrown: bool)
    modifies fs
    ensures Outcome(fs.entries, thrown) == Store(old(fs.entries), dir, data, rules, d, withMoves)
  {
    EnsureFolder(fs, dir);
    thrown := StoreEach(fs, dir, data, rules, d, withMoves);
  }

  /** The loop over the extraction rules; the first exception ends it. */
  method StoreEach(fs: FileSystem, dir: Path, data: Value, rules: seq<ExtractRule>, d: Dialect, withMoves: bool)
    returns (thrown: bool)
    modifies fs
    ensures Outcome(fs.entries, thrown) == StoreRules(old(fs.entries), dir, rules, Projections(data, rules, d, withMoves), d, |rules|)
  {
    ghost var cs := Projections(data, rules, d, withMoves);
    ghost var t0 := fs.entries;
    thrown := false;
    var i := 0;
    while i < |rules| && !thrown
      invariant 0 <= i <= |rules|
      invariant Outcome(fs.entries, thrown) == StoreRules(t0, dir, rules, cs, d, i)
    {
      ghost var before := fs.entries;
      thrown := StoreOne(fs, dir + rules[i].path, data, rules[i], d, withMoves);
      StoreEachStep(t0, dir, data, rules, d, withMoves, i, before, Outcome(fs.entries, thrown));
      i := i + 1;
    }
    if thrown {
      StoreRulesStop(t0, dir, rules, cs, d, i, |rules|);
    }
  }

  lemma StoreEachStep(t0: Entries, dir: Path, data: Value, rules: seq<ExtractRule>, d: Dialect, withMoves: bool, i: nat, before: Entries, o: Outcome)
    requires i < |rules|
    requires Outcome(before, false) == StoreRules(t0, dir, rules, Projections(data, rules, d, withMoves), d, i)
    requires o == StoreRule(before, dir + rules[i].path, Content(data, rules[i], d, withMoves), d)
    ensures o == StoreRules(t0, dir, rules, Projections(data, rules, d, withMoves), d, i + 1)
  {
    var cs := Projections(data, rules, d, withMoves);
    var c := Content(data, rules[i], d, withMoves);
    assert cs[i] == c;
    StoreRulesNext(t0, dir, rules, cs, d, i + 1);
  }

  /** `if (!(await checkExistence(dir))) await createFolder(dir)`. */
  method EnsureFolder(fs: FileSystem, dir: Path)
    modifies fs
    ensures fs.entries == if dir in old(fs.entries) then old(fs.entries) else Apply(old(fs.entries), MakeDirs(old(fs.entries), dir))
  {
    var present := fs.CheckExistence(dir);
    if !present {
      var made := fs.CreateFolder(dir);
    }
  }

  /** The body of the loop for one rule: remove the file, create its directory
      (platform pulls), project, append. */
  method StoreOne(fs: FileSystem, p: Path, data: Value, rule: ExtractRule, d: Dialect, withMoves: bool)
    returns (thrown: bool)
    modifies fs
    ensures Outcome(fs.entries, thrown) == StoreRule(old(fs.entries), p, Content(data, rule, d, withMoves), d)
  {
    var found := fs.CheckExistence(p);
    if found {
      var removed := fs.RemoveFileOrFolder(p);
    }
    if d.PlatformDialect? {
      var parentFound := fs.CheckExistence(ParentDir(p));
      if !parentFound {
        var made := fs.CreateFolder(ParentDir(p));
      }
    }
    assert fs.entries == Prepared(old(fs.entries), p, d);
    var content := ProjectRule(data, rule, d, withMoves);
    thrown := false;
    match content
    case Failure(_) =>
      thrown := true;
    case Success(None) =>
    case Success(Some(s)) =>
      var written := fs.CreateFile(p, s);
  }

  /** One more rule after rules that did not throw. */
  lemma StoreRulesNext(t: Entries, dir: Path, rules: seq<ExtractRule>, cs: seq<Result<Option<string>>>, d: Dialect, n: nat)
    requires 0 < n <= |rules| == |cs| && !StoreRules(t, dir, rules, cs, d, n - 1).thrown
    ensures StoreRules(t, dir, rules, cs, d, n) ==
      StoreRule(StoreRules(t, dir, rules, cs, d, n - 1).entries, dir + rules[n - 1].path, cs[n - 1], d)
  {
  }

  lemma {:induction false} StoreRulesStop(t: Entries, dir: Path, rules: seq<ExtractRule>, cs: seq<Result<Option<string>>>, d: Dialect, k: nat, n: nat)
    requires k <= n <= |rules| == |cs| && StoreRules(t, dir, rules, cs, d, k).thrown
    ensures StoreRules(t, dir, rules, cs, d, n) == StoreRules(t, dir, rules, cs, d, k)
  {
    if n > k {
      var o := StoreRules(t, dir, rules, cs, d, k);
      assert StoreRules(t, dir, rules, cs, d, n - 1) == o by {
        StoreRulesStop(t, dir, rules, cs, d, k, n - 1);
      }
      StoreRulesThrown(t, dir, rules, cs, d, n);
    }
  }

  lemma StoreRulesThrown(t: Entries, dir: Path, rules: seq<ExtractRule>, cs: seq<Result<Option<string>>>, d: Dialect, n: nat)
    requires 0 < n <= |rules| == |cs| && StoreRules(t, dir, rules, cs, d, n - 1).thrown
    ensures StoreRules(t, dir, rules, cs, d, n) == StoreRules(t, dir, rules, cs, d, n - 1)
  {
  }

  lemma BlockedShrinks(t: Entries, t': Entries, p: Path)
    requires forall q | q in t' :: q in t && t'[q] == t[q]
    requires Blocked(t', p)
    ensures Blocked(t, p)
  {
    var i :| 0 <= i <= |p| && IsFile(t', p[..i]);
    assert IsFile(t, p[..i]);
  }

  /** A rule whose projection is text leaves its file holding exactly that text,
      whatever was there before (the file is removed before `createFile` appends),
      and changes nothing outside the file's path but the directories above it. */
  lemma StoreRuleExact(t: Entries, p: Path, s: string, d: Dialect)
    requires WellFormed(t) && |p| > 0
    requires if d.PlatformDialect? then !Blocked(t, ParentDir(p)) else IsDir(t, ParentDir(p))
    ensures var o := StoreRule(t, p, Success(Some(s)), d);
      && !o.thrown && WellFormed(o.entries)
      && p in o.entries && o.entries[p] == File(s)
      && forall q | q in t && !(p <= q) :: q in o.entries && o.entries[q] == t[q]
  {
    var par := ParentDir(p);
    assert !(p <= par);
    var t1 := if p in t then Apply(t, RemoveTree(t, p)) else t;
    if p in t {
      RemoveKeepsWellFormed(t, p);
    }
    assert WellFormed(t1) && p !in t1;
    var t2 := Prepared(t, p, d);
    if d.PlatformDialect? && par !in t1 {
      if Blocked(t1, par) {
        BlockedShrinks(t, t1, par);
      }
      MakeDirsSpec(t1, par);
      assert IsDir(t2, par[..|par|]);
      assert par[..|par|] == par;
    } else if d.PlatformDialect? {
      assert !IsFile(t, par[..|par|]);
      assert par[..|par|] == par;
    }
    assert WellFormed(t2) && IsDir(t2, par) && p !in t2;
    assert forall q | q in t1 :: q in t2 && t2[q] == t1[q];
    WriteKeepsWellFormed(t2, p, s);
  }

  /** A rule whose projection is not text (a number, a boolean, `undefined`) leaves
      no file behind: the old one was removed and `createFile` fails. */
  lemma StoreRuleNoText(t: Entries, p: Path, d: Dialect)
    requires WellFormed(t) && |p| > 0
    ensures var o := StoreRule(t, p, Success(None), d);
      && !o.thrown && p !in o.entries && WellFormed(o.entries)
      && forall q | q in t && !(p <= q) :: q in o.entries && o.entries[q] == t[q]
  {
    var par := ParentDir(p);
    var t1 := if p in t then Apply(t, RemoveTree(t, p)) else t;
    if p in t {
      RemoveKeepsWellFormed(t, p);
    }
    if d.PlatformDialect? && par !in t1 {
      MakeDirsSpec(t1, par);
      assert !(p <= par);
    }
  }

  /** Nothing found under a `root` rule: the platform pulls write an empty file,
      the common pulls write none. */
  lemma MissingRootValue(data: Value, path: Path, keys: seq<string>)
    requires Extract(data, keys) == Success(Obj([]))
    ensures Content(data, ExtractRule(path, keys, true, []), PlatformDialect, false) == Success(Some(""))
    ensures Content(data, ExtractRule(path, keys, true, []), CommonDialect, false) == Success(None)
  {
  }

  /** A non-root rule writes the found keys as one object; the platform pulls nest
      its dotted keys first. */
  lemma ObjectContent(data: Value, rule: ExtractRule, d: Dialect)
    requires !rule.root && Extract(data, rule.keys).Success?
    ensures var props := Extract(data, rule.keys).value;
      Content(data, rule, d, false) ==
        if d.PlatformDialect? then (match Nest(props) case Success(n) => Success(Some(Serialize(n))) case Failure(e) => Failure(e))
        else Success(Some(Serialize(props)))
  {
  }

  /** Every rule path is one file name directly in the target folder. */
  predicate FlatRules(rules: seq<ExtractRule>) {
    forall i | 0 <= i < |rules| :: |rules[i].path| == 1
  }

  /** The `i`-th rule writes text and no later rule names the same file. */
  predicate LastTextFor(rules: seq<ExtractRule>, cs: seq<Result<Option<string>>>, i: nat, n: nat)
    requires i < n <= |rules| == |cs|
  {
    && cs[i].Success? && cs[i].value.Some?
    && forall j | i < j < n :: rules[j].path != rules[i].path
  }

  lemma DirNotBlocked(t: Entries, dir: Path)
    requires WellFormed(t) && IsDir(t, dir)
    ensures !Blocked(t, dir)
  {
    forall i | 0 <= i <= |dir| ensures !IsFile(t, dir[..i]) {
      if i < |dir| {
        AncestorIsDir(t, dir, dir[..i]);
      } else {
        assert dir[..i] == dir;
      }
    }
  }

  /** One flat rule in an existing folder: the folder stays, the rule's file holds
      the projected text or is gone, and the other files of the folder are kept. */
  lemma StoreFlatRule(t: Entries, dir: Path, name: string, c: Result<Option<string>>, d: Dialect)
    requires WellFormed(t) && IsDir(t, dir) && c.Success?
    ensures var o := StoreRule(t, dir + [name], c, d);
      && !o.thrown && WellFormed(o.entries) && IsDir(o.entries, dir)
      && (c.value.Some? ==> dir + [name] in o.entries && o.entries[dir + [name]] == File(c.value.value))
      && (c.value.None? ==> dir + [name] !in o.entries)
      && forall q | q in t && q != dir + [name] && |q| == |dir| + 1 :: q in o.entries && o.entries[q] == t[q]
  {
    var p := dir + [name];
    assert ParentDir(p) == dir;
    assert !(p <= dir);
    if d.PlatformDialect? {
      DirNotBlocked(t, dir);
    }
    if c.value.Some? {
      StoreRuleExact(t, p, c.value.value, d);
    } else {
      StoreRuleNoText(t, p, d);
    }
  }

  /** After the first `n` rules of a folder, none of which throws, the file of every
      rule that is the last to name it holds exactly that rule's projection. */
  lemma {:induction false} StoreRulesFiles(t: Entries, dir: Path, rules: seq<ExtractRule>, cs: seq<Result<Option<string>>>, d: Dialect, n: nat)
    requires n <= |rules| == |cs| && FlatRules(rules)
    requires WellFormed(t) && IsDir(t, dir)
    requires forall i | 0 <= i < n :: cs[i].Success?
    ensures var o := StoreRules(t, dir, rules, cs, d, n);
      && !o.thrown && WellFormed(o.entries) && IsDir(o.entries, dir)
      && forall i | 0 <= i < n && LastTextFor(rules, cs, i, n) ::
           dir + rules[i].path in o.entries && o.entries[dir + rules[i].path] == File(cs[i].value.value)
  {
    if n > 0 {
      StoreRulesFiles(t, dir, rules, cs, d, n - 1);
      var o := StoreRules(t, dir, rules, cs, d, n - 1);
      var name := rules[n - 1].path[0];
      assert rules[n - 1].path == [name];
      StoreFlatRule(o.entries, dir, name, cs[n - 1], d);
      StoreRulesNext(t, dir, rules, cs, d, n);
      LastFilesStep(o.entries, StoreRules(t, dir, rules, cs, d, n).entries, dir, rules, cs, n);
    }
  }

  /** The files of the rules before rule `n - 1` survive it unless it names them. */
  lemma LastFilesStep(e: Entries, e': Entries, dir: Path, rules: seq<ExtractRule>, cs: seq<Result<Option<string>>>, n: nat)
    requires 0 < n <= |rules| == |cs| && FlatRules(rules)
    requires forall i | 0 <= i < n - 1 && LastTextFor(rules, cs, i, n - 1) ::
      dir + rules[i].path in e && e[dir + rules[i].path] == File(cs[i].value.value)
    requires var p := dir + rules[n - 1].path;
      && (cs[n - 1].Success? && cs[n - 1].value.Some? ==> p in e' && e'[p] == File(cs[n - 1].value.value))
      && forall q | q in e && q != p && |q| == |dir| + 1 :: q in e' && e'[q] == e[q]
    ensures forall i | 0 <= i < n && LastTextFor(rules, cs, i, n) ::
      dir + rules[i].path in e' && e'[dir + rules[i].path] == File(cs[i].value.value)
  {
    forall i | 0 <= i < n - 1 && LastTextFor(rules, cs, i, n)
      ensures dir + rules[i].path in e' && e'[dir + rules[i].path] == File(cs[i].value.value)
    {
      assert LastTextFor(rules, cs, i, n - 1);
      assert |rules[i].path| == 1 && rules[i].path != rules[n - 1].path;
      assert dir + rules[i].path != dir + rules[n - 1].path by {
        assert (dir + rules[i].path)[|dir|] == rules[i].path[0];
        assert (dir + rules[n - 1].path)[|dir|] == rules[n - 1].path[0];
      }
    }
  }
}

=== FILE: pull_runs.dfy ===
/** The outer loops of the pull commands (bin/commands/pullPlatform.ts,
    pullCommonModel.ts, pullCommonEnum.ts): what each pulled item counts as, which
    page goes with a model or an action, and the common pulls' store-and-count runs.
    Responses are inputs: a status and the body. */
module PullRuns {
  import opened Wrappers
  import opened Json
  import opened Files
  import opened Pull
  import opened PullValidation
  import Naming

  /** A platform page as `storePlatformData` matches it against models and actions. */
  datatype Page = Page(schemaId: Option<string>, definitionId: Option<string>, kind: string)

  /** `page.connectionModelSchemaId === model._id && ["schema", "schemaUngenerated"].includes(page.type)`
      and the action counterpart; an absent id on both sides compares equal. */
  predicate PageMatches(p: Page, forAction: bool, id: Option<string>) {
    if forAction then p.definitionId == id && (p.kind == "action" || p.kind == "actionUngenerated")
    else p.schemaId == id && (p.kind == "schema" || p.kind == "schemaUngenerated")
  }

  /** `platformPages.find(...)`: the index of the first matching page. */
  function FindPage(pages: seq<Page>, forAction: bool, id: Option<string>): (r: Option<nat>)
    ensures r.Some? ==> r.value < |pages| && PageMatches(pages[r.value], forAction, id)
    ensures r.Some? ==> forall j | 0 <= j < r.value :: !PageMatches(pages[j], forAction, id)
    ensures r.None? ==> forall j | 0 <= j < |pages| :: !PageMatches(pages[j], forAction, id)
  {
    if |pages| == 0 then None
    else if PageMatches(pages[0], forAction, id) then Some(0)
    else match FindPage(pages[1..], forAction, id)
      case None => None
      case Some(k) => Some(k + 1)
  }

  /** A model's page never doubles as an action's: the accepted types differ. */
  lemma PagesDoNotOverlap(pages: seq<Page>, modelId: Option<string>, actionId: Option<string>)
    ensures var m := FindPage(pages, false, modelId);
      var a := FindPage(pages, true, actionId);
      m.Some? && a.Some? ==> m.value != a.value
  {
  }

  /** `storeModelSchemaData` / `storeModelActionData`: the item's rules, then, when a
      page was matched and no rule threw, the page rules into the same folder. Both
      catch their exceptions, so a throw only ends the function early. */
  function StoreWithPage(t: Entries, dir: Path, data: Value, rules: seq<ExtractRule>, page: Option<Value>, pageRules: seq<ExtractRule>): Entries {
    var o := Store(t, dir, data, rules, PlatformDialect, false);
    if o.thrown || page.None? then o.entries
    else Store(o.entries, dir, page.value, pageRules, PlatformDialect, false).entries
  }

  method StorePlatformItem(fs: FileSystem, dir: Path, data: Value, rules: seq<ExtractRule>, page: Option<Value>, pageRules: seq<ExtractRule>)
    modifies fs
    ensures fs.entries == StoreWithPage(old(fs.entries), dir, data, rules, page, pageRules)
  {
    var thrown := StoreData(fs, dir, data, rules, PlatformDialect, false);
    if !thrown && page.Some? {
      var pageThrown := StoreData(fs, dir, page.value, pageRules, PlatformDialect, false);
    }
  }

  /** What `storePlatformData` returns: `false` on a non-2xx response or no rows, the
      validation verdict when validating, and `undefined` (`None`) otherwise. */
  function PlatformPullResult(status: int, rowCount: nat, validate: bool, valid: bool): (r: Option<bool>)
    ensures r == Some(true) <==> Naming.IsSuccessful(status) && rowCount > 0 && validate && valid
    ensures r.None? <==> Naming.IsSuccessful(status) && rowCount > 0 && !validate
  {
    if !Naming.IsSuccessful(status) || rowCount == 0 then Some(false)
    else if validate then Some(valid)
    else None
  }

  /** The platforms `success ? successCount++ : failCount++` counts as successes. */
  function Successes(results: seq<Option<bool>>): (n: nat)
    ensures n <= |results|
  {
    if |results| == 0 then 0
    else Successes(results[..|results| - 1]) + (if results[|results| - 1] == Some(true) then 1 else 0)
  }

  /** The counting loop of `pullPlatform`; `undefined` counts as a failure. */
  method CountPulls(results: seq<Option<bool>>) returns (successCount: nat, failCount: nat)
    ensures successCount == Successes(results)
    ensures successCount + failCount == |results|
  {
    successCount, failCount := 0, 0;
    var i := 0;
    while i < |results|
      invariant 0 <= i <= |results|
      invariant successCount == Successes(results[..i]) && successCount + failCount == i
    {
      assert results[..i + 1][..i] == results[..i];
      if results[i] == Some(true) {
        successCount := successCount + 1;
      } else {
        failCount := failCount + 1;
      }
      i := i + 1;
    }
    assert results[..|results|] == results;
  }

  /** A platform's response, and whether its pulled folder would validate. */
  datatype PlatformReply = PlatformReply(status: int, rowCount: nat, valid: bool)

  function Results(replies: seq<PlatformReply>, validate: bool): (rs: seq<Option<bool>>)
    ensures |rs| == |replies|
    ensures forall i | 0 <= i < |replies| ::
      rs[i] == PlatformPullResult(replies[i].status, replies[i].rowCount, validate, replies[i].valid)
  {
    seq(|replies|, i requires 0 <= i < |replies| =>
      PlatformPullResult(replies[i].status, replies[i].rowCount, validate, replies[i].valid))
  }

  /** Without `--validate` no platform pull counts as a success, however it went. */
  lemma {:induction false} NoValidationNoSuccess(replies: seq<PlatformReply>)
    ensures Successes(Results(replies, false)) == 0
  {
    if |replies| > 0 {
      var front := replies[..|replies| - 1];
      NoValidationNoSuccess(front);
      assert Results(replies, false)[..|replies| - 1] == Results(front, false);
    }
  }

  /** The replies of platforms that were found and whose folder validated. */
  function ValidCount(replies: seq<PlatformReply>): nat {
    if |replies| == 0 then 0
    else
      var r := replies[|replies| - 1];
      ValidCount(replies[..|replies| - 1]) + (if Naming.IsSuccessful(r.status) && r.rowCount > 0 && r.valid then 1 else 0)
  }

  /** With `--validate`, the successes are the pulls that found their platform and validated. */
  lemma {:induction false} ValidatedSuccesses(replies: seq<PlatformReply>)
    ensures Successes(Results(replies, true)) == ValidCount(replies)
  {
    if |replies| > 0 {
      var front := replies[..|replies| - 1];
      ValidatedSuccesses(front);
      assert Results(replies, true)[..|replies| - 1] == Results(front, true);
    }
  }

  /** What the body of a named reply is: `null`, a value without `rows`, or one
      whose `rows` is an array. */
  datatype BodyKind = NullBody | NoRows | WithRows

  /** A response to `GET .../common-models?name=` or `.../common-enums?name=`: its
      status, its body's kind, and the rows of a `WithRows` body. */
  datatype Response = Response(status: int, body: BodyKind, rows: seq<Value>)

  /** How a run reads `data.rows`: pullCommonModel.ts writes `rows?.length`, which
      passes over a missing `rows`; pullCommonEnum.ts writes `rows.length`, which
      throws on it. Both throw on a `null` body. */
  datatype RowsRead = OptionalRows | RequiredRows

  /** Whether reading `rows.length` of a 2xx reply throws. */
  predicate RowsThrow(r: Response, read: RowsRead) {
    Naming.IsSuccessful(r.status) && (r.body.NullBody? || (r.body.NoRows? && read.RequiredRows?))
  }

  /** Whether a named pull finds its item: a 2xx status with at least one row. */
  predicate Found(r: Response) {
    Naming.IsSuccessful(r.status) && r.body.WithRows? && |r.rows| > 0
  }

  /** The first row of a 2xx reply, `None` when there is none, or the `TypeError`
      of reading through a missing value. */
  function FirstRow(r: Response, read: RowsRead): (row: Result<Option<Value>>)
    requires Naming.IsSuccessful(r.status)
    ensures row.Failure? <==> RowsThrow(r, read)
    ensures row.Success? && row.value.Some? <==> Found(r)
    ensures Found(r) ==> row == Success(Some(r.rows[0]))
  {
    match r.body
    case NullBody => Failure("TypeError: Cannot read properties of null (reading 'rows')")
    case NoRows => if read.RequiredRows? then Failure("TypeError: Cannot read properties of undefined (reading 'length')") else Success(None)
    case WithRows => if |r.rows| > 0 then Success(Some(r.rows[0])) else Success(None)
  }

  /** The state of a pull run: the file system, `successCount`, and whether an
      exception left the loop (caught by the command's outer `try`). */
  datatype Tally = Tally(entries: Entries, successes: nat, aborted: bool)

  /** How a run stores one item: the tree, the item's folder and its data give the
      new tree and whether an exception was thrown. */
  type ItemStore = (Entries, Path, Value) -> Outcome

  /** `storeModelData` / `storeEnumData`, the store of both common pulls. */
  function CommonStore(rules: seq<ExtractRule>): ItemStore {
    (t: Entries, dir: Path, v: Value) => Store(t, dir, v, rules, CommonDialect, false)
  }

  /** The tally after one stored item: counted unless it threw, and a throw ends the run. */
  function Advance(a: Tally, o: Outcome): Tally {
    Tally(o.entries, if o.thrown then a.successes else a.successes + 1, o.thrown)
  }

  /** The folder of a common model or enum under `root`. */
  function CommonDir(root: Path, name: string): Path {
    root + [Naming.CommonModelNameFormatter(name)]
  }

  /** The named mode of `pullCommonModel`/`pullCommonEnum` over its first `n` names:
      a found item is stored under its formatted requested name and counted; a
      non-2xx response or an empty result is only reported; a 2xx body whose rows
      cannot be read throws, which ends the run. */
  function NamedRun(t: Entries, root: Path, names: seq<string>, responses: seq<Response>, read: RowsRead, store: ItemStore, n: nat): Tally
    requires n <= |names| == |responses|
  {
    if n == 0 then Tally(t, 0, false)
    else
      var a := NamedRun(t, root, names, responses, read, store, n - 1);
      if a.aborted then a
      else if Found(responses[n - 1]) then Advance(a, store(a.entries, CommonDir(root, names[n - 1]), responses[n - 1].rows[0]))
      else if RowsThrow(responses[n - 1], read) then Tally(a.entries, a.successes, true)
      else a
  }

  /** One name of a named run counts one more exactly when its item was found and
      its store did not throw. */
  lemma NamedRunStep(t: Entries, root: Path, names: seq<string>, responses: seq<Response>, read: RowsRead, store: ItemStore, n: nat)
    requires 0 < n <= |names| == |responses|
    ensures var a := NamedRun(t, root, names, responses, read, store, n - 1);
      var b := NamedRun(t, root, names, responses, read, store, n);
      var c := if Found(responses[n - 1]) then 1 else 0;
      && FoundCount(responses, n) == FoundCount(responses, n - 1) + c
      && b.successes <= a.successes + c
      && (!b.aborted ==> !a.aborted && b.successes == a.successes + c)
  {
  }

  /** The number of the first `n` responses that found their item. */
  function FoundCount(responses: seq<Response>, n: nat): (c: nat)
    requires n <= |responses|
    ensures c <= n
  {
    if n == 0 then 0
    else FoundCount(responses, n - 1) + (if Found(responses[n - 1]) then 1 else 0)
  }

  /** A named run counts at most the items found, and exactly those when no
      exception stopped it; validation has no say in the count. */
  lemma {:induction false} NamedRunCounts(t: Entries, root: Path, names: seq<string>, responses: seq<Response>, read: RowsRead, store: ItemStore, n: nat)
    requires n <= |names| == |responses|
    ensures var r := NamedRun(t, root, names, responses, read, store, n);
      r.successes <= FoundCount(responses, n) && (!r.aborted ==> r.successes == FoundCount(responses, n))
  {
    NamedRunCountsAtMost(t, root, names, responses, read, store, n);
    NamedRunCountsAll(t, root, names, responses, read, store, n);
  }

  lemma {:induction false} NamedRunCountsAtMost(t: Entries, root: Path, names: seq<string>, responses: seq<Response>, read: RowsRead, store: ItemStore, n: nat)
    requires n <= |names| == |responses|
    ensures NamedRun(t, root, names, responses, read, store, n).successes <= FoundCount(responses, n)
  {
    if n > 0 {
      NamedRunCountsAtMost(t, root, names, responses, read, store, n - 1);
      NamedRunStep(t, root, names, responses, read, store, n);
    }
  }

  lemma {:induction false} NamedRunCountsAll(t: Entries, root: Path, names: seq<string>, responses: seq<Response>, read: RowsRead, store: ItemStore, n: nat)
    requires n <= |names| == |responses|
    ensures !NamedRun(t, root, names, responses, read, store, n).aborted ==>
      NamedRun(t, root, names, responses, read, store, n).successes == FoundCount(responses, n)
  {
    if n > 0 {
      NamedRunCountsAll(t, root, names, responses, read, store, n - 1);
      NamedRunStep(t, root, names, responses, read, store, n);
    }
  }

  /** A 2xx reply whose rows cannot be read ends the run where it stands: no later
      name is pulled and nothing more is counted. */
  lemma NamedRunRowsThrow(t: Entries, root: Path, names: seq<string>, responses: seq<Response>, read: RowsRead, store: ItemStore, i: nat)
    requires i < |names| == |responses| && RowsThrow(responses[i], read)
    requires !NamedRun(t, root, names, responses, read, store, i).aborted
    ensures var a := NamedRun(t, root, names, responses, read, store, i);
      NamedRun(t, root, names, responses, read, store, |names|) == Tally(a.entries, a.successes, true)
  {
    NamedRunStops(t, root, names, responses, read, store, i + 1, |names|);
  }

  /** The named-mode loop; `validate` runs the read-only check after each store. */
  method PullCommonNamed(fs: FileSystem, root: Path, names: seq<string>, responses: seq<Response>, read: RowsRead,
                         rules: seq<ExtractRule>, required: seq<string>, validate: bool)
    returns (successCount: nat, aborted: bool)
    requires |names| == |responses|
    modifies fs
    ensures Tally(fs.entries, successCount, aborted) == NamedRun(old(fs.entries), root, names, responses, read, CommonStore(rules), |names|)
  {
    ghost var t0 := fs.entries;
    successCount, aborted := 0, false;
    var i := 0;
    while i < |names| && !aborted
      invariant 0 <= i <= |names|
      invariant Tally(fs.entries, successCount, aborted) == NamedRun(t0, root, names, responses, read, CommonStore(rules), i)
    {
      if Naming.IsSuccessful(responses[i].status) {
        var row := FirstRow(responses[i], read);
        if row.Failure? {
          aborted := true;
        } else if row.value.Some? {
          successCount, aborted := PullNamed(fs, root, names, responses, read, rules, required, validate, i, t0, successCount);
        }
      }
      i := i + 1;
    }
    if aborted {
      NamedRunStops(t0, root, names, responses, read, CommonStore(rules), i, |names|);
    }
  }

  /** One found name: the item is pulled and counted unless it threw. */
  method PullNamed(fs: FileSystem, root: Path, names: seq<string>, responses: seq<Response>, read: RowsRead, rules: seq<ExtractRule>,
                   required: seq<string>, validate: bool, i: nat, ghost t0: Entries, count: nat)
    returns (successCount: nat, aborted: bool)
    requires i < |names| == |responses| && Found(responses[i])
    requires NamedRun(t0, root, names, responses, read, CommonStore(rules), i) == Tally(fs.entries, count, false)
    modifies fs
    ensures Tally(fs.entries, successCount, aborted) == NamedRun(t0, root, names, responses, read, CommonStore(rules), i + 1)
  {
    ghost var a := Tally(fs.entries, count, false);
    var thrown := PullOne(fs, CommonDir(root, names[i]), responses[i].rows[0], rules, required, validate);
    NamedRunNext(t0, root, names, responses, read, rules, i, a, Outcome(fs.entries, thrown));
    successCount, aborted := count, thrown;
    if !thrown {
      successCount := successCount + 1;
    }
  }

  /** One more found name after names that did not throw. */
  lemma NamedRunNext(t: Entries, root: Path, names: seq<string>, responses: seq<Response>, read: RowsRead, rules: seq<ExtractRule>, i: nat, a: Tally, o: Outcome)
    requires i < |names| == |responses| && Found(responses[i])
    requires NamedRun(t, root, names, responses, read, CommonStore(rules), i) == a && !a.aborted
    requires o == Store(a.entries, CommonDir(root, names[i]), responses[i].rows[0], rules, CommonDialect, false)
    ensures NamedRun(t, root, names, responses, read, CommonStore(rules), i + 1) == Advance(a, o)
  {
    assert CommonStore(rules)(a.entries, CommonDir(root, names[i]), responses[i].rows[0]) == o;
  }

  /** One item: `storeModelData`/`storeEnumData`, then, with `--validate`, the
      read-only check, whose verdict is only reported. */
  method PullOne(fs: FileSystem, dir: Path, data: Value, rules: seq<ExtractRule>, required: seq<string>, validate: bool)
    returns (thrown: bool)
    modifies fs
    ensures Outcome(fs.entries, thrown) == Store(old(fs.entries), dir, data, rules, CommonDialect, false)
  {
    thrown := StoreData(fs, dir, data, rules, CommonDialect, false);
    if !thrown && validate {
      var valid := ValidateCommonPull(fs, dir, required);
    }
  }

  /** Once an item throws, the later names change nothing. */
  lemma {:induction false} NamedRunStops(t: Entries, root: Path, names: seq<string>, responses: seq<Response>, read: RowsRead, store: ItemStore, k: nat, n: nat)
    requires k <= n <= |names| == |responses| && NamedRun(t, root, names, responses, read, store, k).aborted
    ensures NamedRun(t, root, names, responses, read, store, n) == NamedRun(t, root, names, responses, read, store, k)
  {
    if n > k {
      NamedRunStops(t, root, names, responses, read, store, k, n - 1);
      NamedRunStopped(t, root, names, responses, read, store, n);
    }
  }

  /** A stopped named run stays as it is over one more name. */
  lemma NamedRunStopped(t: Entries, root: Path, names: seq<string>, responses: seq<Response>, read: RowsRead, store: ItemStore, n: nat)
    requires 0 < n <= |names| == |responses| && NamedRun(t, root, names, responses, read, store, n - 1).aborted
    ensures NamedRun(t, root, names, responses, read, store, n) == NamedRun(t, root, names, responses, read, store, n - 1)
  {
  }

  /** The `--all` mode over the first `n` fetched items: every item is stored under
      its formatted remote name and counted, so a run that no exception stopped
      counts every item. */
  function AllRun(t: Entries, root: Path, items: seq<(string, Value)>, store: ItemStore, n: nat): (r: Tally)
    requires n <= |items|
    ensures r.successes <= n && (!r.aborted ==> r.successes == n)
  {
    if n == 0 then Tally(t, 0, false)
    else
      var a := AllRun(t, root, items, store, n - 1);
      if a.aborted then a
      else Advance(a, store(a.entries, CommonDir(root, items[n - 1].0), items[n - 1].1))
  }

  /** The `--all` loop. */
  method PullCommonAll(fs: FileSystem, root: Path, items: seq<(string, Value)>,
                       rules: seq<ExtractRule>, required: seq<string>, validate: bool)
    returns (successCount: nat, aborted: bool)
    modifies fs
    ensures Tally(fs.entries, successCount, aborted) == AllRun(old(fs.entries), root, items, CommonStore(rules), |items|)
  {
    ghost var t0 := fs.entries;
    successCount, aborted := 0, false;
    var i := 0;
    while i < |items| && !aborted
      invariant 0 <= i <= |items|
      invariant Tally(fs.entries, successCount, aborted) == AllRun(t0, root, items, CommonStore(rules), i)
    {
      successCount, aborted := PullNext(fs, root, items, rules, required, validate, i, t0, successCount);
      i := i + 1;
    }
    if aborted {
      AllRunStops(t0, root, items, CommonStore(rules), i, |items|);
    }
  }

  /** One pass of the `--all` loop: the item is pulled and counted unless it threw. */
  method PullNext(fs: FileSystem, root: Path, items: seq<(string, Value)>, rules: seq<ExtractRule>,
                  required: seq<string>, validate: bool, i: nat, ghost t0: Entries, count: nat)
    returns (successCount: nat, aborted: bool)
    requires i < |items| && AllRun(t0, root, items, CommonStore(rules), i) == Tally(fs.entries, count, false)
    modifies fs
    ensures Tally(fs.entries, successCount, aborted) == AllRun(t0, root, items, CommonStore(rules), i + 1)
  {
    ghost var a := Tally(fs.entries, count, false);
    var thrown := PullOne(fs, CommonDir(root, items[i].0), items[i].1, rules, required, validate);
    AllRunNext(t0, root, items, rules, i, a, Outcome(fs.entries, thrown));
    successCount, aborted := count, thrown;
    if !thrown {
      successCount := successCount + 1;
    }
  }

  /** One more item after items that did not throw. */
  lemma AllRunNext(t: Entries, root: Path, items: seq<(string, Value)>, rules: seq<ExtractRule>, i: nat, a: Tally, o: Outcome)
    requires i < |items| && AllRun(t, root, items, CommonStore(rules), i) == a && !a.aborted
    requires o == Store(a.entries, CommonDir(root, items[i].0), items[i].1, rules, CommonDialect, false)
    ensures AllRun(t, root, items, CommonStore(rules), i + 1) == Advance(a, o)
  {
    assert CommonStore(rules)(a.entries, CommonDir(root, items[i].0), items[i].1) == o;
  }

  /** Once an item throws, the later items change nothing. */
  lemma {:induction false} AllRunStops(t: Entries, root: Path, items: seq<(string, Value)>, store: ItemStore, k: nat, n: nat)
    requires k <= n <= |items| && AllRun(t, root, items, store, k).aborted
    ensures AllRun(t, root, items, store, n) == AllRun(t, root, items, store, k)
  {
    if n > k {
      AllRunStops(t, root, items, store, k, n - 1);
    }
  }

  /** A common pull whose rules name every required file, each last written with
      text, leaves a folder that passes `validatePull`. */
  lemma StoredCommonValidates(t: Entries, dir: Path, data: Value, rules: seq<ExtractRule>, required: seq<string>)
    requires WellFormed(t) && !Blocked(t, dir) && FlatRules(rules)
    requires forall i | 0 <= i < |rules| :: Content(data, rules[i], CommonDialect, false).Success?
    requires forall f | f in required :: exists i | 0 <= i < |rules| ::
      rules[i].path == [f] && LastTextFor(rules, Projections(data, rules, CommonDialect, false), i, |rules|)
    ensures CommonValid(Store(t, dir, data, rules, CommonDialect, false).entries, dir, required)
  {
    var t0 := if dir in t then t else Apply(t, MakeDirs(t, dir));
    MakeDirsSpec(t, dir);
    assert dir[..|dir|] == dir;
    assert IsDir(t0, dir);
    var cs := Projections(data, rules, CommonDialect, false);
    StoreRulesFiles(t0, dir, rules, cs, CommonDialect, |rules|);
    var e := Store(t, dir, data, rules, CommonDialect, false).entries;
    forall j | 0 <= j < |required| ensures dir + [required[j]] in e {
      assert required[j] in required;
      var i :| 0 <= i < |rules| && rules[i].path == [required[j]] && LastTextFor(rules, cs, i, |rules|);
    }
  }
}

=== FILE: pull_validation.dfy ===
/** The `validatePull` checks that follow a pull (bin/commands/pullPlatform.ts,
    pullCommonModel.ts, pullCommonEnum.ts): each tests the existence of paths and
    folds the answers into an `invalidated` flag. */
module PullValidation {
  import opened Wrappers
  import opened Files
  import Naming

  /** The files a common model folder must hold. */
  const CommonModelFiles: seq<string> := ["config.json", "fields.json", "sample.json", "types.rs", "types.ts"]

  /** The files a common enum folder must hold. */
  const CommonEnumFiles: seq<string> := ["config.json"]

  /** A common pull is valid when its folder exists with every required file in it. */
  predicate CommonValid(t: Entries, dir: Path, required: seq<string>) {
    dir in t && forall i | 0 <= i < |required| :: dir + [required[i]] in t
  }

  /** `validatePull` of pullCommonModel.ts / pullCommonEnum.ts: the folder, then each
      required file in turn; a missing folder skips the file checks. */
  method ValidateCommonPull(fs: FileSystem, dir: Path, required: seq<string>) returns (success: bool)
    ensures success <==> CommonValid(fs.entries, dir, required)
  {
    var invalidated := false;
    var folder := fs.CheckExistence(dir);
    if folder {
      var i := 0;
      while i < |required|
        invariant 0 <= i <= |required|
        invariant invalidated <==> exists j | 0 <= j < i :: dir + [required[j]] !in fs.entries
      {
        var present := fs.CheckExistence(dir + [required[i]]);
        if !present {
          invalidated := true;
        }
        i := i + 1;
      }
    } else {
      invalidated := true;
    }
    success := !invalidated;
  }

  /** A model schema as `validatePull` of pullPlatform.ts reads it. */
  datatype PulledModel = PulledModel(modelName: string)

  /** An action definition: the model it belongs to, its name and its `_id`. */
  datatype PulledAction = PulledAction(modelName: string, name: string, id: string)

  /** `actions.filter(action => action.modelName === model.modelName)`. */
  function ActionsOf(actions: seq<PulledAction>, modelName: string): (r: seq<PulledAction>)
    ensures forall i | 0 <= i < |r| :: r[i] in actions && r[i].modelName == modelName
    ensures forall a | a in actions && a.modelName == modelName :: a in r
  {
    if |actions| == 0 then []
    else (if actions[0].modelName == modelName then [actions[0]] else []) + ActionsOf(actions[1..], modelName)
  }

  /** `models/<model>`, with `:` and `/` in the model name replaced by `_`. */
  function ModelDir(platformDir: Path, modelName: string): Path {
    platformDir + ["models", Naming.ModelFolderName(modelName)]
  }

  /** `models/<model>/actions/<getActionName(name with ":" and "/" as "-", _id)>`. */
  function ActionDir(platformDir: Path, a: PulledAction): Path {
    ModelDir(platformDir, a.modelName) + ["actions", Naming.ActionFolderName(a.name, a.id)]
  }

  /** An action passes when its folder and its `definition` folder exist. */
  predicate ActionValid(t: Entries, platformDir: Path, a: PulledAction) {
    ActionDir(platformDir, a) in t && ActionDir(platformDir, a) + ["definition"] in t
  }

  /** A model passes when its folder and `schema` folder exist and, if it has
      actions, its `actions` folder holds a valid folder for each. */
  predicate ModelValid(t: Entries, platformDir: Path, m: PulledModel, actions: seq<PulledAction>) {
    var dir := ModelDir(platformDir, m.modelName);
    var own := ActionsOf(actions, m.modelName);
    && dir in t && dir + ["schema"] in t
    && (if dir + ["actions"] in t then forall i | 0 <= i < |own| :: ActionValid(t, platformDir, own[i])
        else |own| == 0)
  }

  /** The verdict of `validatePull` in pullPlatform.ts. The file checks there test the
      truthiness of path strings, which always holds, so only folders decide. */
  predicate PlatformValid(t: Entries, platformDir: Path, models: seq<PulledModel>, actions: seq<PulledAction>) {
    && platformDir in t
    && platformDir + ["configs"] in t
    && (if platformDir + ["models"] in t then forall i | 0 <= i < |models| :: ModelValid(t, platformDir, models[i], actions)
        else |models| == 0)
  }

  /** The nested loops of `validatePull`, accumulating `invalidated`. */
  method ValidatePlatformPull(fs: FileSystem, platformDir: Path, models: seq<PulledModel>, actions: seq<PulledAction>)
    returns (success: bool)
    ensures success <==> PlatformValid(fs.entries, platformDir, models, actions)
  {
    var invalidated := false;
    var platform := fs.CheckExistence(platformDir);
    if !platform {
      return false;
    }
    var configs := fs.CheckExistence(platformDir + ["configs"]);
    if !configs {
      invalidated := true;
    }
    var modelsFolder := fs.CheckExistence(platformDir + ["models"]);
    if modelsFolder {
      var i := 0;
      while i < |models|
        invariant 0 <= i <= |models|
        invariant invalidated <==> !configs || exists j | 0 <= j < i :: !ModelValid(fs.entries, platformDir, models[j], actions)
      {
        var ok := ValidateModel(fs, platformDir, models[i], actions);
        if !ok {
          invalidated := true;
        }
        i := i + 1;
      }
    } else if |models| > 0 {
      invalidated := true;
    }
    success := !invalidated;
  }

  /** The checks for one model row of the table. */
  method ValidateModel(fs: FileSystem, platformDir: Path, m: PulledModel, actions: seq<PulledAction>)
    returns (success: bool)
    ensures success <==> ModelValid(fs.entries, platformDir, m, actions)
  {
    var dir := ModelDir(platformDir, m.modelName);
    var folder := fs.CheckExistence(dir);
    if !folder {
      return false;
    }
    var invalidated := false;
    var schema := fs.CheckExistence(dir + ["schema"]);
    if !schema {
      invalidated := true;
    }
    var own := ActionsOf(actions, m.modelName);
    var actionsFolder := fs.CheckExistence(dir + ["actions"]);
    if actionsFolder {
      var i := 0;
      while i < |own|
        invariant 0 <= i <= |own|
        invariant invalidated <==> !schema || exists j | 0 <= j < i :: !ActionValid(fs.entries, platformDir, own[j])
      {
        var actionDir := ActionDir(platformDir, own[i]);
        var present := fs.CheckExistence(actionDir);
        if present {
          var definition := fs.CheckExistence(actionDir + ["definition"]);
          if !definition {
            invalidated := true;
          }
        } else {
          invalidated := true;
        }
        i := i + 1;
      }
    } else if |own| > 0 {
      invalidated := true;
    }
    success := !invalidated;
  }

  /** A path `validatePull` asks about: the platform folder, `configs`, `models`, a
      model's folder, its `schema` and `actions`, an action's folder, its `definition`. */
  predicate Checked(platformDir: Path, q: Path) {
    || q == platformDir || q == platformDir + ["configs"] || q == platformDir + ["models"]
    || (|q| == |platformDir| + 2 && q[..|platformDir| + 1] == platformDir + ["models"])
    || (|q| == |platformDir| + 3 && q[..|platformDir| + 1] == platformDir + ["models"] && q[|platformDir| + 2] in {"schema", "actions"})
    || (|q| == |platformDir| + 4 && q[..|platformDir| + 1] == platformDir + ["models"] && q[|platformDir| + 2] == "actions")
    || (|q| == |platformDir| + 5 && q[..|platformDir| + 1] == platformDir + ["models"] && q[|platformDir| + 2] == "actions" && q[|platformDir| + 4] == "definition")
  }

  /** The verdict depends on the checked paths alone: two trees that agree on them
      get the same answer, whatever files they hold. */
  lemma OnlyCheckedPathsCount(t: Entries, t': Entries, platformDir: Path, models: seq<PulledModel>, actions: seq<PulledAction>)
    requires forall q | Checked(platformDir, q) :: q in t <==> q in t'
    ensures PlatformValid(t, platformDir, models, actions) <==> PlatformValid(t', platformDir, models, actions)
  {
    var ms := platformDir + ["models"];
    assert ms[..|platformDir| + 1] == ms;
    forall m: PulledModel | true
      ensures ModelValid(t, platformDir, m, actions) <==> ModelValid(t', platformDir, m, actions)
    {
      var dir := ModelDir(platformDir, m.modelName);
      assert dir[..|platformDir| + 1] == ms;
      assert Checked(platformDir, dir);
      assert (dir + ["schema"])[..|platformDir| + 1] == ms;
      assert Checked(platformDir, dir + ["schema"]);
      assert (dir + ["actions"])[..|platformDir| + 1] == ms;
      assert Checked(platformDir, dir + ["actions"]);
      forall a: PulledAction | a.modelName == m.modelName
        ensures ActionValid(t, platformDir, a) <==> ActionValid(t', platformDir, a)
      {
        var ad := ActionDir(platformDir, a);
        assert ad[..|platformDir| + 1] == ms;
        assert Checked(platformDir, ad);
        assert (ad + ["definition"])[..|platformDir| + 1] == ms;
        assert Checked(platformDir, ad + ["definition"]);
      }
    }
  }

  /** So a model's `config.json`, `page.json` and `sample.json` (or any other file
      directly in a model folder) can be missing without failing the validation. */
  lemma ModelFilesNotChecked(t: Entries, platformDir: Path, models: seq<PulledModel>, actions: seq<PulledAction>, modelName: string, file: string)
    requires file != "schema" && file != "actions"
    ensures var t' := map q | q in t && q != ModelDir(platformDir, modelName) + [file] :: t[q];
      PlatformValid(t, platformDir, models, actions) <==> PlatformValid(t', platformDir, models, actions)
  {
    var p := ModelDir(platformDir, modelName) + [file];
    var t' := map q | q in t && q != p :: t[q];
    forall q | Checked(platformDir, q) ensures q in t <==> q in t' {
      if |q| == |p| {
        assert q[|platformDir| + 2] != p[|platformDir| + 2];
      }
    }
    OnlyCheckedPathsCount(t, t', platformDir, models, actions);
  }
}

=== FILE: push_models.dfy ===
/** Models and actions in the push commands: the defaults `syncPlatformSchema`
    (bin/commands/pushPlatformModel.ts) and `syncPlatformAction` (pushPlatform.ts,
    pushPlatformAction.ts) fill in, the action's create-or-patch exchange and the
    folder rename that follows it, and the selection and counting loops of
    `pushPlatformModel`, `syncPlatformModels` and `pushPlatformAction`. */
module PushModels {
  import opened Wrappers
  import opened Json
  import opened Files
  import Naming
  import Projection
  import opened PushSync

  // ------------------------------------------------------------ defaults

  /** `data[k]` is truthy. */
  predicate FieldTruthy(d: Fields, k: string) {
    Lookup(d, k).Some? && Truthy(Lookup(d, k).value)
  }

  /** `data.mapping?.commonModelName` is truthy. */
  predicate MappingNamed(d: Fields) {
    var m := Lookup(d, "mapping");
    m.Some? && Prop(m.value, "commonModelName").Some? && Truthy(Prop(m.value, "commonModelName").value)
  }

  /** `if (!data[k]) data[k] = x`. */
  function Default(d: Fields, k: string, m: Option<Value>): Fields {
    if FieldTruthy(d, k) then d else Projection.SetOrDrop(d, k, m)
  }

  /** `if (!data.mapping?.commonModelName) data.mapping = null`. */
  function NullUnnamedMapping(d: Fields): Fields {
    if MappingNamed(d) then d else Projection.SetOrDrop(d, "mapping", Some(Null))
  }

  lemma DefaultLookup(d: Fields, k: string, m: Option<Value>, k': string)
    ensures Lookup(Default(d, k, m), k') == if k' == k && !FieldTruthy(d, k) then m else Lookup(d, k')
  {
    Projection.SetOrDropLookup(d, k, m, k');
  }

  lemma NullMappingLookup(d: Fields, k: string)
    ensures Lookup(NullUnnamedMapping(d), k) == if k == "mapping" && !MappingNamed(d) then Some(Null) else Lookup(d, k)
  {
    Projection.SetOrDropLookup(d, "mapping", Some(Null), k);
  }

  /** The document `syncPlatformSchema` sends. */
  function SchemaData(data: Fields, definitionId: Option<Value>, platformId: Option<Value>): Fields {
    NullUnnamedMapping(Default(Default(data, "connectionDefinitionId", definitionId), "platformId", platformId))
  }

  /** A falsy `connectionDefinitionId` or `platformId` is taken from the arguments, a
      mapping without a truthy `commonModelName` becomes `null`, and every other key
      keeps its value. */
  lemma SchemaDataSpec(data: Fields, definitionId: Option<Value>, platformId: Option<Value>, k: string)
    ensures Lookup(SchemaData(data, definitionId, platformId), k) ==
      if k == "connectionDefinitionId" then (if FieldTruthy(data, k) then Lookup(data, k) else definitionId)
      else if k == "platformId" then (if FieldTruthy(data, k) then Lookup(data, k) else platformId)
      else if k == "mapping" then (if MappingNamed(data) then Lookup(data, k) else Some(Null))
      else Lookup(data, k)
  {
    var d1 := Default(data, "connectionDefinitionId", definitionId);
    var d2 := Default(d1, "platformId", platformId);
    DefaultLookup(data, "connectionDefinitionId", definitionId, k);
    DefaultLookup(d1, "platformId", platformId, k);
    DefaultLookup(data, "connectionDefinitionId", definitionId, "platformId");
    DefaultLookup(data, "connectionDefinitionId", definitionId, "mapping");
    DefaultLookup(d1, "platformId", platformId, "mapping");
    assert Lookup(d2, "mapping") == Lookup(data, "mapping");
    NullMappingLookup(d2, k);
  }

  /** The document `syncPlatformAction` sends, before its exchange. */
  function ActionData(data: Fields, definitionId: Option<Value>, authMethod: Option<Value>, setActive: bool): Fields {
    var d := NullUnnamedMapping(Default(Default(data, "connectionDefinitionId", definitionId), "authMethod", authMethod));
    if setActive then Put(d, "active", Bool(true)) else d
  }

  /** A falsy `connectionDefinitionId` or `authMethod` is taken from the connection
      definition, a mapping without a truthy `commonModelName` becomes `null`,
      `active` is set when asked for, and every other key keeps its value. */
  lemma ActionDataSpec(data: Fields, definitionId: Option<Value>, authMethod: Option<Value>, setActive: bool, k: string)
    ensures Lookup(ActionData(data, definitionId, authMethod, setActive), k) ==
      if k == "active" && setActive then Some(Bool(true))
      else if k == "connectionDefinitionId" then (if FieldTruthy(data, k) then Lookup(data, k) else definitionId)
      else if k == "authMethod" then (if FieldTruthy(data, k) then Lookup(data, k) else authMethod)
      else if k == "mapping" then (if MappingNamed(data) then Lookup(data, k) else Some(Null))
      else Lookup(data, k)
  {
    var d1 := Default(data, "connectionDefinitionId", definitionId);
    var d2 := Default(d1, "authMethod", authMethod);
    var d3 := NullUnnamedMapping(d2);
    DefaultLookup(data, "connectionDefinitionId", definitionId, k);
    DefaultLookup(d1, "authMethod", authMethod, k);
    DefaultLookup(data, "connectionDefinitionId", definitionId, "authMethod");
    DefaultLookup(data, "connectionDefinitionId", definitionId, "mapping");
    DefaultLookup(d1, "authMethod", authMethod, "mapping");
    assert Lookup(d2, "mapping") == Lookup(data, "mapping");
    NullMappingLookup(d2, k);
    if setActive {
      PutLookup(d3, "active", Bool(true), k);
    }
  }

  lemma PutLookup(fs: Fields, k: string, v: Value, k': string)
    ensures Lookup(Put(fs, k, v), k') == if k' == k then Some(v) else Lookup(fs, k')
  {
    Projection.SetOrDropLookup(fs, k, Some(v), k');
  }

  // ------------------------------------------------------------ defaults written back

  /** `data[k] = x`, then the same key rewritten in the configuration file; the
      tree is the one left when the rewrite threw, if it did. */
  function Fill(t: Entries, file: Path, d: Fields, k: string, m: Option<Value>, parse: string -> Option<Value>): (Result<Fields>, Entries) {
    match Rewrite(t, file, k, m, parse)
    case Failure(_) => (Failure("thrown while rewriting " + k), t)
    case Success(t') => (Success(Projection.SetOrDrop(d, k, m)), t')
  }

  /** `if (!data[k]) { data[k] = x; ...rewrite the file... }`. */
  function FillIfFalsy(t: Entries, file: Path, d: Fields, k: string, m: Option<Value>, parse: string -> Option<Value>): (Result<Fields>, Entries) {
    if FieldTruthy(d, k) then (Success(d), t) else Fill(t, file, d, k, m, parse)
  }

  /** The three defaults of `syncPlatformAction`, each also written to
      `definition/config.json`. */
  function ActionDefaults(t: Entries, file: Path, data: Fields, definitionId: Option<Value>, authMethod: Option<Value>, parse: string -> Option<Value>)
    : (Result<Fields>, Entries)
  {
    var (r1, t1) := FillIfFalsy(t, file, data, "connectionDefinitionId", definitionId, parse);
    if r1.Failure? then (r1, t1)
    else
      var (r2, t2) := FillIfFalsy(t1, file, r1.value, "authMethod", authMethod, parse);
      if r2.Failure? then (r2, t2)
      else if MappingNamed(r2.value) then (r2, t2)
      else Fill(t2, file, r2.value, "mapping", Some(Null), parse)
  }

  /** `t'` differs from `t` at most at `file`, and keeps the tree well formed. */
  ghost predicate OnlyAt(t: Entries, t': Entries, file: Path) {
    && (forall q | q != file :: (q in t' <==> q in t) && (q in t ==> t'[q] == t[q]))
    && (WellFormed(t) ==> WellFormed(t'))
  }

  lemma OnlyAtTrans(t1: Entries, t2: Entries, t3: Entries, file: Path)
    requires OnlyAt(t1, t2, file) && OnlyAt(t2, t3, file)
    ensures OnlyAt(t1, t3, file)
  {
  }

  lemma FillIfFalsyData(t: Entries, file: Path, d: Fields, k: string, m: Option<Value>, parse: string -> Option<Value>)
    ensures var r := FillIfFalsy(t, file, d, k, m, parse).0;
      r.Success? ==> r.value == Default(d, k, m)
  {
  }

  /** When the writes go through, the document is the one `ActionData` describes. */
  lemma ActionDefaultsData(t: Entries, file: Path, data: Fields, definitionId: Option<Value>, authMethod: Option<Value>, parse: string -> Option<Value>)
    ensures var r := ActionDefaults(t, file, data, definitionId, authMethod, parse).0;
      r.Success? ==> r.value == ActionData(data, definitionId, authMethod, false)
  {
    var p1 := FillIfFalsy(t, file, data, "connectionDefinitionId", definitionId, parse);
    FillIfFalsyData(t, file, data, "connectionDefinitionId", definitionId, parse);
    if p1.0.Success? {
      var p2 := FillIfFalsy(p1.1, file, p1.0.value, "authMethod", authMethod, parse);
      FillIfFalsyData(p1.1, file, p1.0.value, "authMethod", authMethod, parse);
      if p2.0.Success? && !MappingNamed(p2.0.value) {
        FillMappingData(p2.1, file, p2.0.value, parse);
      }
    }
  }

  lemma FillMappingData(t: Entries, file: Path, d: Fields, parse: string -> Option<Value>)
    requires !MappingNamed(d)
    ensures var r := Fill(t, file, d, "mapping", Some(Null), parse).0;
      r.Success? ==> r.value == NullUnnamedMapping(d)
  {
  }

  /** The defaults write the configuration file and nothing else. */
  lemma ActionDefaultsFrame(t: Entries, file: Path, data: Fields, definitionId: Option<Value>, authMethod: Option<Value>, parse: string -> Option<Value>)
    ensures OnlyAt(t, ActionDefaults(t, file, data, definitionId, authMethod, parse).1, file)
  {
    var p1 := FillIfFalsy(t, file, data, "connectionDefinitionId", definitionId, parse);
    FillIfFalsyFrame(t, file, data, "connectionDefinitionId", definitionId, parse);
    if p1.0.Success? {
      var p2 := FillIfFalsy(p1.1, file, p1.0.value, "authMethod", authMethod, parse);
      FillIfFalsyFrame(p1.1, file, p1.0.value, "authMethod", authMethod, parse);
      OnlyAtTrans(t, p1.1, p2.1, file);
      if p2.0.Success? && !MappingNamed(p2.0.value) {
        var p3 := Fill(p2.1, file, p2.0.value, "mapping", Some(Null), parse);
        FillFrame(p2.1, file, p2.0.value, "mapping", Some(Null), parse);
        OnlyAtTrans(t, p2.1, p3.1, file);
      }
    }
  }

  lemma FillIfFalsyFrame(t: Entries, file: Path, d: Fields, k: string, m: Option<Value>, parse: string -> Option<Value>)
    ensures OnlyAt(t, FillIfFalsy(t, file, d, k, m, parse).1, file)
  {
    FillFrame(t, file, d, k, m, parse);
  }

  lemma FillFrame(t: Entries, file: Path, d: Fields, k: string, m: Option<Value>, parse: string -> Option<Value>)
    ensures OnlyAt(t, Fill(t, file, d, k, m, parse).1, file)
  {
    match Rewrite(t, file, k, m, parse)
    case Failure(_) =>
    case Success(t') =>
      RewriteFrame(t, file, k, m, parse);
      if WellFormed(t) {
        var config := ReadJson(t, file, parse).value;
        var updated := Assigned(config, k, m).value;
        WriteKeepsWellFormed(t, file, Serialize(updated));
      }
  }

  method FillM(fs: FileSystem, file: Path, d: Fields, k: string, m: Option<Value>, parse: string -> Option<Value>)
    returns (r: Result<Fields>)
    modifies fs
    ensures (r, fs.entries) == Fill(old(fs.entries), file, d, k, m, parse)
  {
    var doc := Projection.SetOrDrop(d, k, m);
    var ok := RewriteConfig(fs, file, k, m, parse);
    if !ok {
      return Failure("thrown while rewriting " + k);
    }
    r := Success(doc);
  }

  method ApplyActionDefaults(fs: FileSystem, file: Path, data: Fields, definitionId: Option<Value>, authMethod: Option<Value>, parse: string -> Option<Value>)
    returns (r: Result<Fields>)
    modifies fs
    ensures (r, fs.entries) == ActionDefaults(old(fs.entries), file, data, definitionId, authMethod, parse)
  {
    r := FillIfFalsyM(fs, file, data, "connectionDefinitionId", definitionId, parse);
    if r.Failure? {
      return;
    }
    r := FillIfFalsyM(fs, file, r.value, "authMethod", authMethod, parse);
    if r.Failure? || MappingNamed(r.value) {
      return;
    }
    r := FillM(fs, file, r.value, "mapping", Some(Null), parse);
  }

  method FillIfFalsyM(fs: FileSystem, file: Path, d: Fields, k: string, m: Option<Value>, parse: string -> Option<Value>)
    returns (r: Result<Fields>)
    modifies fs
    ensures (r, fs.entries) == FillIfFalsy(old(fs.entries), file, d, k, m, parse)
  {
    if FieldTruthy(d, k) {
      return Success(d);
    }
    r := FillM(fs, file, d, k, m, parse);
  }

  // ------------------------------------------------------------ the action exchange

  /** `data[k].replaceAll(...)` / `.slice(...)`: only a string has them; anything else throws. */
  function StringField(d: Fields, k: string): Result<string> {
    match Lookup(d, k)
    case Some(Str(s)) => Success(s)
    case _ => Failure("TypeError: not a string: " + k)
  }

  /** `createNewConnectionModelDefinition`: `Success(None)` on a non-2xx reply;
      after a 2xx reply the new `_id` is recorded and the folder name is recomputed
      from the returned name and id. An exception leaves the tree as it was when it
      was thrown. */
  function CreateDefinition(t: Entries, file: Path, post: Reply, parse: string -> Option<Value>): (Result<Option<string>>, Entries) {
    if !Naming.IsSuccessful(post.status) then (Success(None), t)
    else match RecordId(t, file, post, parse)
      case Failure(_) => (Failure("thrown while recording the new id"), t)
      case Success((id, t')) =>
        var n := NewFolderName(post.body, id);
        (if n.Success? then Success(Some(n.value)) else Failure(n.error), t')
  }

  /** `getActionName(data.name.replaceAll(...), data._id)` on the created record:
      throws unless both are strings. */
  function NewFolderName(body: Value, id: Option<Value>): Result<string> {
    match (Prop(body, "name"), id)
    case (Some(Str(name)), Some(Str(i))) => Success(Naming.ActionFolderName(name, i))
    case (Some(Str(_)), _) => Failure("TypeError: id.slice is not a function")
    case _ => Failure("TypeError: name.replaceAll is not a function")
  }

  method CreateDefinitionM(fs: FileSystem, file: Path, post: Reply, parse: string -> Option<Value>) returns (r: Result<Option<string>>)
    modifies fs
    ensures (r, fs.entries) == CreateDefinition(old(fs.entries), file, post, parse)
  {
    if !Naming.IsSuccessful(post.status) {
      return Success(None);
    }
    var id := RecordCreatedId(fs, file, post, parse);
    if id.Failure? {
      return Failure("thrown while recording the new id");
    }
    var n := NewFolderName(post.body, id.value);
    if n.Failure? {
      return Failure(n.error);
    }
    r := Success(Some(n.value));
  }

  /** The last step: `renameFileOrFolder(dir, dirname(dir)/name)` when the name
      differs from the folder's, its error ignored; `success` is the final answer. */
  function MoveTo(t: Entries, dir: Path, name: string, success: bool): (bool, Entries)
    requires |dir| > 0
  {
    (success, if name != dir[|dir| - 1] then Apply(t, Rename(t, dir, Parent(dir) + [name])) else t)
  }

  /** The exchange after the defaults: a PATCH, a 404 falling back to a create, or a
      create; a failed PATCH or a failed fallback create returns at once, while a
      failed first create still reaches the rename. */
  function ActionExchange(t: Entries, dir: Path, file: Path, doc: Fields, name: string, patch: Reply, post: Reply, parse: string -> Option<Value>)
    : (bool, Entries)
    requires |dir| > 0
  {
    if HasId(doc) then
      if patch.status == 404 then
        var (c, t') := CreateDefinition(t, file, post, parse);
        if c.Failure? || c.value.None? then (false, t')
        else MoveTo(t', dir, c.value.value, true)
      else if !Naming.IsSuccessful(patch.status) then (false, t)
      else MoveTo(t, dir, name, true)
    else
      var (c, t') := CreateDefinition(t, file, post, parse);
      if c.Failure? then (false, t')
      else MoveTo(t', dir, if c.value.Some? then c.value.value else name, c.value.Some?)
  }

  /** `syncPlatformAction` for the action folder `dir` (page handling aside), on the
      document `getPushStructureData` assembled or on the exception it threw, which
      the `catch` turns into a failure. The folder name is computed from `name` and
      `_id` first, which throws unless both are strings; then the defaults, the
      exchange and the rename. */
  function ActionSync(t: Entries, dir: Path, assembled: Result<Fields>, definitionId: Option<Value>, authMethod: Option<Value>,
                      setActive: bool, patch: Reply, post: Reply, parse: string -> Option<Value>): (r: (bool, Entries))
    requires |dir| > 0
    ensures assembled.Failure? ==> r == (false, t)
    ensures assembled.Success? && (StringField(assembled.value, "name").Failure? || StringField(assembled.value, "_id").Failure?) ==> r == (false, t)
  {
    if assembled.Failure? then (false, t)
    else
      var data := assembled.value;
      match (StringField(data, "name"), StringField(data, "_id"))
      case (Success(name), Success(id)) =>
        var file := dir + ["definition", "config.json"];
        var (d, t1) := ActionDefaults(t, file, data, definitionId, authMethod, parse);
        if d.Failure? then (false, t1)
        else
          var doc := if setActive then Put(d.value, "active", Bool(true)) else d.value;
          ActionExchange(t1, dir, file, doc, Naming.ActionFolderName(name, id), patch, post, parse)
      case _ => (false, t)
  }

  method SyncPlatformAction(fs: FileSystem, dir: Path, assembled: Result<Fields>, definitionId: Option<Value>, authMethod: Option<Value>,
                            setActive: bool, patch: Reply, post: Reply, parse: string -> Option<Value>)
    returns (success: bool)
    requires |dir| > 0
    modifies fs
    ensures (success, fs.entries) == ActionSync(old(fs.entries), dir, assembled, definitionId, authMethod, setActive, patch, post, parse)
  {
    if assembled.Failure? {
      return false;
    }
    var data := assembled.value;
    var name := StringField(data, "name");
    var id := StringField(data, "_id");
    if name.Failure? || id.Failure? {
      return false;
    }
    var definitionName := Naming.ActionFolderName(name.value, id.value);
    var file := dir + ["definition", "config.json"];
    var r := ApplyActionDefaults(fs, file, data, definitionId, authMethod, parse);
    if r.Failure? {
      return false;
    }
    var doc := r.value;
    if setActive {
      doc := Put(doc, "active", Bool(true));
    }
    success := Exchange(fs, dir, file, doc, definitionName, patch, post, parse);
  }

  method Exchange(fs: FileSystem, dir: Path, file: Path, doc: Fields, name: string, patch: Reply, post: Reply, parse: string -> Option<Value>)
    returns (success: bool)
    requires |dir| > 0
    modifies fs
    ensures (success, fs.entries) == ActionExchange(old(fs.entries), dir, file, doc, name, patch, post, parse)
  {
    var definitionName := name;
    if HasId(doc) {
      if patch.status == 404 {
        var c := CreateDefinitionM(fs, file, post, parse);
        if c.Failure? || c.value.None? {
          return false;
        }
        definitionName := c.value.value;
      } else if !Naming.IsSuccessful(patch.status) {
        return false;
      }
      success := true;
    } else {
      var c := CreateDefinitionM(fs, file, post, parse);
      if c.Failure? {
        return false;
      }
      if c.value.Some? {
        definitionName := c.value.value;
      }
      success := c.value.Some?;
    }
    if definitionName != dir[|dir| - 1] {
      var _ := fs.RenameFileOrFolder(dir, Parent(dir) + [definitionName]);
    }
  }

  /** Renaming a folder onto a free sibling name moves it there. */
  lemma RenameToSibling(t: Entries, dir: Path, name: string)
    requires WellFormed(t) && |dir| > 0 && dir in t && name != dir[|dir| - 1] && Parent(dir) + [name] !in t
    ensures Rename(t, dir, Parent(dir) + [name]).Success?
    ensures var t' := Rename(t, dir, Parent(dir) + [name]).value;
      dir !in t' && Parent(dir) + [name] in t'
  {
    var to := Parent(dir) + [name];
    assert to != dir by {
      assert to[|dir| - 1] != dir[|dir| - 1];
    }
    assert !(dir <= to) by {
      assert |to| == |dir|;
    }
    RenameSpec(t, dir, to);
  }

  /** After a successful PATCH, or a refused first create, the folder is moved to
      the name computed before the exchange. */
  lemma ExchangeRenames(t: Entries, dir: Path, file: Path, doc: Fields, n: string, patch: Reply, post: Reply, parse: string -> Option<Value>)
    requires WellFormed(t) && |dir| > 0 && dir in t
    requires (HasId(doc) && Naming.IsSuccessful(patch.status)) || (!HasId(doc) && !Naming.IsSuccessful(post.status))
    ensures var (ok, t') := ActionExchange(t, dir, file, doc, n, patch, post, parse);
      && ok == HasId(doc)
      && (n == dir[|dir| - 1] ==> dir in t')
      && (n != dir[|dir| - 1] && Parent(dir) + [n] !in t ==> dir !in t' && Parent(dir) + [n] in t')
  {
    if n != dir[|dir| - 1] && Parent(dir) + [n] !in t {
      RenameToSibling(t, dir, n);
    }
  }

  /** The folder ends up named `getActionName(name, _id)` when the PATCH succeeds;
      it is renamed the same way when a first create is refused, although the push
      of the action then fails. */
  lemma ActionFolderRenamed(t: Entries, dir: Path, data: Fields, definitionId: Option<Value>, authMethod: Option<Value>,
                            setActive: bool, patch: Reply, post: Reply, parse: string -> Option<Value>)
    requires WellFormed(t) && |dir| > 0 && dir in t
    requires StringField(data, "name").Success? && StringField(data, "_id").Success?
    requires ActionDefaults(t, dir + ["definition", "config.json"], data, definitionId, authMethod, parse).0.Success?
    requires (HasId(data) && Naming.IsSuccessful(patch.status)) || (!HasId(data) && !Naming.IsSuccessful(post.status))
    ensures var n := Naming.ActionFolderName(StringField(data, "name").value, StringField(data, "_id").value);
      var (ok, t') := ActionSync(t, dir, Success(data), definitionId, authMethod, setActive, patch, post, parse);
      && ok == HasId(data)
      && (n == dir[|dir| - 1] ==> dir in t')
      && (n != dir[|dir| - 1] && Parent(dir) + [n] !in t ==> dir !in t' && Parent(dir) + [n] in t')
  {
    var n := Naming.ActionFolderName(StringField(data, "name").value, StringField(data, "_id").value);
    var file := dir + ["definition", "config.json"];
    var (r, t1) := ActionDefaults(t, file, data, definitionId, authMethod, parse);
    ActionDefaultsData(t, file, data, definitionId, authMethod, parse);
    ActionDefaultsFrame(t, file, data, definitionId, authMethod, parse);
    assert dir != file by {
      assert |dir| != |file|;
    }
    assert dir in t1;
    assert Parent(dir) + [n] in t1 ==> Parent(dir) + [n] in t by {
      assert |Parent(dir) + [n]| != |file|;
    }
    var doc := if setActive then Put(r.value, "active", Bool(true)) else r.value;
    ActionDataSpec(data, definitionId, authMethod, setActive, "_id");
    assert Lookup(doc, "_id") == Lookup(data, "_id");
    ExchangeRenames(t1, dir, file, doc, n, patch, post, parse);
  }

  // ------------------------------------------------------------ selection and counting

  /** `r` is `s` with some elements dropped and the rest kept in order. */
  predicate Subsequence<T(==)>(r: seq<T>, s: seq<T>)
    decreases |s|
  {
    |r| == 0 || (|s| > 0 && ((r[0] == s[0] && Subsequence(r[1..], s[1..])) || Subsequence(r, s[1..])))
  }

  /** `platformModels.filter(model => models.includes(model.name))`: the folders,
      in listing order, whose names were asked for. */
  function Select(folders: seq<string>, requested: seq<string>): (r: seq<string>)
    ensures forall x :: x in r <==> x in folders && x in requested
    ensures Subsequence(r, folders)
    ensures |r| <= |folders|
  {
    if |folders| == 0 then []
    else
      var rest := Select(folders[1..], requested);
      if folders[0] in requested then
        assert ([folders[0]] + rest)[1..] == rest;
        [folders[0]] + rest
      else rest
  }

  /** How many requested names have no folder (each occurrence counts). */
  function Missing(folders: seq<string>, requested: seq<string>): (c: nat)
    ensures c <= |requested|
  {
    if |requested| == 0 then 0
    else Missing(folders, requested[..|requested| - 1]) + (if requested[|requested| - 1] in folders then 0 else 1)
  }

  /** The `missingModels` loop of `pushPlatformAction`. */
  method CountMissing(folders: seq<string>, requested: seq<string>) returns (missing: nat)
    ensures missing == Missing(folders, requested)
  {
    missing := 0;
    var i := 0;
    while i < |requested|
      invariant 0 <= i <= |requested|
      invariant missing == Missing(folders, requested[..i])
    {
      assert requested[..i + 1][..i] == requested[..i];
      if requested[i] !in folders {
        missing := missing + 1;
      }
      i := i + 1;
    }
    assert requested[..|requested|] == requested;
  }

  /** Nothing is reported missing exactly when every requested name has a folder,
      and then every requested name is among the folders that are synced. */
  lemma {:induction false} MissingSpec(folders: seq<string>, requested: seq<string>)
    ensures Missing(folders, requested) == 0 <==> forall x | x in requested :: x in folders
    ensures Missing(folders, requested) == 0 ==> forall x | x in requested :: x in Select(folders, requested)
    decreases |requested|
  {
    if |requested| > 0 {
      var front := requested[..|requested| - 1];
      MissingSpec(folders, front);
      assert requested == front + [requested[|requested| - 1]];
    }
  }

  /** What one model folder gave in `syncPlatformModels`: whether its schema was
      pushed, whether it has an `actions` folder, and the result of each action. */
  datatype ModelPush = ModelPush(schemaPushed: bool, actionsFolder: bool, actions: seq<bool>)

  /** Whether the actions of a model are pushed at all. */
  predicate ActionsAttempted(m: ModelPush, pushActions: bool) {
    pushActions && m.schemaPushed && m.actionsFolder
  }

  function Count(bs: seq<bool>): (c: nat)
    ensures c <= |bs|
  {
    if |bs| == 0 then 0 else Count(bs[..|bs| - 1]) + (if bs[|bs| - 1] then 1 else 0)
  }

  /** `(modelsSuccessCount, actionsSuccessCount, totalActionsCount)` after the first
      `n` models. */
  function Tally(models: seq<ModelPush>, pushActions: bool, n: nat): (nat, nat, nat)
    requires n <= |models|
  {
    if n == 0 then (0, 0, 0)
    else
      var (s, a, total) := Tally(models, pushActions, n - 1);
      var m := models[n - 1];
      if !m.schemaPushed then (s, a, total)
      else if ActionsAttempted(m, pushActions) then (s + 1, a + Count(m.actions), total + |m.actions|)
      else (s + 1, a, total)
  }

  /** The counting loop of `syncPlatformModels`, with each model's results given. */
  method SyncPlatformModels(models: seq<ModelPush>, pushActions: bool) returns (modelsSuccess: nat, actionsSuccess: nat, totalActions: nat)
    ensures (modelsSuccess, actionsSuccess, totalActions) == Tally(models, pushActions, |models|)
  {
    modelsSuccess, actionsSuccess, totalActions := 0, 0, 0;
    for i := 0 to |models|
      invariant (modelsSuccess, actionsSuccess, totalActions) == Tally(models, pushActions, i)
    {
      var m := models[i];
      if m.schemaPushed {
        modelsSuccess := modelsSuccess + 1;
        if pushActions && m.actionsFolder {
          totalActions := totalActions + |m.actions|;
          var current := 0;
          for j := 0 to |m.actions|
            invariant current == Count(m.actions[..j])
          {
            assert m.actions[..j + 1][..j] == m.actions[..j];
            if m.actions[j] {
              current := current + 1;
            }
          }
          assert m.actions[..|m.actions|] == m.actions;
          actionsSuccess := actionsSuccess + current;
        }
      }
    }
  }

  /** Schemas counted are exactly the pushed ones; actions are counted only for
      models whose schema was pushed, when actions were asked for, and never more
      succeed than were tried. */
  lemma {:induction false} TallySpec(models: seq<ModelPush>, pushActions: bool, n: nat)
    requires n <= |models|
    ensures var (s, a, total) := Tally(models, pushActions, n);
      && s == |set i | 0 <= i < n && models[i].schemaPushed|
      && a <= total
      && (total > 0 ==> exists i | 0 <= i < n :: ActionsAttempted(models[i], pushActions))
      && (!pushActions ==> total == 0)
  {
    if n > 0 {
      TallySpec(models, pushActions, n - 1);
      var prev := set i | 0 <= i < n - 1 && models[i].schemaPushed;
      var now := set i | 0 <= i < n && models[i].schemaPushed;
      if models[n - 1].schemaPushed {
        assert now == prev + {n - 1};
      } else {
        assert now == prev;
      }
    }
  }
}

=== FILE: push_platform.dfy ===
/** The platform-level steps of the push commands: the configuration check that
    pushPlatformModel.ts and pushPlatformAction.ts run before anything else, and
    the connection-definition and connection-platform syncs with which `syncPlatform`
    in pushPlatform.ts starts, together with the gate that decides whether the
    models are pushed at all. */
module PushPlatform {
  import opened Wrappers
  import opened Json
  import opened Files
  import Naming
  import Projection
  import Assembly
  import opened PushSync

  // ------------------------------------------------------------ configuration check

  /** What `checkIfPlatformHasConnectionAndPlatformData` reports: the two ids and
      the definition's `authMethod`, or the message naming the first missing piece. */
  datatype Check = Passed(definitionId: Value, platformId: Value, authMethod: Option<Value>) | Missing(message: string)

  const NoConfigs := "Platform does not have a configs folder!"
  const NoDefinition := "Platform does not have a connection definition!"
  const NoDefinitionId := "Connection Definition ID is not available! Please push the platform first!"
  const NoPlatform := "Platform does not have a platform configuration!"
  const NoPlatformId := "Platform ID is not available! Please push the platform first!"

  function ConfigsDir(dir: Path): Path { dir + ["configs"] }
  function DefinitionFile(dir: Path): Path { dir + ["configs", "connection-definition.json"] }
  function PlatformFile(dir: Path): Path { dir + ["configs", "connection-platform.json"] }

  /** `checkIfPlatformHasConnectionAndPlatformData` for the platform folder `dir`.
      A file that exists but does not read as JSON, or reads as `null`, throws. */
  function CheckConnection(t: Entries, dir: Path, parse: string -> Option<Value>): Result<Check> {
    if ConfigsDir(dir) !in t then Success(Missing(NoConfigs))
    else if DefinitionFile(dir) !in t then Success(Missing(NoDefinition))
    else
      var definition :- ReadJson(t, DefinitionFile(dir), parse);
      var definitionId :- Assembly.Member(definition, "_id");
      if definitionId.None? || !Truthy(definitionId.value) then Success(Missing(NoDefinitionId))
      else if PlatformFile(dir) !in t then Success(Missing(NoPlatform))
      else
        var platform :- ReadJson(t, PlatformFile(dir), parse);
        var platformId :- Assembly.Member(platform, "_id");
        if platformId.None? || !Truthy(platformId.value) then Success(Missing(NoPlatformId))
        else Success(Passed(definitionId.value, platformId.value, Prop(definition, "authMethod")))
  }

  /** The `_id` a configuration file holds, when it reads as a JSON object. */
  function FileId(t: Entries, file: Path, parse: string -> Option<Value>): Option<Value> {
    if IsFile(t, file) && parse(t[file].text).Some? && parse(t[file].text).value.Obj?
    then Lookup(parse(t[file].text).value.fields, "_id")
    else None
  }

  predicate HasFileId(t: Entries, file: Path, parse: string -> Option<Value>) {
    FileId(t, file, parse).Some? && Truthy(FileId(t, file, parse).value)
  }

  /** The check passes exactly when the configs folder exists and both configuration
      files hold a truthy `_id`, and it then hands those ids on; otherwise the message
      names the first check that failed, in the order configs folder, definition
      file, definition id, platform file, platform id. */
  lemma CheckConnectionSpec(t: Entries, dir: Path, parse: string -> Option<Value>)
    requires DefinitionFile(dir) in t ==> IsFile(t, DefinitionFile(dir)) && parse(t[DefinitionFile(dir)].text).Some? && parse(t[DefinitionFile(dir)].text).value.Obj?
    requires PlatformFile(dir) in t ==> IsFile(t, PlatformFile(dir)) && parse(t[PlatformFile(dir)].text).Some? && parse(t[PlatformFile(dir)].text).value.Obj?
    ensures var c := CheckConnection(t, dir, parse);
      && c.Success?
      && (c.value.Passed? <==>
            ConfigsDir(dir) in t && HasFileId(t, DefinitionFile(dir), parse) && HasFileId(t, PlatformFile(dir), parse))
      && (c.value.Passed? ==>
            c.value.definitionId == FileId(t, DefinitionFile(dir), parse).value &&
            c.value.platformId == FileId(t, PlatformFile(dir), parse).value)
      && (ConfigsDir(dir) !in t ==> c.value == Missing(NoConfigs))
      && (ConfigsDir(dir) in t && DefinitionFile(dir) !in t ==> c.value == Missing(NoDefinition))
      && (ConfigsDir(dir) in t && IsFile(t, DefinitionFile(dir)) && !HasFileId(t, DefinitionFile(dir), parse) ==>
            c.value == Missing(NoDefinitionId))
      && (ConfigsDir(dir) in t && HasFileId(t, DefinitionFile(dir), parse) && PlatformFile(dir) !in t ==>
            c.value == Missing(NoPlatform))
      && ((ConfigsDir(dir) in t && HasFileId(t, DefinitionFile(dir), parse) && IsFile(t, PlatformFile(dir)) &&
           !HasFileId(t, PlatformFile(dir), parse)) ==> c.value == Missing(NoPlatformId))
  {
  }

  // ------------------------------------------------------------ connection definition and platform

  /** The outcome of a sync: `success`, the `data` it hands on (`null` is `None`),
      and the tree afterwards. */
  datatype Synced = Synced(success: bool, data: Option<Fields>, entries: Entries)

  /** A POST: on a 2xx reply the returned `_id` is recorded in `file`; a non-2xx reply
      or an exception is a failure the sync functions catch. */
  function CreateNew(t: Entries, file: Path, post: Reply, parse: string -> Option<Value>): Result<(Option<Value>, Entries)> {
    if Naming.IsSuccessful(post.status) then RecordId(t, file, post, parse) else Failure("API Error")
  }

  /** `syncConnectionDefinition` on the document `getPushStructureData` assembled, or
      on the exception it threw, which the `catch` turns into a failure with nothing
      written. A PATCH that succeeds, or a 404 followed by a successful create, hands
      the document on (with the new `_id` after a create); a create without a prior
      `_id` succeeds but hands on `null`. */
  function DefinitionSync(t: Entries, dir: Path, assembled: Result<Fields>, patch: Reply, post: Reply, parse: string -> Option<Value>): Synced {
    if assembled.Failure? then Synced(false, None, t)
    else
    var data := assembled.value;
    if HasId(data) then
      if patch.status == 404 then
        match CreateNew(t, DefinitionFile(dir), post, parse)
        case Failure(_) => Synced(false, None, t)
        case Success((id, t')) => Synced(true, Some(Projection.SetOrDrop(data, "_id", id)), t')
      else if !Naming.IsSuccessful(patch.status) then Synced(false, None, t)
      else Synced(true, Some(data), t)
    else
      match CreateNew(t, DefinitionFile(dir), post, parse)
      case Failure(_) => Synced(false, None, t)
      case Success((_, t')) => Synced(true, None, t')
  }

  method CreateNewM(fs: FileSystem, file: Path, post: Reply, parse: string -> Option<Value>) returns (r: Result<Option<Value>>)
    modifies fs
    ensures var c := CreateNew(old(fs.entries), file, post, parse);
      (r.Success? <==> c.Success?) && (r.Success? ==> r.value == c.value.0) &&
      fs.entries == if c.Success? then c.value.1 else old(fs.entries)
  {
    if !Naming.IsSuccessful(post.status) {
      return Failure("API Error");
    }
    r := RecordCreatedId(fs, file, post, parse);
  }

  method SyncConnectionDefinition(fs: FileSystem, dir: Path, assembled: Result<Fields>, patch: Reply, post: Reply, parse: string -> Option<Value>)
    returns (success: bool, out: Option<Fields>)
    modifies fs
    ensures DefinitionSync(old(fs.entries), dir, assembled, patch, post, parse) == Synced(success, out, fs.entries)
  {
    if assembled.Failure? {
      return false, None;
    }
    var data := assembled.value;
    if HasId(data) {
      if patch.status == 404 {
        var created := CreateNewM(fs, DefinitionFile(dir), post, parse);
        if created.Failure? {
          return false, None;
        }
        return true, Some(Projection.SetOrDrop(data, "_id", created.value));
      } else if !Naming.IsSuccessful(patch.status) {
        return false, None;
      }
      return true, Some(data);
    } else {
      var created := CreateNewM(fs, DefinitionFile(dir), post, parse);
      return created.Success?, None;
    }
  }

  /** The exchange of `syncConnectionPlatform` once the document is ready: `data`
      is `{ platformId }`, which is `null` after a create without a prior `_id`. */
  function PlatformExchange(t: Entries, dir: Path, data: Fields, patch: Reply, post: Reply, parse: string -> Option<Value>): Synced {
    if HasId(data) then
      if patch.status == 404 then
        match CreateNew(t, PlatformFile(dir), post, parse)
        case Failure(_) => Synced(false, None, t)
        case Success((id, t')) => Synced(true, Some(Projection.SetOrDrop([], "platformId", id)), t')
      else if !Naming.IsSuccessful(patch.status) then Synced(false, None, t)
      else Synced(true, Some(Projection.SetOrDrop([], "platformId", Lookup(data, "_id"))), t)
    else
      match CreateNew(t, PlatformFile(dir), post, parse)
      case Failure(_) => Synced(false, None, t)
      case Success((_, t')) => Synced(true, None, t')
  }

  /** `syncConnectionPlatform` on the assembled document, or on the exception its
      assembly threw, which is a failure with nothing written: a missing
      `connectionDefinitionId` is filled from the connection definition, in the
      document and in `connection-platform.json`, before the exchange. */
  function PlatformSync(t: Entries, dir: Path, assembled: Result<Fields>, definitionId: Option<Value>, patch: Reply, post: Reply, parse: string -> Option<Value>): Synced {
    if assembled.Failure? then Synced(false, None, t)
    else
    var data := assembled.value;
    var filled := Lookup(data, "connectionDefinitionId");
    if filled.None? || !Truthy(filled.value) then
      match Rewrite(t, PlatformFile(dir), "connectionDefinitionId", definitionId, parse)
      case Failure(_) => Synced(false, None, t)
      case Success(t') => PlatformExchange(t', dir, Projection.SetOrDrop(data, "connectionDefinitionId", definitionId), patch, post, parse)
    else PlatformExchange(t, dir, data, patch, post, parse)
  }

  method SyncConnectionPlatform(fs: FileSystem, dir: Path, assembled: Result<Fields>, definitionId: Option<Value>, patch: Reply, post: Reply, parse: string -> Option<Value>)
    returns (success: bool, out: Option<Fields>)
    modifies fs
    ensures PlatformSync(old(fs.entries), dir, assembled, definitionId, patch, post, parse) == Synced(success, out, fs.entries)
  {
    if assembled.Failure? {
      return false, None;
    }
    var data := assembled.value;
    var doc := data;
    var filled := Lookup(data, "connectionDefinitionId");
    if filled.None? || !Truthy(filled.value) {
      doc := Projection.SetOrDrop(data, "connectionDefinitionId", definitionId);
      var ok := RewriteConfig(fs, PlatformFile(dir), "connectionDefinitionId", definitionId, parse);
      if !ok {
        return false, None;
      }
    }
    if HasId(doc) {
      if patch.status == 404 {
        var created := CreateNewM(fs, PlatformFile(dir), post, parse);
        if created.Failure? {
          return false, None;
        }
        return true, Some(Projection.SetOrDrop([], "platformId", created.value));
      } else if !Naming.IsSuccessful(patch.status) {
        return false, None;
      }
      return true, Some(Projection.SetOrDrop([], "platformId", Lookup(doc, "_id")));
    } else {
      var created := CreateNewM(fs, PlatformFile(dir), post, parse);
      return created.Success?, None;
    }
  }

  /** The start of `syncPlatform`: the models are pushed only when both syncs
      succeed and hand on data. The second result is the tree afterwards. */
  function PlatformHead(t: Entries, dir: Path, definition: Result<Fields>, definitionPatch: Reply, definitionPost: Reply,
                        platform: Result<Fields>, platformPatch: Reply, platformPost: Reply, parse: string -> Option<Value>): (bool, Entries)
  {
    var d := DefinitionSync(t, dir, definition, definitionPatch, definitionPost, parse);
    if !(d.success && d.data.Some?) then (false, d.entries)
    else
      var p := PlatformSync(d.entries, dir, platform, Lookup(d.data.value, "_id"), platformPatch, platformPost, parse);
      (p.success && p.data.Some?, p.entries)
  }

  method SyncPlatformHead(fs: FileSystem, dir: Path, definition: Result<Fields>, definitionPatch: Reply, definitionPost: Reply,
                          platform: Result<Fields>, platformPatch: Reply, platformPost: Reply, parse: string -> Option<Value>)
    returns (proceed: bool)
    modifies fs
    ensures PlatformHead(old(fs.entries), dir, definition, definitionPatch, definitionPost, platform, platformPatch, platformPost, parse)
      == (proceed, fs.entries)
  {
    var ok, data := SyncConnectionDefinition(fs, dir, definition, definitionPatch, definitionPost, parse);
    if !(ok && data.Some?) {
      return false;
    }
    var ok', data' := SyncConnectionPlatform(fs, dir, platform, Lookup(data.value, "_id"), platformPatch, platformPost, parse);
    proceed := ok' && data'.Some?;
  }

  /** Filling `connectionDefinitionId` leaves the platform's own `_id` alone. */
  lemma FillKeepsId(data: Fields, definitionId: Option<Value>)
    ensures HasId(Projection.SetOrDrop(data, "connectionDefinitionId", definitionId)) <==> HasId(data)
  {
    Projection.SetOrDropLookup(data, "connectionDefinitionId", definitionId, "_id");
  }

  /** The connection definition hands data on exactly when it assembled, already had
      an `_id` and its sync succeeded; a document that did not assemble writes nothing. */
  lemma DefinitionData(t: Entries, dir: Path, assembled: Result<Fields>, patch: Reply, post: Reply, parse: string -> Option<Value>)
    ensures var d := DefinitionSync(t, dir, assembled, patch, post, parse);
      d.data.Some? <==> assembled.Success? && HasId(assembled.value) && d.success
    ensures assembled.Failure? ==> DefinitionSync(t, dir, assembled, patch, post, parse) == Synced(false, None, t)
  {
  }

  /** So does the platform; filling `connectionDefinitionId` leaves its `_id` alone. */
  lemma PlatformData(t: Entries, dir: Path, assembled: Result<Fields>, definitionId: Option<Value>, patch: Reply, post: Reply, parse: string -> Option<Value>)
    ensures var p := PlatformSync(t, dir, assembled, definitionId, patch, post, parse);
      p.data.Some? <==> assembled.Success? && HasId(assembled.value) && p.success
    ensures assembled.Failure? ==> PlatformSync(t, dir, assembled, definitionId, patch, post, parse) == Synced(false, None, t)
  {
    if assembled.Failure? {
      return;
    }
    var data := assembled.value;
    var filled := Lookup(data, "connectionDefinitionId");
    if filled.None? || !Truthy(filled.value) {
      match Rewrite(t, PlatformFile(dir), "connectionDefinitionId", definitionId, parse)
      case Failure(_) =>
      case Success(t') =>
        var doc := Projection.SetOrDrop(data, "connectionDefinitionId", definitionId);
        FillKeepsId(data, definitionId);
        ExchangeData(t', dir, doc, patch, post, parse);
    } else {
      ExchangeData(t, dir, data, patch, post, parse);
    }
  }

  lemma ExchangeData(t: Entries, dir: Path, data: Fields, patch: Reply, post: Reply, parse: string -> Option<Value>)
    ensures var p := PlatformExchange(t, dir, data, patch, post, parse);
      p.data.Some? <==> HasId(data) && p.success
  {
  }

  /** The models are pushed exactly when the connection definition and the platform
      both assemble, both carry an `_id` already and both exchanges succeed. A first
      push, which creates either of them, stops there: the create succeeds but hands
      on `null`. A definition that does not assemble stops the push with nothing
      written. */
  lemma PlatformHeadSpec(t: Entries, dir: Path, definition: Result<Fields>, definitionPatch: Reply, definitionPost: Reply,
                         platform: Result<Fields>, platformPatch: Reply, platformPost: Reply, parse: string -> Option<Value>)
    ensures var d := DefinitionSync(t, dir, definition, definitionPatch, definitionPost, parse);
      PlatformHead(t, dir, definition, definitionPatch, definitionPost, platform, platformPatch, platformPost, parse).0 <==>
        && definition.Success? && platform.Success?
        && HasId(definition.value) && HasId(platform.value) && d.success
        && PlatformSync(d.entries, dir, platform, Lookup(d.data.value, "_id"), platformPatch, platformPost, parse).success
    ensures definition.Success? && !HasId(definition.value) ==> !PlatformHead(t, dir, definition, definitionPatch, definitionPost, platform, platformPatch, platformPost, parse).0
    ensures platform.Success? && !HasId(platform.value) ==> !PlatformHead(t, dir, definition, definitionPatch, definitionPost, platform, platformPatch, platformPost, parse).0
    ensures definition.Failure? ==> PlatformHead(t, dir, definition, definitionPatch, definitionPost, platform, platformPatch, platformPost, parse) == (false, t)
    ensures platform.Failure? ==> PlatformHead(t, dir, definition, definitionPatch, definitionPost, platform, platformPatch, platformPost, parse)
                                  == (false, DefinitionSync(t, dir, definition, definitionPatch, definitionPost, parse).entries)
  {
    var d := DefinitionSync(t, dir, definition, definitionPatch, definitionPost, parse);
    DefinitionData(t, dir, definition, definitionPatch, definitionPost, parse);
    if d.success && d.data.Some? {
      PlatformData(d.entries, dir, platform, Lookup(d.data.value, "_id"), platformPatch, platformPost, parse);
    }
  }

  /** A first push still records the `_id` the server assigned to the connection
      definition, keeping the file's other fields, so the next push patches it. */
  lemma FirstPushRecordsDefinitionId(t: Entries, dir: Path, definition: Fields, patch: Reply, post: Reply, parse: string -> Option<Value>)
    requires !HasId(definition) && Naming.IsSuccessful(post.status) && post.body.Obj?
    requires IsFile(t, DefinitionFile(dir)) && parse(t[DefinitionFile(dir)].text).Some? && parse(t[DefinitionFile(dir)].text).value.Obj?
    ensures var fields := parse(t[DefinitionFile(dir)].text).value.fields;
      var d := DefinitionSync(t, dir, Success(definition), patch, post, parse);
      && d.success && d.data.None?
      && d.entries == t[DefinitionFile(dir) := File(Serialize(Obj(Projection.SetOrDrop(fields, "_id", Lookup(post.body.fields, "_id")))))]
  {
    RewriteSpec(t, DefinitionFile(dir), "_id", Lookup(post.body.fields, "_id"), parse);
  }
}

=== FILE: push_sync.dfy ===
/** The create-or-patch exchange every push command runs once it has assembled
    its document (bin/commands/pushPlatform.ts, pushPlatformModel.ts,
    pushPlatformAction.ts, pushCommonModel.ts, pushCommonEnum.ts). With a truthy
    `_id` the document is PATCHed and a 404 falls back to a POST; without one it is
    POSTed straight away. A successful POST records the returned `_id` in the
    item's configuration file. The server is not modelled: the reply it would give
    to each request is a parameter, and so is `JSON.parse`. */
module PushSync {
  import opened Wrappers
  import opened Json
  import opened Files
  import Naming
  import Projection
  import Assembly

  /** What the server answers: the status code and the parsed body (`response.data`). */
  datatype Reply = Reply(status: int, body: Value)

  datatype Request = Patch | Post

  /** How the exchange ended. */
  datatype Decision = Patched | Created | Rejected

  /** `if (data._id)`. */
  predicate HasId(data: Fields) {
    Lookup(data, "_id").Some? && Truthy(Lookup(data, "_id").value)
  }

  /** `response.data?.success`: the acknowledgement the common-model and common-enum
      endpoints add to a successful PATCH. */
  predicate Acknowledged(r: Reply) {
    var s := Prop(r.body, "success");
    s.Some? && Truthy(s.value)
  }

  /** The requests sent, in order. */
  function Requests(data: Fields, patch: Reply): seq<Request> {
    if HasId(data) then (if patch.status == 404 then [Patch, Post] else [Patch]) else [Post]
  }

  /** The decision of `syncConnectionDefinition`, `syncConnectionPlatform`,
      `syncPlatformAction` (`acknowledged` false) and of `syncCommonModel`,
      `syncCommonEnum` (`acknowledged` true, a 2xx PATCH also needs `success`). */
  function Decide(data: Fields, patch: Reply, post: Reply, acknowledged: bool): Decision {
    if HasId(data) then
      if Naming.IsSuccessful(patch.status) then
        (if !acknowledged || Acknowledged(patch) then Patched else Rejected)
      else if patch.status == 404 then
        (if Naming.IsSuccessful(post.status) then Created else Rejected)
      else Rejected
    else if Naming.IsSuccessful(post.status) then Created else Rejected
  }

  /** The decision in terms of the requests: a POST is sent exactly when there is no
      id or the PATCH found nothing (404); the document is created exactly when a
      POST was sent and answered in the 2xx range; it is patched exactly when the
      only request was the PATCH, answered in the 2xx range (and acknowledged where
      that is asked for). */
  lemma DecideSpec(data: Fields, patch: Reply, post: Reply, acknowledged: bool)
    ensures Post in Requests(data, patch) <==> !HasId(data) || patch.status == 404
    ensures Requests(data, patch)[0] == Patch <==> HasId(data)
    ensures Decide(data, patch, post, acknowledged) == Created <==>
      Post in Requests(data, patch) && 200 <= post.status <= 299
    ensures Decide(data, patch, post, acknowledged) == Patched <==>
      Requests(data, patch) == [Patch] && 200 <= patch.status <= 299 && (acknowledged ==> Acknowledged(patch))
  {
    Naming.IsSuccessfulIff(patch.status);
    Naming.IsSuccessfulIff(post.status);
  }

  /** `obj[k] = x` in strict mode, where `x` may be `undefined`: an object gains or
      loses the key (an undefined property is not serialised), an array is written
      as a JavaScript array (an undefined element serialises as `null`), and a
      primitive throws. */
  function Assigned(v: Value, k: string, m: Option<Value>): (r: Result<Value>)
    ensures r.Success? <==> IsContainer(v)
    ensures v.Obj? ==> r == Success(Obj(Projection.SetOrDrop(v.fields, k, m)))
  {
    if v.Obj? then Success(Obj(Projection.SetOrDrop(v.fields, k, m)))
    else SetProp(v, k, m.GetOr(Null))
  }

  /** `JSON.parse(await readFile(file))`. A missing file makes `readFile` return its
      error object, whose text does not parse, so both failures throw. */
  function ReadJson(t: Entries, file: Path, parse: string -> Option<Value>): (r: Result<Value>)
    ensures r.Success? <==> IsFile(t, file) && parse(t[file].text).Some?
    ensures r.Success? ==> r.value == parse(t[file].text).value
  {
    var text :- ReadText(t, file);
    if parse(text).Some? then Success(parse(text).value) else Failure("SyntaxError: Unexpected token")
  }

  /** `obj = JSON.parse(await readFile(file)); obj[k] = x; await overwriteFile(file,
      JSON.stringify(obj))`. A missing file makes `readFile` return its error, which
      does not parse, so the sequence throws; so does text that does not parse and a
      primitive `obj`. A failed write is returned by `overwriteFile` and ignored. */
  function Rewrite(t: Entries, file: Path, k: string, m: Option<Value>, parse: string -> Option<Value>): Result<Entries> {
    var config :- ReadJson(t, file, parse);
    var updated :- Assigned(config, k, m);
    Success(Apply(t, WriteFile(t, file, Serialize(updated))))
  }

  /** A configuration file holding an object gets the key set to the new value and
      keeps every other key; nothing else changes. A missing file or one whose text
      is not JSON makes the rewrite throw. */
  lemma RewriteSpec(t: Entries, file: Path, k: string, m: Option<Value>, parse: string -> Option<Value>)
    ensures !IsFile(t, file) || parse(t[file].text).None? ==> Rewrite(t, file, k, m, parse).Failure?
    ensures IsFile(t, file) && parse(t[file].text).Some? && parse(t[file].text).value.Obj? ==>
      var fields := parse(t[file].text).value.fields;
      var updated := Projection.SetOrDrop(fields, k, m);
      && Rewrite(t, file, k, m, parse).Success?
      && Rewrite(t, file, k, m, parse).value == t[file := File(Serialize(Obj(updated)))]
      && Lookup(updated, k) == m
      && forall k' | k' != k :: Lookup(updated, k') == Lookup(fields, k')
  {
    if IsFile(t, file) && parse(t[file].text).Some? && parse(t[file].text).value.Obj? {
      var fields := parse(t[file].text).value.fields;
      var updated := Projection.SetOrDrop(fields, k, m);
      var w := WriteFile(t, file, Serialize(Obj(updated)));
      WriteLikeAppend(t, file, Serialize(Obj(updated)), "");
      assert w.Success?;
      assert w.value == t[file := File(Serialize(Obj(updated)))];
      forall k' ensures Lookup(updated, k') == if k' == k then m else Lookup(fields, k') {
        Projection.SetOrDropLookup(fields, k, m, k');
      }
    }
  }

  /** A rewrite changes the file it writes and nothing else. */
  lemma RewriteFrame(t: Entries, file: Path, k: string, m: Option<Value>, parse: string -> Option<Value>)
    requires Rewrite(t, file, k, m, parse).Success?
    ensures forall q | q != file :: (q in Rewrite(t, file, k, m, parse).value <==> q in t)
    ensures forall q | q != file && q in t :: Rewrite(t, file, k, m, parse).value[q] == t[q]
  {
  }

  /** The read, update and write of one key of a configuration file; `ok` is false
      when the sequence threw. */
  method RewriteConfig(fs: FileSystem, file: Path, k: string, m: Option<Value>, parse: string -> Option<Value>)
    returns (ok: bool)
    modifies fs
    ensures ok <==> Rewrite(old(fs.entries), file, k, m, parse).Success?
    ensures fs.entries == if ok then Rewrite(old(fs.entries), file, k, m, parse).value else old(fs.entries)
  {
    var text := fs.ReadFile(file);
    if text.Failure? {
      return false;
    }
    var parsed := parse(text.value);
    if parsed.None? {
      return false;
    }
    var updated := Assigned(parsed.value, k, m);
    if updated.Failure? {
      return false;
    }
    var _ := fs.OverwriteFile(file, Serialize(updated.value));
    ok := true;
  }

  /** After a successful POST: `obj._id = response.data._id` in the configuration
      file, returning the id that was recorded. Reading `_id` of a `null` body throws. */
  function RecordId(t: Entries, file: Path, post: Reply, parse: string -> Option<Value>): Result<(Option<Value>, Entries)> {
    var id :- Assembly.Member(post.body, "_id");
    var t' :- Rewrite(t, file, "_id", id, parse);
    Success((id, t'))
  }

  method RecordCreatedId(fs: FileSystem, file: Path, post: Reply, parse: string -> Option<Value>)
    returns (r: Result<Option<Value>>)
    modifies fs
    ensures r.Success? <==> RecordId(old(fs.entries), file, post, parse).Success?
    ensures r.Success? ==> r.value == RecordId(old(fs.entries), file, post, parse).value.0
    ensures fs.entries == if r.Success? then RecordId(old(fs.entries), file, post, parse).value.1 else old(fs.entries)
  {
    var id := Assembly.Member(post.body, "_id");
    if id.Failure? {
      return Failure(id.error);
    }
    var ok := RewriteConfig(fs, file, "_id", id.value, parse);
    if !ok {
      return Failure("thrown while recording the id");
    }
    r := Success(id.value);
  }

  // ------------------------------------------------------------ common models and enums

  /** `syncCommonModel` / `syncCommonEnum` for the folder `dir`: whether the push
      counts as a success, and the new tree. `Failure` is an exception; these
      functions catch none, so it ends the whole push. */
  function CommonSync(t: Entries, dir: Path, data: Fields, patch: Reply, post: Reply, parse: string -> Option<Value>)
    : Result<(bool, Entries)>
  {
    match Decide(data, patch, post, true)
    case Patched => Success((true, t))
    case Rejected => Success((false, t))
    case Created =>
      var (_, t') :- RecordId(t, dir + ["config.json"], post, parse);
      Success((true, t'))
  }

  method SyncCommon(fs: FileSystem, dir: Path, data: Fields, patch: Reply, post: Reply, parse: string -> Option<Value>)
    returns (r: Result<bool>)
    modifies fs
    ensures r.Success? <==> CommonSync(old(fs.entries), dir, data, patch, post, parse).Success?
    ensures r.Success? ==> r.value == CommonSync(old(fs.entries), dir, data, patch, post, parse).value.0
    ensures fs.entries == if r.Success? then CommonSync(old(fs.entries), dir, data, patch, post, parse).value.1 else old(fs.entries)
  {
    if HasId(data) {
      if Naming.IsSuccessful(patch.status) {
        return Success(Acknowledged(patch));
      } else if patch.status == 404 {
        r := CreateCommon(fs, dir, post, parse);
      } else {
        return Success(false);
      }
    } else {
      r := CreateCommon(fs, dir, post, parse);
    }
  }

  /** `createNewCommonModel` / `createNewCommonEnum`. */
  method CreateCommon(fs: FileSystem, dir: Path, post: Reply, parse: string -> Option<Value>) returns (r: Result<bool>)
    modifies fs
    ensures !Naming.IsSuccessful(post.status) ==> r == Success(false) && fs.entries == old(fs.entries)
    ensures Naming.IsSuccessful(post.status) ==>
      var rec := RecordId(old(fs.entries), dir + ["config.json"], post, parse);
      (r.Success? <==> rec.Success?) && (r.Success? ==> r.value) &&
      fs.entries == if rec.Success? then rec.value.1 else old(fs.entries)
  {
    if !Naming.IsSuccessful(post.status) {
      return Success(false);
    }
    var id := RecordCreatedId(fs, dir + ["config.json"], post, parse);
    if id.Failure? {
      return Failure(id.error);
    }
    r := Success(true);
  }

  /** A push that does not end in a create leaves every file as it was; one that
      creates changes `config.json` of its own folder and nothing else. */
  lemma CommonSyncFrame(t: Entries, dir: Path, data: Fields, patch: Reply, post: Reply, parse: string -> Option<Value>)
    requires CommonSync(t, dir, data, patch, post, parse).Success?
    ensures Decide(data, patch, post, true) != Created ==> CommonSync(t, dir, data, patch, post, parse).value.1 == t
    ensures var t' := CommonSync(t, dir, data, patch, post, parse).value.1;
      forall q | q != dir + ["config.json"] :: (q in t' <==> q in t) && (q in t ==> t'[q] == t[q])
  {
    if Decide(data, patch, post, true) == Created {
      var id := Assembly.Member(post.body, "_id").value;
      RewriteFrame(t, dir + ["config.json"], "_id", id, parse);
    }
  }

  /** A successful create records the returned `_id` in `config.json` and keeps the
      file's other fields. */
  lemma CreateRecordsId(t: Entries, dir: Path, data: Fields, patch: Reply, post: Reply, parse: string -> Option<Value>)
    requires Decide(data, patch, post, true) == Created
    requires post.body.Obj?
    requires IsFile(t, dir + ["config.json"])
    requires parse(t[dir + ["config.json"]].text).Some? && parse(t[dir + ["config.json"]].text).value.Obj?
    ensures var file := dir + ["config.json"];
      var fields := parse(t[file].text).value.fields;
      var updated := Projection.SetOrDrop(fields, "_id", Lookup(post.body.fields, "_id"));
      && CommonSync(t, dir, data, patch, post, parse) == Success((true, t[file := File(Serialize(Obj(updated)))]))
      && Lookup(updated, "_id") == Lookup(post.body.fields, "_id")
      && forall k | k != "_id" :: Lookup(updated, k) == Lookup(fields, k)
  {
    RewriteSpec(t, dir + ["config.json"], "_id", Lookup(post.body.fields, "_id"), parse);
  }

  /** One entry of a named common push: the requested name, the document its folder
      assembles to, and the replies the server gives to it. */
  datatype CommonItem = CommonItem(name: string, data: Fields, patch: Reply, post: Reply)

  /** The exchange run for one name: its folder, its document and the replies. */
  type Syncer = (Entries, Path, CommonItem) -> Result<(bool, Entries)>

  function CommonSyncer(parse: string -> Option<Value>): Syncer {
    (t: Entries, dir: Path, it: CommonItem) => CommonSync(t, dir, it.data, it.patch, it.post, parse)
  }

  /** The named-mode loop of `pushCommonModel` (`missingFails` true: a missing folder
      is counted as a failure) and of `pushCommonEnum` (`missingFails` false: a
      missing folder is counted nowhere), with `sync` the exchange for one folder.
      The result is `(successCount, failCount, tree)` after the first `n` names, or
      the exception that ended the push. */
  function CommonRun(t: Entries, root: Path, items: seq<CommonItem>, sync: Syncer, missingFails: bool, n: nat)
    : Result<(nat, nat, Entries)>
    requires n <= |items|
  {
    if n == 0 then Success((0, 0, t))
    else
      var (s, f, t1) :- CommonRun(t, root, items, sync, missingFails, n - 1);
      CommonStep(s, f, t1, root, items[n - 1], sync, missingFails)
  }

  /** One name of the loop: sync its folder when it exists and count the outcome. */
  function CommonStep(s: nat, f: nat, t: Entries, root: Path, it: CommonItem, sync: Syncer, missingFails: bool)
    : Result<(nat, nat, Entries)>
  {
    if root + [it.name] in t then
      var (ok, t') :- sync(t, root + [it.name], it);
      Success(if ok then (s + 1, f, t') else (s, f + 1, t'))
    else Success(if missingFails then (s, f + 1, t) else (s, f, t))
  }

  method PushCommonNamed(fs: FileSystem, root: Path, items: seq<CommonItem>, parse: string -> Option<Value>, missingFails: bool)
    returns (r: Result<(nat, nat)>)
    modifies fs
    ensures var run := CommonRun(old(fs.entries), root, items, CommonSyncer(parse), missingFails, |items|);
      (r.Success? <==> run.Success?) &&
      (r.Success? ==> r.value == (run.value.0, run.value.1) && fs.entries == run.value.2)
  {
    ghost var t0 := fs.entries;
    var successCount, failCount := 0, 0;
    var i := 0;
    while i < |items|
      invariant 0 <= i <= |items|
      invariant CommonRun(t0, root, items, CommonSyncer(parse), missingFails, i) == Success((successCount, failCount, fs.entries))
    {
      ghost var before := fs.entries;
      var step := PushOne(fs, successCount, failCount, root, items[i], parse, missingFails);
      CommonRunNext(t0, root, items, CommonSyncer(parse), missingFails, i, successCount, failCount, before);
      if step.Failure? {
        CommonRunStops(t0, root, items, CommonSyncer(parse), missingFails, i + 1);
        return Failure(step.error);
      }
      successCount, failCount := step.value.0, step.value.1;
      i := i + 1;
    }
    r := Success((successCount, failCount));
  }

  lemma CommonRunNext(t: Entries, root: Path, items: seq<CommonItem>, sync: Syncer, missingFails: bool, i: nat, s: nat, f: nat, t1: Entries)
    requires i < |items| && CommonRun(t, root, items, sync, missingFails, i) == Success((s, f, t1))
    ensures CommonRun(t, root, items, sync, missingFails, i + 1) == CommonStep(s, f, t1, root, items[i], sync, missingFails)
  {
  }

  method PushOne(fs: FileSystem, s: nat, f: nat, root: Path, it: CommonItem, parse: string -> Option<Value>, missingFails: bool)
    returns (r: Result<(nat, nat)>)
    modifies fs
    ensures var step := CommonStep(s, f, old(fs.entries), root, it, CommonSyncer(parse), missingFails);
      (r.Success? <==> step.Success?) &&
      (r.Success? ==> r.value == (step.value.0, step.value.1) && fs.entries == step.value.2)
  {
    var present := fs.CheckExistence(root + [it.name]);
    if present {
      var ok := SyncCommon(fs, root + [it.name], it.data, it.patch, it.post, parse);
      assert CommonSyncer(parse)(old(fs.entries), root + [it.name], it)
        == CommonSync(old(fs.entries), root + [it.name], it.data, it.patch, it.post, parse);
      if ok.Failure? {
        return Failure(ok.error);
      }
      r := Success(if ok.value then (s + 1, f) else (s, f + 1));
    } else {
      r := Success(if missingFails then (s, f + 1) else (s, f));
    }
  }

  /** Once the push has thrown, later names change nothing. */
  lemma {:induction false} CommonRunStops(t: Entries, root: Path, items: seq<CommonItem>, sync: Syncer, missingFails: bool, n: nat)
    requires n <= |items| && CommonRun(t, root, items, sync, missingFails, n).Failure?
    ensures CommonRun(t, root, items, sync, missingFails, |items|).Failure?
    decreases |items| - n
  {
    if n < |items| {
      CommonRunStops(t, root, items, sync, missingFails, n + 1);
    }
  }

  /** Nothing a push does creates or removes a folder entry: only `config.json` files
      are written. */
  predicate NotConfig(root: Path, q: Path) {
    |q| != |root| + 2 || q[|q| - 1] != "config.json"
  }

  /** A sync of a folder under `root` that creates or removes no entry but a
      `config.json`. */
  ghost predicate WritesOnlyConfig(sync: Syncer, root: Path) {
    forall t: Entries, it: CommonItem, q: Path | sync(t, root + [it.name], it).Success? && NotConfig(root, q) ::
      q in sync(t, root + [it.name], it).value.1 <==> q in t
  }

  /** The exchange of the common-model and common-enum pushes writes only the
      folder's own `config.json`. */
  lemma CommonSyncWritesOnlyConfig(parse: string -> Option<Value>, root: Path)
    ensures WritesOnlyConfig(CommonSyncer(parse), root)
  {
    forall t: Entries, it: CommonItem, q: Path | CommonSyncer(parse)(t, root + [it.name], it).Success? && NotConfig(root, q)
      ensures q in CommonSyncer(parse)(t, root + [it.name], it).value.1 <==> q in t
    {
      var dir := root + [it.name];
      assert CommonSyncer(parse)(t, dir, it) == CommonSync(t, dir, it.data, it.patch, it.post, parse);
      CommonSyncFrame(t, dir, it.data, it.patch, it.post, parse);
      assert q != dir + ["config.json"];
    }
  }

  /** The counters of a finished named push. A missing common model is a failure,
      so `successCount + failCount` is the number of names; a missing common enum
      is neither, so the two add up to the number of names whose folder exists. In
      both cases the `Failed` line, `total - successCount`, also counts the missing
      names. */
  lemma {:induction false} CommonRunCounts(t: Entries, root: Path, items: seq<CommonItem>, parse: string -> Option<Value>, missingFails: bool, n: nat)
    requires n <= |items| && CommonRun(t, root, items, CommonSyncer(parse), missingFails, n).Success?
    ensures var (s, f, t') := CommonRun(t, root, items, CommonSyncer(parse), missingFails, n).value;
      && (forall q | NotConfig(root, q) :: (q in t' <==> q in t))
      && s + f == (if missingFails then n else Present(t, root, items, n))
  {
    CommonSyncWritesOnlyConfig(parse, root);
    RunCounts(t, root, items, CommonSyncer(parse), missingFails, n);
  }

  lemma {:induction false} RunCounts(t: Entries, root: Path, items: seq<CommonItem>, sync: Syncer, missingFails: bool, n: nat)
    requires n <= |items| && CommonRun(t, root, items, sync, missingFails, n).Success?
    requires WritesOnlyConfig(sync, root)
    ensures var (s, f, t') := CommonRun(t, root, items, sync, missingFails, n).value;
      && (forall q | NotConfig(root, q) :: (q in t' <==> q in t))
      && s + f == (if missingFails then n else Present(t, root, items, n))
  {
    if n > 0 {
      RunCounts(t, root, items, sync, missingFails, n - 1);
      var (s, f, t1) := CommonRun(t, root, items, sync, missingFails, n - 1).value;
      CommonRunNext(t, root, items, sync, missingFails, n - 1, s, f, t1);
      var it := items[n - 1];
      if root + [it.name] in t1 {
        var t2 := sync(t1, root + [it.name], it);
        assert forall q | NotConfig(root, q) :: (q in t2.value.1 <==> q in t1);
      }
      assert NotConfig(root, root + [it.name]);
    }
  }

  /** How many of the first `n` names have a folder under `root`. */
  function Present(t: Entries, root: Path, items: seq<CommonItem>, n: nat): (c: nat)
    requires n <= |items|
    ensures c <= n
  {
    if n == 0 then 0 else Present(t, root, items, n - 1) + (if root + [items[n - 1].name] in t then 1 else 0)
  }
}

=== FILE: scaffold.dfy ===
/** Structure scaffolding (bin/helpers.ts): a declared tree of folders and template
    files, the placeholder substitution `replaceStructureValues` that fills in its
    replacement rules, and `createFolderStructure`/`copyFile`, which lay it out on
    the file system. */
module Scaffold {
  import opened Wrappers
  import opened Text
  import Json
  import opened Files

  /** A replacement rule of a template file: the first `from` becomes `String(to)`. */
  datatype Rule = Rule(from: string, to: Json.Value)

  /** A declared file; `replace` is `null`/absent (`None`) or a list of rules. */
  datatype FileSpec = FileSpec(name: string, template: string, replace: Option<seq<Rule>>)

  datatype FolderSpec = FolderSpec(name: string, layout: Layout)

  /** `{ folders, files }`; an absent list is empty. */
  datatype Layout = Layout(folders: seq<FolderSpec>, files: seq<FileSpec>)

  // ---------------------------------------------------------------------------
  // copyFile

  /** The template text after `templateText.replace(from, to)` for each rule in order. */
  function ApplyRules(text: string, rules: seq<Rule>): string
  {
    if |rules| == 0 then text
    else
      var last := rules[|rules| - 1];
      ReplaceFirst(ApplyRules(text, rules[..|rules| - 1]), last.from, Json.JsString(last.to))
  }

  /** Rules apply one after the other: a list split in two applies as its halves in turn. */
  lemma {:induction false} ApplyRulesConcat(text: string, a: seq<Rule>, b: seq<Rule>)
    ensures ApplyRules(text, a + b) == ApplyRules(ApplyRules(text, a), b)
    decreases |b|
  {
    if |b| == 0 {
      assert a + b == a;
    } else {
      assert (a + b)[..|a + b| - 1] == a + b[..|b| - 1];
      ApplyRulesConcat(text, a, b[..|b| - 1]);
    }
  }

  /** A rule whose `from` does not occur leaves the text as it is. */
  lemma ApplyRulesAbsent(text: string, rules: seq<Rule>, r: Rule)
    requires forall j: nat :: !OccursAt(ApplyRules(text, rules), r.from, j)
    ensures ApplyRules(text, rules + [r]) == ApplyRules(text, rules)
  {
    assert (rules + [r])[..|rules|] == rules;
  }

  /** `copyFile(destination, template, replace)`: with rules (even none) the
      substituted text is appended to the destination; without, the template is
      copied over it. A missing template fails and writes nothing. */
  function Copied(t: Entries, templates: map<string, string>, dest: Path, file: FileSpec): (r: Result<Entries>)
    ensures r.Success? ==> file.template in templates && dest in r.value
    ensures r.Success? && file.replace.None? ==> r.value[dest] == File(templates[file.template])
    ensures r.Success? && file.replace.Some? ==>
      r.value[dest] == File((if IsFile(t, dest) then t[dest].text else "") + ApplyRules(templates[file.template], file.replace.value))
    ensures r.Success? ==> forall q | q != dest :: (q in r.value <==> q in t) && (q in t ==> r.value[q] == t[q])
  {
    if file.template !in templates then Failure("ENOENT: no such file or directory, open")
    else match file.replace
      case Some(rules) => AppendFile(t, dest, ApplyRules(templates[file.template], rules))
      case None => WriteFile(t, dest, templates[file.template])
  }

  method CopyFile(fs: FileSystem, dest: Path, file: FileSpec) returns (ok: bool)
    modifies fs
    ensures ok == Copied(old(fs.entries), fs.templates, dest, file).Success?
    ensures fs.entries == Apply(old(fs.entries), Copied(old(fs.entries), fs.templates, dest, file))
  {
    if file.template !in fs.templates {
      return false;
    }
    match file.replace
    case Some(rules) =>
      var text := fs.templates[file.template];
      for i := 0 to |rules|
        invariant text == ApplyRules(fs.templates[file.template], rules[..i])
      {
        assert rules[..i + 1][..i] == rules[..i];
        text := ReplaceFirst(text, rules[i].from, Json.JsString(rules[i].to));
      }
      assert rules[..|rules|] == rules;
      ok := fs.CreateFile(dest, text);
    case None =>
      ok := fs.OverwriteFile(dest, fs.templates[file.template]);
  }

  // ---------------------------------------------------------------------------
  // createFolderStructure

  /** The tree after `createFolderStructure(dir, layout, overwrite)`: each folder in
      order is created unless something exists at its path and is then filled in;
      then each file is copied if absent, or always when `overwrite` is set. Errors
      of the helpers are caught, so a failed step changes nothing. */
  function Materialize(t: Entries, templates: map<string, string>, dir: Path, layout: Layout, overwrite: bool): Entries
    decreases layout, 2, 0
  {
    PlaceFiles(PlaceFolders(t, templates, dir, layout, |layout.folders|, overwrite), templates, dir, layout.files, |layout.files|, overwrite)
  }

  /** The first `n` folders of `layout`, in order. */
  function PlaceFolders(t: Entries, templates: map<string, string>, dir: Path, layout: Layout, n: nat, overwrite: bool): Entries
    requires n <= |layout.folders|
    decreases layout, 1, n
  {
    if n == 0 then t
    else
      var t1 := PlaceFolders(t, templates, dir, layout, n - 1, overwrite);
      var folder := layout.folders[n - 1];
      var p := dir + [folder.name];
      var t2 := if p in t1 then t1 else Apply(t1, MakeDirs(t1, p));
      Materialize(t2, templates, p, folder.layout, overwrite)
  }

  /** The first `n` files, in order. */
  function PlaceFiles(t: Entries, templates: map<string, string>, dir: Path, files: seq<FileSpec>, n: nat, overwrite: bool): Entries
    requires n <= |files|
  {
    if n == 0 then t
    else
      var t1 := PlaceFiles(t, templates, dir, files, n - 1, overwrite);
      var p := dir + [files[n - 1].name];
      if p !in t1 || overwrite then Apply(t1, Copied(t1, templates, p, files[n - 1])) else t1
  }

  method CreateFolderStructure(fs: FileSystem, dir: Path, layout: Layout, overwrite: bool)
    modifies fs
    ensures fs.entries == Materialize(old(fs.entries), fs.templates, dir, layout, overwrite)
    decreases layout, 2
  {
    var i := 0;
    while i < |layout.folders|
      invariant 0 <= i <= |layout.folders|
      invariant fs.entries == PlaceFolders(old(fs.entries), fs.templates, dir, layout, i, overwrite)
    {
      var folder := layout.folders[i];
      var p := dir + [folder.name];
      var present := fs.CheckExistence(p);
      if !present {
        var made := fs.CreateFolder(p);
      }
      CreateFolderStructure(fs, p, folder.layout, overwrite);
      i := i + 1;
    }
    var j := 0;
    while j < |layout.files|
      invariant 0 <= j <= |layout.files|
      invariant fs.entries == PlaceFiles(PlaceFolders(old(fs.entries), fs.templates, dir, layout, |layout.folders|, overwrite),
                                         fs.templates, dir, layout.files, j, overwrite)
    {
      var p := dir + [layout.files[j].name];
      var present := fs.CheckExistence(p);
      if !present || overwrite {
        var copied := CopyFile(fs, p, layout.files[j]);
      }
      j := j + 1;
    }
  }

  // ---------------------------------------------------------------------------
  // What a layout needs and what it guarantees

  /** Every directory from the root down to `dir` exists. */
  predicate Reachable(t: Entries, dir: Path) {
    forall i | 0 <= i <= |dir| :: IsDir(t, dir[..i])
  }

  /** Sibling folders have different names, at every level. */
  predicate DistinctFolders(layout: Layout)
    decreases layout
  {
    (forall i, j | 0 <= i < j < |layout.folders| :: layout.folders[i].name != layout.folders[j].name)
    && forall i | 0 <= i < |layout.folders| :: DistinctFolders(layout.folders[i].layout)
  }

  /** Every declared file names a template that exists. */
  predicate TemplatesPresent(templates: map<string, string>, layout: Layout)
    decreases layout
  {
    (forall j | 0 <= j < |layout.files| :: layout.files[j].template in templates)
    && forall i | 0 <= i < |layout.folders| :: TemplatesPresent(templates, layout.folders[i].layout)
  }

  /** No file sits where a folder is declared. */
  predicate NoFileAtFolders(t: Entries, dir: Path, layout: Layout)
    decreases layout
  {
    forall i | 0 <= i < |layout.folders| ::
      !IsFile(t, dir + [layout.folders[i].name]) && NoFileAtFolders(t, dir + [layout.folders[i].name], layout.folders[i].layout)
  }

  /** What `createFolderStructure` can lay out in full. */
  predicate Feasible(t: Entries, templates: map<string, string>, dir: Path, layout: Layout) {
    Reachable(t, dir) && NoFileAtFolders(t, dir, layout) && DistinctFolders(layout) && TemplatesPresent(templates, layout)
  }

  /** Every declared folder is a directory and every declared file is present. */
  predicate Complete(t: Entries, dir: Path, layout: Layout)
    decreases layout
  {
    (forall j | 0 <= j < |layout.files| :: dir + [layout.files[j].name] in t)
    && forall i | 0 <= i < |layout.folders| ::
      IsDir(t, dir + [layout.folders[i].name]) && Complete(t, dir + [layout.folders[i].name], layout.folders[i].layout)
  }

  /** Every entry `t'` has and `t` lacks lies strictly below `dir`. */
  predicate Under(t: Entries, t': Entries, dir: Path) {
    forall q | q in t' && q !in t :: dir < q
  }

  /** Every file below `p` in `t'` was already a file in `t`. */
  ghost predicate NoNewFilesUnder(t: Entries, t': Entries, p: Path) {
    forall q | p <= q && IsFile(t', q) :: IsFile(t, q)
  }

  /** With nothing below `dir`, no file can be in the way of any layout there. */
  lemma {:induction false} NoFileBelowEmpty(t: Entries, dir: Path, layout: Layout)
    requires forall q | q in t :: !(dir < q)
    ensures NoFileAtFolders(t, dir, layout)
    decreases layout
  {
    forall i | 0 <= i < |layout.folders|
      ensures !IsFile(t, dir + [layout.folders[i].name])
      ensures NoFileAtFolders(t, dir + [layout.folders[i].name], layout.folders[i].layout)
    {
      var d := dir + [layout.folders[i].name];
      assert dir < d;
      NoFileBelowEmpty(t, d, layout.folders[i].layout);
    }
  }

  lemma ExtendsTransitive(t1: Entries, t2: Entries, t3: Entries)
    requires Extends(t1, t2) && Extends(t2, t3)
    ensures Extends(t1, t3)
  {
  }

  lemma ReachableExtends(t: Entries, t': Entries, dir: Path)
    requires Reachable(t, dir) && Extends(t, t')
    ensures Reachable(t', dir)
  {
    forall i | 0 <= i <= |dir| ensures IsDir(t', dir[..i]) {
      assert IsDir(t, dir[..i]);
    }
  }

  /** `mkdir -p` of a missing child of a reachable directory adds just that child. */
  lemma MakeChild(t: Entries, dir: Path, name: string)
    requires Reachable(t, dir) && dir + [name] !in t
    ensures MakeDirs(t, dir + [name]) == Success(t[dir + [name] := Dir])
  {
    MakeReachable(t, dir);
    assert Parent(dir + [name]) == dir;
  }

  lemma {:induction false} MakeReachable(t: Entries, dir: Path)
    requires Reachable(t, dir)
    ensures MakeDirs(t, dir) == Success(t)
    decreases |dir|
  {
    if dir != [] {
      assert Reachable(t, Parent(dir)) by {
        forall i | 0 <= i <= |Parent(dir)| ensures IsDir(t, Parent(dir)[..i]) {
          assert Parent(dir)[..i] == dir[..i];
        }
      }
      MakeReachable(t, Parent(dir));
      assert IsDir(t, dir[..|dir|]);
      assert dir[..|dir|] == dir;
    }
  }

  lemma {:induction false} CompleteExtends(t: Entries, t': Entries, dir: Path, layout: Layout)
    requires Complete(t, dir, layout) && Extends(t, t')
    ensures Complete(t', dir, layout)
    decreases layout
  {
    forall i | 0 <= i < |layout.folders|
      ensures Complete(t', dir + [layout.folders[i].name], layout.folders[i].layout)
    {
      CompleteExtends(t, t', dir + [layout.folders[i].name], layout.folders[i].layout);
    }
  }

  lemma {:induction false} NoFileFrame(t: Entries, t': Entries, p: Path, layout: Layout)
    requires NoFileAtFolders(t, p, layout) && NoNewFilesUnder(t, t', p)
    ensures NoFileAtFolders(t', p, layout)
    decreases layout
  {
    forall i | 0 <= i < |layout.folders|
      ensures !IsFile(t', p + [layout.folders[i].name])
      ensures NoFileAtFolders(t', p + [layout.folders[i].name], layout.folders[i].layout)
    {
      var c := p + [layout.folders[i].name];
      assert p <= c;
      assert NoNewFilesUnder(t, t', c) by {
        forall q | c <= q && IsFile(t', q) ensures IsFile(t, q) {
          assert p <= q by { assert q[..|p|] == c[..|p|]; }
        }
      }
      NoFileFrame(t, t', c, layout.folders[i].layout);
    }
  }

  /** Copying the first `n` files into an existing directory only adds files there,
      and adds every one whose template exists. */
  lemma {:induction false} PlaceFilesSpec(t: Entries, templates: map<string, string>, dir: Path, files: seq<FileSpec>, n: nat)
    requires n <= |files| && IsDir(t, dir)
    ensures var tn := PlaceFiles(t, templates, dir, files, n, false);
      && Extends(t, tn) && Under(t, tn, dir)
      && (forall q | q in tn && q !in t :: Parent(q) == dir)
      && forall j | 0 <= j < n && files[j].template in templates :: dir + [files[j].name] in tn
  {
    if n > 0 {
      PlaceFilesSpec(t, templates, dir, files, n - 1);
      var t1 := PlaceFiles(t, templates, dir, files, n - 1, false);
      var p := dir + [files[n - 1].name];
      var tn := PlaceFiles(t, templates, dir, files, n, false);
      assert tn == if p !in t1 then Apply(t1, Copied(t1, templates, p, files[n - 1])) else t1;
      assert Parent(p) == dir;
      PlaceFileStep(t1, templates, p, files[n - 1]);
      ExtendsTransitive(t, t1, tn);
      assert Parent(p) == dir && dir < p;
      forall j | 0 <= j < n - 1 && files[j].template in templates ensures dir + [files[j].name] in tn {
        assert dir + [files[j].name] in t1;
      }
    }
  }

  /** One file copied only if absent: nothing is lost and only its own path is new. */
  lemma PlaceFileStep(t1: Entries, templates: map<string, string>, p: Path, f: FileSpec)
    requires |p| > 0 && IsDir(t1, Parent(p))
    ensures var t2 := if p !in t1 then Apply(t1, Copied(t1, templates, p, f)) else t1;
      && Extends(t1, t2) && (forall q | q in t2 && q !in t1 :: q == p)
      && (f.template in templates ==> p in t2)
  {
    if p !in t1 {
      var c := Copied(t1, templates, p, f);
      if f.template in templates {
        assert c.Success?;
      }
    }
  }

  /** The folder half of `MaterializeSpec`: after the first `n` folders every one of
      them is complete, nothing is lost, new entries lie below `dir`, and the later
      siblings' subtrees have gained no files. */
  lemma {:induction false} PlaceFoldersSpec(t: Entries, templates: map<string, string>, dir: Path, layout: Layout, n: nat)
    requires n <= |layout.folders|
    requires Reachable(t, dir) && NoFileAtFolders(t, dir, layout) && DistinctFolders(layout)
    ensures var tn := PlaceFolders(t, templates, dir, layout, n, false);
      && Extends(t, tn) && Under(t, tn, dir)
      && (forall k | n <= k < |layout.folders| :: NoNewFilesUnder(t, tn, dir + [layout.folders[k].name]))
      && (TemplatesPresent(templates, layout) ==>
            forall i | 0 <= i < n :: IsDir(tn, dir + [layout.folders[i].name]) && Complete(tn, dir + [layout.folders[i].name], layout.folders[i].layout))
    decreases layout, 1, n
  {
    if n > 0 {
      PlaceFoldersSpec(t, templates, dir, layout, n - 1);
      FolderStep(t, PlaceFolders(t, templates, dir, layout, n - 1, false), templates, dir, layout, n);
    }
  }

  /** The step of `PlaceFoldersSpec` from `n - 1` folders to `n`, on the tree `t1`
      the first `n - 1` left behind. */
  lemma {:induction false} FolderStep(t: Entries, t1: Entries, templates: map<string, string>, dir: Path, layout: Layout, n: nat)
    requires 0 < n <= |layout.folders|
    requires Reachable(t, dir) && NoFileAtFolders(t, dir, layout) && DistinctFolders(layout)
    requires Extends(t, t1) && Under(t, t1, dir)
    requires forall k | n - 1 <= k < |layout.folders| :: NoNewFilesUnder(t, t1, dir + [layout.folders[k].name])
    requires TemplatesPresent(templates, layout) ==>
      forall i | 0 <= i < n - 1 :: IsDir(t1, dir + [layout.folders[i].name]) && Complete(t1, dir + [layout.folders[i].name], layout.folders[i].layout)
    ensures var p := dir + [layout.folders[n - 1].name];
      var tn := Materialize(if p in t1 then t1 else Apply(t1, MakeDirs(t1, p)), templates, p, layout.folders[n - 1].layout, false);
      && Extends(t, tn) && Under(t, tn, dir)
      && (forall k | n <= k < |layout.folders| :: NoNewFilesUnder(t, tn, dir + [layout.folders[k].name]))
      && (TemplatesPresent(templates, layout) ==>
            forall i | 0 <= i < n :: IsDir(tn, dir + [layout.folders[i].name]) && Complete(tn, dir + [layout.folders[i].name], layout.folders[i].layout))
    decreases layout, 0
  {
    var folder := layout.folders[n - 1];
    var p := dir + [folder.name];
    assert !IsFile(t, p) && NoFileAtFolders(t, p, folder.layout);
    assert NoNewFilesUnder(t, t1, p);
    assert !IsFile(t1, p) by { assert p <= p; }
    NoFileFrame(t, t1, p, folder.layout);
    ReachableExtends(t, t1, dir);
    EnterFolder(t1, dir, folder.name, folder.layout);
    var t2 := if p in t1 then t1 else Apply(t1, MakeDirs(t1, p));
    MaterializeSpec(t2, templates, p, folder.layout);
    var tn := Materialize(t2, templates, p, folder.layout, false);
    FolderStepFrame(t, t1, t2, tn, dir, layout, n);
    if TemplatesPresent(templates, layout) {
      assert TemplatesPresent(templates, folder.layout);
      forall i | 0 <= i < n
        ensures IsDir(tn, dir + [layout.folders[i].name]) && Complete(tn, dir + [layout.folders[i].name], layout.folders[i].layout)
      {
        if i < n - 1 {
          CompleteExtends(t1, tn, dir + [layout.folders[i].name], layout.folders[i].layout);
        }
      }
    }
  }

  /** Entering a folder whose path holds no file: `mkdir -p` leaves the path a
      directory reachable from the root, and the files below it are unchanged. */
  lemma EnterFolder(t1: Entries, dir: Path, name: string, sub: Layout)
    requires Reachable(t1, dir) && !IsFile(t1, dir + [name]) && NoFileAtFolders(t1, dir + [name], sub)
    ensures var p := dir + [name];
      var t2 := if p in t1 then t1 else Apply(t1, MakeDirs(t1, p));
      && t2 == t1[p := Dir] && Extends(t1, t2) && Reachable(t2, p) && NoFileAtFolders(t2, p, sub)
  {
    var p := dir + [name];
    if p !in t1 {
      MakeChild(t1, dir, name);
    }
    var t2 := t1[p := Dir];
    assert Reachable(t2, p) by {
      forall i | 0 <= i <= |p| ensures IsDir(t2, p[..i]) {
        if i <= |dir| {
          assert p[..i] == dir[..i];
          assert IsDir(t1, dir[..i]);
        } else {
          assert p[..i] == p;
        }
      }
    }
    assert NoNewFilesUnder(t1, t2, p);
    NoFileFrame(t1, t2, p, sub);
  }

  /** One folder step of `PlaceFolders`: what the earlier steps kept, the new
      folder's subtree keeps, and the later siblings still have no new files. */
  lemma FolderStepFrame(t: Entries, t1: Entries, t2: Entries, tn: Entries, dir: Path, layout: Layout, n: nat)
    requires 0 < n <= |layout.folders|
    requires forall i, j | 0 <= i < j < |layout.folders| :: layout.folders[i].name != layout.folders[j].name
    requires Extends(t, t1) && Under(t, t1, dir)
    requires forall k | n - 1 <= k < |layout.folders| :: NoNewFilesUnder(t, t1, dir + [layout.folders[k].name])
    requires t2 == t1[dir + [layout.folders[n - 1].name] := Dir] && Extends(t1, t2)
    requires Extends(t2, tn) && Under(t2, tn, dir + [layout.folders[n - 1].name])
    ensures Extends(t1, tn) && Extends(t, tn) && Under(t, tn, dir)
    ensures forall k | n <= k < |layout.folders| :: NoNewFilesUnder(t, tn, dir + [layout.folders[k].name])
  {
    var p := dir + [layout.folders[n - 1].name];
    ExtendsTransitive(t1, t2, tn);
    ExtendsTransitive(t, t1, tn);
    forall q | q in tn && q !in t ensures dir < q {
      if q !in t1 {
        assert p <= q;
      }
    }
    forall k | n <= k < |layout.folders| ensures NoNewFilesUnder(t, tn, dir + [layout.folders[k].name]) {
      var c := dir + [layout.folders[k].name];
      assert NoNewFilesUnder(t, t1, c);
      forall q | c <= q && IsFile(tn, q) ensures IsFile(t, q) {
        assert q[|dir|] == layout.folders[k].name;
        assert !(p <= q);
      }
    }
  }

  /** On a layout that fits the tree, `createFolderStructure` without overwriting
      keeps everything there was, adds only entries below `dir`, and leaves every
      declared folder and file in place. */
  lemma {:induction false} MaterializeSpec(t: Entries, templates: map<string, string>, dir: Path, layout: Layout)
    requires Reachable(t, dir) && NoFileAtFolders(t, dir, layout) && DistinctFolders(layout)
    ensures var t' := Materialize(t, templates, dir, layout, false);
      && Extends(t, t') && Under(t, t', dir)
      && (TemplatesPresent(templates, layout) ==> Complete(t', dir, layout))
    decreases layout, 2, 0
  {
    PlaceFoldersSpec(t, templates, dir, layout, |layout.folders|);
    var t1 := PlaceFolders(t, templates, dir, layout, |layout.folders|, false);
    ReachableExtends(t, t1, dir);
    assert IsDir(t1, dir) by { assert dir[..|dir|] == dir; }
    PlaceFilesSpec(t1, templates, dir, layout.files, |layout.files|);
    var t' := Materialize(t, templates, dir, layout, false);
    ExtendsTransitive(t, t1, t');
    if TemplatesPresent(templates, layout) {
      forall i | 0 <= i < |layout.folders|
        ensures IsDir(t', dir + [layout.folders[i].name]) && Complete(t', dir + [layout.folders[i].name], layout.folders[i].layout)
      {
        CompleteExtends(t1, t', dir + [layout.folders[i].name], layout.folders[i].layout);
      }
    }
  }

  /** On a tree that already holds the whole layout, it changes nothing. */
  lemma {:induction false} CompleteIsFixpoint(t: Entries, templates: map<string, string>, dir: Path, layout: Layout)
    requires Complete(t, dir, layout)
    ensures Materialize(t, templates, dir, layout, false) == t
    decreases layout, 2, 0
  {
    FoldersFixpoint(t, templates, dir, layout, |layout.folders|);
    FilesFixpoint(t, templates, dir, layout.files, |layout.files|);
  }

  lemma {:induction false} FoldersFixpoint(t: Entries, templates: map<string, string>, dir: Path, layout: Layout, n: nat)
    requires n <= |layout.folders| && Complete(t, dir, layout)
    ensures PlaceFolders(t, templates, dir, layout, n, false) == t
    decreases layout, 1, n
  {
    if n > 0 {
      FoldersFixpoint(t, templates, dir, layout, n - 1);
      CompleteIsFixpoint(t, templates, dir + [layout.folders[n - 1].name], layout.folders[n - 1].layout);
    }
  }

  lemma {:induction false} FilesFixpoint(t: Entries, templates: map<string, string>, dir: Path, files: seq<FileSpec>, n: nat)
    requires n <= |files| && forall j | 0 <= j < |files| :: dir + [files[j].name] in t
    ensures PlaceFiles(t, templates, dir, files, n, false) == t
  {
    if n > 0 {
      FilesFixpoint(t, templates, dir, files, n - 1);
    }
  }

  /** Running `createFolderStructure` a second time on the same layout changes nothing. */
  lemma MaterializeIdempotent(t: Entries, templates: map<string, string>, dir: Path, layout: Layout)
    requires Feasible(t, templates, dir, layout)
    ensures var t' := Materialize(t, templates, dir, layout, false);
      Materialize(t', templates, dir, layout, false) == t'
  {
    MaterializeSpec(t, templates, dir, layout);
    CompleteIsFixpoint(Materialize(t, templates, dir, layout, false), templates, dir, layout);
  }

  /** Whatever the layout and flag, the result is a tree a file system can hold. */
  lemma {:induction false} MaterializeWellFormed(t: Entries, templates: map<string, string>, dir: Path, layout: Layout, overwrite: bool)
    requires WellFormed(t)
    ensures WellFormed(Materialize(t, templates, dir, layout, overwrite))
    decreases layout, 2, 0
  {
    FoldersWellFormed(t, templates, dir, layout, |layout.folders|, overwrite);
    FilesWellFormed(PlaceFolders(t, templates, dir, layout, |layout.folders|, overwrite), templates, dir, layout.files, |layout.files|, overwrite);
  }

  lemma {:induction false} FoldersWellFormed(t: Entries, templates: map<string, string>, dir: Path, layout: Layout, n: nat, overwrite: bool)
    requires n <= |layout.folders| && WellFormed(t)
    ensures WellFormed(PlaceFolders(t, templates, dir, layout, n, overwrite))
    decreases layout, 1, n
  {
    if n > 0 {
      FoldersWellFormed(t, templates, dir, layout, n - 1, overwrite);
      var t1 := PlaceFolders(t, templates, dir, layout, n - 1, overwrite);
      var p := dir + [layout.folders[n - 1].name];
      MakeDirsSpec(t1, p);
      var t2 := if p in t1 then t1 else Apply(t1, MakeDirs(t1, p));
      MaterializeWellFormed(t2, templates, p, layout.folders[n - 1].layout, overwrite);
    }
  }

  lemma {:induction false} FilesWellFormed(t: Entries, templates: map<string, string>, dir: Path, files: seq<FileSpec>, n: nat, overwrite: bool)
    requires n <= |files| && WellFormed(t)
    ensures WellFormed(PlaceFiles(t, templates, dir, files, n, overwrite))
  {
    if n > 0 {
      FilesWellFormed(t, templates, dir, files, n - 1, overwrite);
      var t1 := PlaceFiles(t, templates, dir, files, n - 1, overwrite);
      var f := files[n - 1];
      if f.template in templates {
        WriteKeepsWellFormed(t1, dir + [f.name], templates[f.template]);
        WriteKeepsWellFormed(t1, dir + [f.name], ApplyRules(templates[f.template], f.replace.GetOr([])));
      }
    }
  }

  // ---------------------------------------------------------------------------
  // replaceStructureValues

  /** `to` becomes `replaceValues[to]` when that is neither `null` nor `undefined`. */
  function Substitute(rule: Rule, values: Json.Fields): Rule {
    match Json.Lookup(values, Json.JsString(rule.to))
    case Some(v) => if v.Null? then rule else Rule(rule.from, v)
    case None => rule
  }

  function SubstituteRules(rules: seq<Rule>, values: Json.Fields): (r: seq<Rule>)
    ensures |r| == |rules|
  {
    seq(|rules|, i requires 0 <= i < |rules| => Substitute(rules[i], values))
  }

  function SubstituteFile(file: FileSpec, values: Json.Fields): FileSpec {
    match file.replace
    case None => file
    case Some(rules) => file.(replace := Some(SubstituteRules(rules, values)))
  }

  /** `replaceStructureValues(structure, values)` on every file of every folder, at any depth. */
  function ReplaceStructureValues(layout: Layout, values: Json.Fields): Layout
    decreases layout
  {
    Layout(
      seq(|layout.folders|, i requires 0 <= i < |layout.folders| =>
        layout.folders[i].(layout := ReplaceStructureValues(layout.folders[i].layout, values))),
      SubstituteFiles(layout.files, values))
  }

  function SubstituteFiles(files: seq<FileSpec>, values: Json.Fields): (r: seq<FileSpec>)
    ensures |r| == |files|
  {
    seq(|files|, j requires 0 <= j < |files| => SubstituteFile(files[j], values))
  }

  /** The loop over one file's rules, rewriting each `to` in place. */
  method ReplaceRuleTargets(rules: seq<Rule>, values: Json.Fields) returns (out: seq<Rule>)
    ensures out == SubstituteRules(rules, values)
  {
    out := rules;
    for i := 0 to |rules|
      invariant |out| == |rules|
      invariant forall k | 0 <= k < i :: out[k] == Substitute(rules[k], values)
      invariant forall k | i <= k < |rules| :: out[k] == rules[k]
    {
      match Json.Lookup(values, Json.JsString(out[i].to))
      case Some(v) =>
        if !v.Null? {
          out := out[i := out[i].(to := v)];
        }
      case None =>
    }
  }

  /** Two layouts with the same folders, names, templates and rule sources. */
  predicate SameShape(a: Layout, b: Layout)
    decreases a
  {
    && |a.folders| == |b.folders| && |a.files| == |b.files|
    && (forall j | 0 <= j < |a.files| ::
          && a.files[j].name == b.files[j].name && a.files[j].template == b.files[j].template
          && a.files[j].replace.Some? == b.files[j].replace.Some?
          && (a.files[j].replace.Some? ==>
                |a.files[j].replace.value| == |b.files[j].replace.value|
                && forall k | 0 <= k < |a.files[j].replace.value| ::
                     a.files[j].replace.value[k].from == b.files[j].replace.value[k].from))
    && forall i | 0 <= i < |a.folders| ::
         a.folders[i].name == b.folders[i].name && SameShape(a.folders[i].layout, b.folders[i].layout)
  }

  /** Substitution changes no name, template, `from` or order, at any depth. */
  lemma {:induction false} ReplaceKeepsShape(layout: Layout, values: Json.Fields)
    ensures SameShape(layout, ReplaceStructureValues(layout, values))
    decreases layout
  {
    var r := ReplaceStructureValues(layout, values);
    forall i | 0 <= i < |layout.folders|
      ensures SameShape(layout.folders[i].layout, r.folders[i].layout)
    {
      ReplaceKeepsShape(layout.folders[i].layout, values);
    }
  }

  /** Layouts of the same shape agree on distinct names and on the templates they need. */
  lemma {:induction false} ShapeKeepsFit(a: Layout, b: Layout, templates: map<string, string>)
    requires SameShape(a, b)
    ensures DistinctFolders(a) ==> DistinctFolders(b)
    ensures TemplatesPresent(templates, a) ==> TemplatesPresent(templates, b)
    decreases a
  {
    forall i | 0 <= i < |a.folders|
      ensures DistinctFolders(a.folders[i].layout) ==> DistinctFolders(b.folders[i].layout)
      ensures TemplatesPresent(templates, a.folders[i].layout) ==> TemplatesPresent(templates, b.folders[i].layout)
    {
      ShapeKeepsFit(a.folders[i].layout, b.folders[i].layout, templates);
    }
  }

  /** Every rule of the layout, files before sub-folders, depth first. */
  function AllRules(layout: Layout): seq<Rule>
    decreases layout
  {
    FileRules(layout.files, |layout.files|) + FolderRules(layout, |layout.folders|)
  }

  function FileRules(files: seq<FileSpec>, n: nat): seq<Rule>
    requires n <= |files|
  {
    if n == 0 then [] else FileRules(files, n - 1) + files[n - 1].replace.GetOr([])
  }

  function FolderRules(layout: Layout, n: nat): seq<Rule>
    requires n <= |layout.folders|
    decreases layout, n
  {
    if n == 0 then [] else FolderRules(layout, n - 1) + AllRules(layout.folders[n - 1].layout)
  }

  lemma SubstituteRulesConcat(a: seq<Rule>, b: seq<Rule>, values: Json.Fields)
    ensures SubstituteRules(a + b, values) == SubstituteRules(a, values) + SubstituteRules(b, values)
  {
  }

  /** Every rule at every depth is substituted, once, and nothing else is. */
  lemma {:induction false} ReplaceAllRules(layout: Layout, values: Json.Fields)
    ensures AllRules(ReplaceStructureValues(layout, values)) == SubstituteRules(AllRules(layout), values)
    decreases layout, 1
  {
    var r := ReplaceStructureValues(layout, values);
    FileRulesSubstituted(layout.files, values, |layout.files|);
    FolderRulesSubstituted(layout, values, |layout.folders|);
    SubstituteRulesConcat(FileRules(layout.files, |layout.files|), FolderRules(layout, |layout.folders|), values);
    assert |r.files| == |layout.files| && |r.folders| == |layout.folders|;
    assert AllRules(r) == FileRules(r.files, |layout.files|) + FolderRules(r, |layout.folders|);
  }

  lemma {:induction false} FileRulesSubstituted(files: seq<FileSpec>, values: Json.Fields, n: nat)
    requires n <= |files|
    ensures FileRules(SubstituteFiles(files, values), n)
         == SubstituteRules(FileRules(files, n), values)
  {
    if n > 0 {
      FileRulesSubstituted(files, values, n - 1);
      SubstituteRulesConcat(FileRules(files, n - 1), files[n - 1].replace.GetOr([]), values);
    }
  }

  lemma {:induction false} FolderRulesSubstituted(layout: Layout, values: Json.Fields, n: nat)
    requires n <= |layout.folders|
    ensures FolderRules(ReplaceStructureValues(layout, values), n) == SubstituteRules(FolderRules(layout, n), values)
    decreases layout, 0, n
  {
    if n > 0 {
      var r := ReplaceStructureValues(layout, values);
      var sub := layout.folders[n - 1].layout;
      assert r.folders[n - 1].layout == ReplaceStructureValues(sub, values);
      assert FolderRules(r, n) == FolderRules(r, n - 1) + AllRules(ReplaceStructureValues(sub, values));
      FolderRulesSubstituted(layout, values, n - 1);
      ReplaceAllRules(sub, values);
      SubstituteRulesConcat(FolderRules(layout, n - 1), AllRules(sub), values);
    }
  }

  /** A rule's target changes exactly when the values hold a non-null entry under it,
      and then becomes that entry: the lookup is made once and not repeated on the
      value found. */
  lemma SubstituteChanges(rule: Rule, values: Json.Fields)
    ensures Substitute(rule, values).from == rule.from
    ensures Substitute(rule, values) != rule <==>
      exists v :: v != rule.to && !v.Null? && Json.Lookup(values, Json.JsString(rule.to)) == Some(v)
    ensures var found := Json.Lookup(values, Json.JsString(rule.to));
      found.Some? && !found.value.Null? ==> Substitute(rule, values).to == found.value
    ensures var found := Json.Lookup(values, Json.JsString(rule.to));
      found.None? || found.value.Null? ==> Substitute(rule, values) == rule
  {
  }

  /** For instance, with `name` mapped to `"model"` and `model` to `"Account"`, a
      `{{name}}` rule becomes `"model"`, not `"Account"`. */
  lemma SubstituteChainExample()
    ensures var values := [("name", Json.Str("model")), ("model", Json.Str("Account"))];
      Substitute(Rule("{{name}}", Json.Str("name")), values).to == Json.Str("model")
  {
    var values := [("name", Json.Str("model")), ("model", Json.Str("Account"))];
    assert Json.Lookup(values, "name") == Some(Json.Str("model"));
  }
}

=== FILE: text.dfy ===
/** Character classes and the string primitives the CLI builds on: `split`, `join`,
    `String.prototype.replace` with a string pattern, global replacement, and the
    decimal rendering of numbers. Characters are compared as code points; case
    mapping covers ASCII letters only. */
module Text {
  import opened Wrappers

  predicate IsDigit(c: char) { '0' <= c <= '9' }
  predicate IsUpper(c: char) { 'A' <= c <= 'Z' }
  predicate IsLower(c: char) { 'a' <= c <= 'z' }

  /** The class `[a-zA-Z0-9]`. */
  predicate IsAlnum(c: char) { IsDigit(c) || IsUpper(c) || IsLower(c) }

  /** JavaScript's `\s` class. */
  predicate IsSpace(c: char) {
    c == ' ' || c == '\t' || c == '\n' || c == '\r' || c == '\U{0B}' || c == '\U{0C}'
    || c == '\U{A0}' || c == '\U{1680}' || ('\U{2000}' <= c <= '\U{200A}')
    || c == '\U{2028}' || c == '\U{2029}' || c == '\U{202F}' || c == '\U{205F}'
    || c == '\U{3000}' || c == '\U{FEFF}'
  }

  predicate AllAlnum(s: string) { forall i | 0 <= i < |s| :: IsAlnum(s[i]) }

  function ToUpper(c: char): (u: char)
    ensures !IsLower(u)
    ensures IsAlnum(c) <==> IsAlnum(u)
  {
    if IsLower(c) then (c as int - 32) as char else c
  }

  function ToLower(c: char): (l: char)
    ensures !IsUpper(l)
    ensures IsAlnum(c) <==> IsAlnum(l)
  {
    if IsUpper(c) then (c as int + 32) as char else c
  }

  /** `toLowerCase()` on ASCII text. */
  function Lower(s: string): (l: string)
    ensures |l| == |s|
    ensures forall i | 0 <= i < |s| :: l[i] == ToLower(s[i])
  {
    if |s| == 0 then "" else [ToLower(s[0])] + Lower(s[1..])
  }

  /** `s.split(sep)` for a one-character separator. */
  function Split(s: string, sep: char): (parts: seq<string>)
    ensures |parts| >= 1
    ensures forall i | 0 <= i < |parts| :: sep !in parts[i]
    ensures sep !in s ==> parts == [s]
    decreases |s|
  {
    if |s| == 0 then [""]
    else
      var rest := Split(s[1..], sep);
      assert s == [s[0]] + s[1..];
      if s[0] == sep then [""] + rest
      else [[s[0]] + rest[0]] + rest[1..]
  }

  /** `parts.join(sep)`. */
  function Join(parts: seq<string>, sep: char): string
  {
    if |parts| == 0 then ""
    else if |parts| == 1 then parts[0]
    else parts[0] + [sep] + Join(parts[1..], sep)
  }

  lemma JoinPrepend(c: char, parts: seq<string>, sep: char)
    requires |parts| >= 1
    ensures Join([[c] + parts[0]] + parts[1..], sep) == [c] + Join(parts, sep)
  {
    var ps := [[c] + parts[0]] + parts[1..];
    if |parts| > 1 {
      assert ps[1..] == parts[1..];
    }
  }

  /** Joining what `Split` cut gives the text back. */
  lemma {:induction false} JoinSplit(s: string, sep: char)
    ensures Join(Split(s, sep), sep) == s
    decreases |s|
  {
    if |s| > 0 {
      JoinSplit(s[1..], sep);
      var rest := Split(s[1..], sep);
      if s[0] == sep {
        assert ([""] + rest)[1..] == rest;
      } else {
        JoinPrepend(s[0], rest, sep);
      }
      assert s == [s[0]] + s[1..];
    }
  }

  /** `pat` occurs in `s` at position `i`. */
  predicate OccursAt(s: string, pat: string, i: nat) {
    i + |pat| <= |s| && s[i..i + |pat|] == pat
  }

  /** The first occurrence of `pat` at or after `from`. */
  function IndexOfFrom(s: string, pat: string, from: nat): (r: Option<nat>)
    ensures r.Some? ==> from <= r.value && OccursAt(s, pat, r.value)
    ensures r.Some? ==> forall j | from <= j < r.value :: !OccursAt(s, pat, j)
    ensures r.None? ==> forall j: nat | from <= j :: !OccursAt(s, pat, j)
    decreases |s| - from
  {
    if from + |pat| > |s| then None
    else if OccursAt(s, pat, from) then Some(from)
    else IndexOfFrom(s, pat, from + 1)
  }

  /** `s.replace(pat, rep)` with a string pattern: only the first occurrence is
      replaced, and an empty pattern matches at the start. */
  function ReplaceFirst(s: string, pat: string, rep: string): (r: string)
    ensures (forall j: nat :: !OccursAt(s, pat, j)) ==> r == s
    ensures forall i: nat | OccursAt(s, pat, i) && (forall j | 0 <= j < i :: !OccursAt(s, pat, j)) ::
      r == s[..i] + rep + s[i + |pat|..]
  {
    match IndexOfFrom(s, pat, 0)
    case None => s
    case Some(i) => s[..i] + rep + s[i + |pat|..]
  }

  /** `s.replace(/pat/g, rep)`: every occurrence, scanning left to right without overlap. */
  function ReplaceAll(s: string, pat: string, rep: string): (r: string)
    requires |pat| > 0
    decreases |s|
  {
    match IndexOfFrom(s, pat, 0)
    case None => s
    case Some(i) => s[..i] + rep + ReplaceAll(s[i + |pat|..], pat, rep)
  }

  /** Every character of the result comes from `s` or from `rep`. */
  lemma {:induction false} ReplaceAllChars(s: string, pat: string, rep: string, ok: char -> bool)
    requires |pat| > 0
    requires forall i | 0 <= i < |s| :: ok(s[i])
    requires forall i | 0 <= i < |rep| :: ok(rep[i])
    ensures forall i | 0 <= i < |ReplaceAll(s, pat, rep)| :: ok(ReplaceAll(s, pat, rep)[i])
    decreases |s|
  {
    match IndexOfFrom(s, pat, 0)
    case None =>
    case Some(i) =>
      var tail := s[i + |pat|..];
      ReplaceAllChars(tail, pat, rep, ok);
      var r := s[..i] + rep + ReplaceAll(tail, pat, rep);
      forall k | 0 <= k < |r| ensures ok(r[k]) {
        if k < i {
          assert r[k] == s[k];
        } else if k < i + |rep| {
          assert r[k] == rep[k - i];
        } else {
          assert r[k] == ReplaceAll(tail, pat, rep)[k - i - |rep|];
        }
      }
  }

  lemma ReplaceAllAbsent(s: string, pat: string, rep: string)
    requires |pat| > 0
    requires forall j: nat :: !OccursAt(s, pat, j)
    ensures ReplaceAll(s, pat, rep) == s
  {
  }

  /** `s.replace(/[^a-zA-Z0-9]/g, "")`. */
  function StripNonAlnum(s: string): (r: string)
    ensures AllAlnum(r)
    ensures |r| <= |s|
    ensures AllAlnum(s) ==> r == s
  {
    if |s| == 0 then ""
    else if IsAlnum(s[0]) then [s[0]] + StripNonAlnum(s[1..])
    else StripNonAlnum(s[1..])
  }

  function DigitChar(d: nat): (c: char)
    requires d < 10
    ensures IsDigit(c)
  {
    ('0' as int + d) as char
  }

  predicate AllDigits(s: string) { forall i | 0 <= i < |s| :: IsDigit(s[i]) }

  /** `String(n)` for a non-negative integer. */
  function NatToString(n: nat): (s: string)
    ensures |s| >= 1 && AllDigits(s)
    ensures n > 0 <==> s[0] != '0'
    ensures n < 10 <==> |s| == 1
  {
    if n < 10 then [DigitChar(n)] else NatToString(n / 10) + [DigitChar(n % 10)]
  }

  /** `String(i)` for any integer. */
  function IntToString(i: int): string
  {
    if i < 0 then "-" + NatToString(-i) else NatToString(i)
  }

  /** The number a string of decimal digits denotes. */
  function DigitsValue(s: string): nat
    requires AllDigits(s)
  {
    if |s| == 0 then 0 else DigitsValue(s[..|s| - 1]) * 10 + (s[|s| - 1] as int - '0' as int)
  }

  /** A canonical array index ("0", "7", "42" but not "", "07" or "-1"):
      the keys under which a JavaScript array holds its elements. */
  function ParseIndex(k: string): (r: Option<nat>)
    ensures r.Some? ==> |k| > 0 && AllDigits(k)
  {
    if |k| > 0 && AllDigits(k) && (|k| == 1 || k[0] != '0') then Some(DigitsValue(k)) else None
  }

  lemma {:induction false} DigitsValueOfNat(n: nat)
    ensures DigitsValue(NatToString(n)) == n
    decreases n
  {
    if n >= 10 {
      DigitsValueOfNat(n / 10);
      var s := NatToString(n);
      assert s[..|s| - 1] == NatToString(n / 10);
    }
  }

  /** The key `String(i)` addresses element `i` of an array. */
  lemma IndexRoundTrip(n: nat)
    ensures ParseIndex(NatToString(n)) == Some(n)
  {
    DigitsValueOfNat(n);
  }
}

=== FILE: wrappers.dfy ===
/** Option and Result: the absent value and the thrown error of the JavaScript source. */
module Wrappers {

  datatype Option<+T> = None | Some(value: T) {
    predicate IsFailure() { None? }

    function PropagateFailure<U>(): Option<U>
      requires None?
    {
      None
    }

    function Extract(): T
      requires Some?
    {
      value
    }

    function GetOr(default: T): T {
      if Some? then value else default
    }
  }

  /** `Failure` stands for an exception the source throws (or an error object it returns). */
  datatype Result<+T> = Success(value: T) | Failure(error: string) {
    predicate IsFailure() { Failure? }

    function PropagateFailure<U>(): Result<U>
      requires Failure?
    {
      Failure(error)
    }

    function Extract(): T
      requires Success?
    {
      value
    }
  }
}
